=== FILE: README.md ===
# binance-tradekit, modelled in Dafny

binance-tradekit puts one typed interface in front of several crypto venues: Bybit, Binance and
Bitget, reached through ccxt, and OKX, reached over plain HTTP and a websocket. Every public
operation returns a tagged `Result` instead of throwing. This project models the core of the
library as pure Dafny functions and proves what the library promises about it:

- **Proxy rotation.** `ProxyRotator` is a pool of HTTP proxies plus the index of the next one.
  `BaseClass` holds the credentials, the sandbox flag and a rotator. `syncCCXTProxy` and the
  facades' `syncProxy` point the ccxt exchange object at a proxy. That includes the
  `Proxy-Authorization: Basic …` header, modelled down to UTF-8 and base 64 (RFC 3629,
  RFC 4648 section 4).
- **Error normalisation.** `handleError` of the three ccxt venues and `handleErrors` /
  `parseResponse` of the OKX client. This includes the payload the venue embeds in ccxt's
  message and the upper-snake conversion of class names.
- **The ccxt facades.** Constructors, tickers, balances, leverage, and opening and closing
  positions with the polling loop that waits for a fill. Every operation runs inside
  `try … catch … finally syncProxy()`.
- **The shared adapters** from ccxt orders, balances and tickers to the library's types.
- **The ticker streams** of Bybit, Bitget, Binance and OKX: what each pushed event stores and
  emits, the subscriptions, and the error parsers.
- **The OKX HTTP handler** and its adapters.

JavaScript is modelled only as far as the library relies on it (`js.dfy`):

- values as `JSON.parse` produces them, plus `undefined`, with numbers restricted to integers;
- truthiness, `??` and property reads that throw on `null` and `undefined`;
- `parseInt` (ECMA-262 section 19.2.5), `%`, and `new Date(ms)` with its TimeClip;
- a `Completion` that is either a value or what was thrown.

Everything outside the library is a parameter of the function that uses it:

- what ccxt, axios or the socket answer;
- `JSON.parse` (an oracle from text to an optional value);
- the clock (a sequence of readings);
- `parseFloat` (the terms it builds are kept symbolic).

## Model

| member | source | states |
|---|---|---|
| Proxy.NewRotator | src/shared/proxy/index.ts:15-18 | the pool is the given proxies (empty when none) and rotation starts at the first |
| Proxy.Rotate | src/shared/proxy/index.ts:20-23 | a non-empty pool moves to the next proxy, wrapping after the last; an empty pool's index becomes NaN; the pool is untouched |
| Proxy.SetProxies | src/shared/proxy/index.ts:75-78 | the pool is replaced and rotation restarts at its first entry |
| Proxy.CurrentProxy | src/shared/proxy/index.ts:80-85 | undefined exactly for an empty pool, otherwise the proxy at the index |
| Proxy.FinalConfig | src/shared/proxy/index.ts:30-33 | the request config holds the current proxy unless the caller gave one, keeps every caller key, and always has the verb and URL of the call |
| Proxy.Request | src/shared/proxy/index.ts:25-43 | the request goes through the current proxy; the pool rotates only when the call succeeds, and a failure leaves the rotator as it was |
| Proxy.RequestGet | src/shared/proxy/index.ts:45-50 | a GET to the URL, rotating only on success |
| Proxy.RequestPost | src/shared/proxy/index.ts:52-58 | a POST whose body becomes the config's `data` |
| Proxy.RequestPut | src/shared/proxy/index.ts:60-66 | a PUT whose body becomes the config's `data` |
| Proxy.RequestDelete | src/shared/proxy/index.ts:68-73 | a DELETE to the URL, rotating only on success |
| Proxy.RotateNIndex | src/shared/proxy/index.ts:20-23 | k rotations, k up to the pool size, move the index k places modulo the size |
| Proxy.FullCycle | src/shared/proxy/index.ts:20-23 | rotating once per proxy restores the rotator |
| Proxy.EveryProxyServes | src/shared/proxy/index.ts:80-85 | within one cycle every proxy of the pool becomes the current one |
| BaseClass.New | src/shared/base.ts:13-17 | sandbox is on only when given as true; credentials and pool come from the options; the first proxy is current |
| BaseClass.SetAuth | src/shared/base.ts:20-23 | stores the credentials and reports success |
| BaseClass.GetAuth | src/shared/base.ts:25-35 | the stored credentials, or `AUHT_UNSET` exactly when none were set |
| BaseClass.SetSandbox | src/shared/base.ts:38-41 | stores the flag, returns it, and changes nothing else |
| BaseClass.AddProxy | src/shared/base.ts:44-47 | the proxy joins the end of the pool, rotation restarts, and the proxy is returned |
| BaseClass.SetProxies | src/shared/base.ts:49-52 | replaces the pool and returns its size |
| BaseClass.GetProxies | src/shared/base.ts:54-62 | the pool, or `PROXY_UNSET` exactly when it is empty |
| BaseClass.GetCurrentProxy | src/shared/base.ts:64-72 | the current proxy, or `PROXY_UNSET` exactly when the pool is empty |
| BaseClass.RotateProxy | src/shared/base.ts:74-83 | rotates, then reports the proxy now current, or `PROXY_UNSET` for an empty pool |
| BaseClass.AuthRoundTrip | src/shared/base.ts:20-35 | credentials that were set are read back |
| BaseClass.AddProxyThenRead | src/shared/base.ts:44-72 | an added proxy is the last of the pool and the first proxy is current again |
| BaseClass.RotateProxyAgrees | src/shared/base.ts:64-83 | what `rotateProxy` reports is what `getCurrentProxy` reports afterwards |
| BaseClass.RotateProxyCycle | src/shared/base.ts:74-83 | one `rotateProxy` per proxy comes back to the same client |
| ProxySync.ProxyUrl | src/shared/proxy/sync.ts:9 | the URL is `http://`, the host, `:` and the port's decimal numeral, which parses back to the port |
| ProxySync.BasicHeader | src/shared/proxy/sync.ts:11-16 | the header value is `Basic ` followed by the encoded credentials |
| ProxySync.SyncCcxtProxy | src/shared/proxy/sync.ts:5-20 | sets `httpProxy` always; adds the authorization header only with credentials; keeps every other header and field |
| ProxySync.HeaderRoundTrip | src/shared/proxy/sync.ts:11-16 | decoding the header after `Basic ` gives back `username:password` |
| ProxySync.HeaderDeterminesCredentials | src/shared/proxy/sync.ts:11-16 | two proxies with equal headers have equal `username:password` texts |
| ProxySync.SyncProxy | src/bybit/index.ts:245-252 | the client rotates; a non-empty pool points the exchange at the new current proxy; an empty pool clears only `exchange.proxy` |
| ProxySync.SyncProxyThenRead | src/binance/index.ts:244-252 | Binance's variant ignores the rotation's result and reads the current proxy |
| ProxySync.SyncProxyVariantsAgree | src/binance/index.ts:244-252 | the Binance variant has the same effect as the Bybit and Bitget one |
| ProxySync.SyncProxyUsesNextProxy | src/bybit/index.ts:245-252 | over a non-empty pool the exchange ends up on the proxy after the current one |
| Base64.Encode | src/shared/proxy/sync.ts:11-13 | the encoding is a whole number of four-character groups, at least one for non-empty input |
| Base64.DecodeEncode | src/shared/proxy/sync.ts:11-13 | decoding the encoding gives back exactly the bytes |
| Base64.EncodeLength | src/shared/proxy/sync.ts:11-13 | the encoding's length is four times the number of three-byte groups, rounded up |
| Base64.DecodeEncodeText | src/shared/proxy/sync.ts:11-13 | the base 64 of a text's UTF-8 encoding decodes back to that text |
| Utf8.EncodeChar | src/shared/proxy/sync.ts:11-13 | a character takes one to four bytes, as RFC 3629 prescribes |
| Utf8.DecodeEncode | src/shared/proxy/sync.ts:11-13 | decoding undoes `Buffer.from`'s encoding |
| Utf8.EncodeInjective | src/shared/proxy/sync.ts:11-13 | two texts with the same encoding are equal |
| Js.ParseInt | src/okx/errors.ts:45 | `parseInt` gives NaN for a radix outside 2..36 (other than an absent one) and for a blank string |
| Js.ParseIntOfDecimal | src/okx/errors.ts:45-50 | the decimal numeral of an integer parses back to it |
| Js.JsRem | src/shared/proxy/index.ts:22 | a zero divisor or a NaN dividend gives NaN; a non-negative dividend below a positive divisor is kept |
| Js.JsRemTruncates | src/shared/proxy/index.ts:22 | `%` is the ECMA-262 remainder `a − d·q` with `q` truncated toward zero: smaller than the divisor in magnitude, with the dividend's sign |
| Js.MakeDate | src/shared/adapters/ticker.ts:27 | `new Date(ms)` is valid exactly within ±8.64e15 ms |
| Js.All | src/bitget/index.ts:69-71 | the steps' values in order, or the first thing thrown |
| Js.NumOrZero | src/shared/adapters/balance.ts:22-24 | a truthy amount is kept and anything else becomes 0 |
| Naming.UpperSnakeIsReference | src/binance/errors.ts:70-73 | splitting a class name before capitals (dropping a dot there), joining with `_` and upper-casing puts `_` before every capital that is neither first nor after a dot |
| Naming.LoopIsReference | src/bybit/errors.ts:55-58 | the regex split-and-join loop keeps its invariant and ends in the character-wise reference |
| Naming.BaseErrorExample | src/bybit/test/errors.spec.ts:68-79 | `BaseError` becomes `BASE_ERROR` |
| Naming.SingleWordExamples | src/bitget/errors.ts:68-71 | `Error` becomes `ERROR`, and the empty name stays empty |
| Strs.JoinSplit | src/bitget/utils.ts:1-5 | joining the pieces of a split with its separator gives back the string |
| Strs.SplitJoin | src/bitget/utils.ts:1-5 | splitting a join of separator-free parts gives back the parts |
| Strs.IndexOf | src/binance/errors.ts:44-47 | the first position where the pattern occurs, or none |
| Strs.ReplaceFirst | src/binance/errors.ts:44-47 | `replace` with a string changes only the first occurrence |
| Strs.ReplacePrefix | src/binance/errors.ts:44-47 | a string that starts with the pattern loses exactly that prefix |
| Strs.ReplaceCharRoundTrip | src/okx/market-data/http.ts:23 | replacing the first `a` by a character the string lacks can be undone |
| Symbols.NormalizeSymbol | src/bitget/utils.ts:1-5 | throws exactly when the symbol has no `/`; otherwise base and quote with the settle dropped, each prefixed `S` in sandbox mode |
| Symbols.NormalizeSymbolOfParts | src/bitget/utils.ts:1-5 | `BASE/QUOTE[:SETTLE]` becomes `[S]BASE[S]QUOTE` |
| Symbols.NormalizeSandboxExample | src/bitget/test/utils.spec.ts:10-13 | `BTC/USD:USD` in sandbox mode becomes `SBTCSUSD` |
| Symbols.NormalizeSettleExample | src/bitget/test/utils.spec.ts:35-38 | `BNB/USDT:USD` becomes `BNBUSDT` |
| Symbols.WireSymbol | src/binance/websoket.ts:47-52 | the first `/` is removed and everything from the first `:` dropped |
| Symbols.WireSymbolOfParts | src/bybit/websoket.ts:76-84 | `BASE/QUOTE[:SETTLE]` goes on the wire as `BASEQUOTE` |
| Symbols.OkxSymbolRoundTrip | src/okx/market-data/adapters.ts:6 | a `BASE/QUOTE` symbol survives the trip to an instrument id and back |
| Symbols.InstIdRoundTrip | src/okx/market-data/http.ts:23 | an instrument id `BASE-QUOTE` survives the trip to a symbol and back |
| Symbols.SymbolsMap | src/bybit/websoket.ts:76-81 | each key maps to the value of its last pair |
| Symbols.LookupRecoversSymbol | src/bybit/websoket.ts:132 | when wire forms are distinct, a subscribed symbol's wire form maps back to it |
| TradeErrors.CreateError | src/shared/adapters/shared.ts:3-9 | a `TRADEKIT_ERROR` with code `CONVERSION_ERROR` and the message |
| VenueErrors.BinancePayload | src/binance/errors.ts:48-64 | for any payload object, whatever other fields it has: code -2022 is a rejected order with the payload's message, any other code is the venue's, reported as its string; a nullish payload or a missing code throws a TypeError |
| VenueErrors.BybitPayload | src/bybit/errors.ts:42-49 | `retCode` and `retMsg` pass through; a null payload throws a TypeError |
| VenueErrors.BitgetPayload | src/bitget/errors.ts:37-62 | for any payload object, whatever other fields it has: "40034" is a bad symbol and "22002" a rejected order, each with the payload's message; any other code, or none, passes through with the message; only a nullish payload throws |
| VenueErrors.ExchangeFailure | src/binance/errors.ts:23-65 | bad symbols and (Binance, Bybit) rejected orders come from the error class; every other exchange error is read from its message, and JSON that does not parse escapes as a SyntaxError |
| VenueErrors.HandleError | src/bybit/errors.ts:5-82 | rate limits become `RATE_LIMIT` exactly; network errors become `NETWORK_ERROR`; other ccxt errors become `CCXT_ERROR` with the original; plain errors become `UNKNOWN_ERROR`; anything else becomes `GOOD_JOB`; only JSON.parse or a payload read can throw |
| VenueErrors.BinanceCodeRoundTrip | src/binance/errors.ts:44-64 | a payload `{code, msg}` gives a rejected order for -2022, else the code as a string that parses back to it |
| VenueErrors.BybitPassThrough | src/bybit/errors.ts:38-49 | a Bybit payload is reported unchanged, whatever its code |
| VenueErrors.BitgetCodes | src/bitget/errors.ts:22-62 | Bitget re-classifies two codes, even for ccxt's InvalidOrder, and passes others through |
| VenueErrors.PlainErrorNames | src/bitget/errors.ts:77-87 | a plain `Error`'s upper-snake name is the message on Binance and Bybit, and the code on Bitget |
| OkxErrors.HandleErrors | src/okx/errors.ts:7-40 | 429 is `RATE_LIMIT`; another HTTP error is `EXCHANGE_ERROR` with status, parsed code and message (a missing body throws); no response is `NETWORK_ERROR`; other errors are `UNKNOWN_ERROR`; a non-error is `WELL_DONE` |
| OkxErrors.ParseResponse | src/okx/errors.ts:42-54 | no error exactly when the code parses to 0; otherwise `EXCHANGE_ERROR` with status 200 |
| OkxErrors.ParseResponseCode | src/okx/errors.ts:42-54 | a body with code n is accepted iff n is 0, and otherwise reports n |
| OkxErrors.HttpErrorCode | src/okx/errors.ts:12-22 | an HTTP error body with code n reports status and n |
| Adapters.StatusOf | src/shared/adapters/order.ts:10-22 | `open`, `closed` and `canceled` map to `new`, `filled` and `canceled`, and nothing else is accepted |
| Adapters.TypeOf | src/shared/adapters/order.ts:24-28 | only the four order types are accepted |
| Adapters.SideOf | src/shared/adapters/order.ts:30-31 | only `buy` and `sell` are accepted |
| Adapters.OrderAdapter | src/shared/adapters/order.ts:8-45 | status, type and side are checked in that order, the first failure is the error, and an accepted order copies the ccxt fields |
| Adapters.OrderAdapterAccepts | src/shared/adapters/order.ts:8-45 | every status, type and side of the library is accepted from its ccxt name and recorded |
| Adapters.StatusCheckedFirst | src/shared/adapters/order.ts:20-21 | a bad status is reported even when type and side are also bad |
| Adapters.BalanceAdapter | src/shared/adapters/balance.ts:5-35 | exactly the non-meta keys holding an entry with some amount are currencies, their amounts `\|\| 0`; the timestamp and the date come from two separate clock readings |
| Adapters.BalanceKeys | src/shared/adapters/balance.ts:9-13 | metadata keys never become currencies, and every currency came from the input |
| Adapters.FilterCurrenciesMembership | src/bybit/index.ts:97-106 | filtering with a list keeps exactly the listed currencies the balance holds |
| Adapters.TickerAdapter | src/shared/adapters/ticker.ts:8-46 | a ticker missing or zero in any required field is rejected; otherwise fields are copied, with the timestamp and date defaulting to the clock and the opening time one day before it |
| Adapters.OpenTimeIgnoresTicker | src/shared/adapters/ticker.ts:26-27 | the opening time depends on the clock only |
| Adapters.ZeroChangeRejected | src/shared/adapters/ticker.ts:15 | a change of exactly zero is rejected as missing |
| Wrappers.Combine | src/bybit/index.ts:66-67 | the first error in list order, otherwise every value in order |
| Facade.Caught | src/bybit/index.ts:187-188 | a thrown error becomes the venue's normalised `Err`, unless normalisation itself throws |
| Facade.Guarded | src/bybit/index.ts:187-191 | the body's outcome, with throws normalised; `syncProxy` runs once whatever happens |
| Facade.Construct | src/bybit/index.ts:35-46 | the constructor's state, then one `syncProxy` |
| Facade.ConstructUsesSecondProxy | src/bybit/index.ts:45 | with two proxies or more, a new facade's exchange is on the second one |
| Facade.GetTicker | src/bybit/index.ts:48-59 | the fetched ticker through the shared adapter, or the normalised error |
| Facade.GetRaw | src/binance/index.ts:38-62 | Binance returns ccxt's tickers unadapted |
| Facade.BybitGetTickers | src/bybit/index.ts:61-73 | success exactly when every ticker is complete, with one result per ticker, each opening a day before the clock reading its own adapter call took; otherwise the conversion error |
| Facade.BitgetGetTickers | src/bitget/index.ts:65-79 | one fetch per requested symbol, then the combined adaptations, each with its own clock reading; one result per symbol on success |
| Facade.GetBalance | src/bitget/index.ts:97-120 | the adapted balance, holding exactly the listed currencies it has when a list is given, with timestamp and date from the adapter's two clock readings |
| Facade.FilterRaw | src/binance/index.ts:86-107 | exactly the listed currencies present in `free`, with their free, used and total amounts; `info` and `datetime` kept; other keys dropped |
| Facade.BinanceGetBalance | src/binance/index.ts:80-115 | ccxt's balance unadapted, filtered when a list is given |
| Facade.LeverageCatch | src/bybit/index.ts:129-147 | an exchange error whose payload has `retCode` 110043 is success; anything else is normalised |
| Facade.SetLeverage | src/binance/index.ts:117-150 | no symbol is `BAD_SYMBOL` without calling the venue; otherwise success, or the leverage-unchanged rule |
| Facade.LeverageAlreadySet | src/bybit/index.ts:132-144 | a payload `{"retCode": 110043, …}` leaves the leverage as set |
| Facade.BitgetLeverageParams | src/bitget/index.ts:136-149 | the call's body is the normalised symbol, the (sandbox-prefixed) product and margin coin, the leverage sent and the side; it throws when the symbol cannot be normalised |
| Facade.BitgetLeverageCalls | src/bitget/index.ts:136-150 | long side first, then short; the first failure stops and is normalised; success only after both |
| Facade.BitgetSetLeverage | src/bitget/index.ts:122-156 | as written: `BAD_SYMBOL` without a symbol; otherwise both sides are sent leverage 1 and success answers the leverage asked for |
| Facade.BitgetLeverageBothSides | src/bitget/index.ts:136-150 | a successful answer means both sides were set, long then short, to leverage 1 |
| Facade.BitgetLeverageMisreported | src/bitget/index.ts:140-150 | asked for 10, the answer is `Ok(10)` while 1 was sent on both sides |
| Facade.FixedBitgetSetLeverage | src/bitget/index.ts:122-156 | the corrected operation sends the requested leverage on both sides |
| Facade.FixedBitgetLeverageApplied | src/bitget/index.ts:136-150 | corrected, a successful answer is the leverage both sides were set to |
| Controller.PollFrom | src/bybit/index.ts:169-178 | stops at the first poll that throws or sees a fill; times out only after unfilled polls once the time ran out; never polls past the timeout |
| Controller.PollBound | src/bybit/index.ts:171-172 | with one poll per second at most, there are at most ceil(timeout/1000) polls and none for a timeout of zero or less |
| Controller.Poll | src/binance/index.ts:170-178 | the loop computes `PollFrom` and respects the poll bound |
| Positions.ActionSide | src/bybit/index.ts:151-204 | longs open by buying and close by selling; shorts the reverse |
| Positions.CloseOpposesOpen | src/bitget/index.ts:158-220 | closing trades against the side that opened the position |
| Positions.Timeout | src/bybit/index.ts:170 | `timeInForce ?? 30000`: an explicit zero stays zero |
| Positions.AwaitFill | src/bybit/index.ts:169-186 | a fill runs the fill step; a timeout cancels the order and then reports `TIME_OUT`; a poll's throw propagates |
| Positions.TimeOutOnlyAfterCancel | src/bybit/index.ts:179-186 | `TIME_OUT` only when the time ran out with no fill and the cancel succeeded |
| Positions.PollsWithinTimeout | src/bybit/index.ts:171-173 | a filled order was polled at most once a second within the limit |
| Positions.MarketOrderFor | src/bybit/index.ts:211-219 | the symbol, amount and side of the action; closing orders are reduce-only |
| Positions.BybitPosition | src/bybit/index.ts:163-243 | place, poll `fetchOpenOrders()` until the order is missing, then adapt `fetchClosedOrder`; failures normalised; `syncProxy` once |
| Positions.BybitTimeOut | src/bybit/index.ts:179-186 | on Bybit `TIME_OUT` means the order was placed, listed open at every poll until time ran out, and cancelled |
| Positions.BinancePosition | src/binance/index.ts:164-192 | polls `fetchOpenOrders(symbol)` and answers the placed order itself once it is missing |
| Positions.BinanceAnswersPlacedOrder | src/binance/index.ts:174-176 | an answered order is the one placed, gone from the open orders at the last poll |
| Positions.CaughtNeverTimesOut | src/bybit/errors.ts:5-82 | no venue's normalisation produces `TIME_OUT` |
| Positions.GuardedTimeOut | src/bitget/index.ts:185-207 | behind the facade's catch, `TIME_OUT` comes only from the loop with a successful cancel |
| Positions.PlaceOrderFor | src/bitget/index.ts:175-184 | the placement body: normalised symbol, sandbox-prefixed product and coin, isolated market order, `reduceOnly: 'YES'` when closing; throws when the symbol cannot be normalised |
| Positions.OrderIdOf | src/bitget/index.ts:190 | `order.data.orderId`, throwing when the response or its data is null |
| Positions.BitgetPosition | src/bitget/index.ts:170-261 | polls `fetchOrder(id, symbol)` until nothing remains and answers that poll adapted; cancels with the symbol |
| Positions.BitgetAnswersFilledOrder | src/bitget/index.ts:189-193 | a returned order is the adaptation of the last poll, which showed nothing remaining |
| StreamCommon.StreamSymbol | src/bitget/websoket.ts:131 | a string maps to its subscribed symbol if registered and non-empty, otherwise stays as is |
| StreamCommon.WsError | src/bybit/websoket.ts:92-118 | `HANDLED_ERROR` with the parsed message and connection id exactly when parsing and reading succeed, otherwise the unhandled error |
| StreamCommon.ReadTwo | src/bitget/websoket.ts:85-91 | reading two fields throws only on a null payload |
| BybitStream.Topics | src/bybit/websoket.ts:82-87 | one `tickers.<wire symbol>` topic per symbol, in order |
| BybitStream.Subscribe | src/bybit/websoket.ts:74-90 | nothing stored, and every wire form mapped to its symbol |
| BybitStream.SubscribedSymbolReported | src/bybit/websoket.ts:76-132 | a ticker naming a subscribed wire form reports the subscribed symbol when wire forms are distinct |
| BybitStream.Merge | src/bybit/websoket.ts:52-58 | the delta's fields override the snapshot's; everything else comes from the snapshot |
| BybitStream.Adapt | src/bybit/websoket.ts:120-148 | the stream ticker as written, with `absChange` = previous price − last price |
| BybitStream.OpenTimeOneDayBefore | src/bybit/websoket.ts:134-145 | within the valid date range, the opening time is exactly a day before the ticker's time |
| BybitStream.Update | src/bybit/websoket.ts:47-65 | a snapshot is stored and emits nothing; a delta merges into the stored snapshot and emits it, or does nothing when none is stored |
| BybitStream.DeltasBeforeSnapshotIgnored | src/bybit/websoket.ts:51-63 | deltas before any snapshot change nothing and emit nothing |
| BybitStream.DeltasMergeIntoSnapshot | src/bybit/websoket.ts:51-63 | after a snapshot, each delta emits one ticker and the snapshot accumulates their fields, later ones winning |
| BybitStream.SnapshotThenDeltas | src/bybit/websoket.ts:47-65 | a snapshot then n deltas emits n tickers and leaves the merged snapshot |
| BybitStream.CrossTopicDelta | src/bybit/websoket.ts:10-65 | as written, an ETHUSDT delta after a BTCUSDT snapshot emits a BTCUSDT ticker with the ETH price |
| BybitStream.AbsChangeSign | src/bybit/websoket.ts:137 | as written, `absChange` is the negative of last − open |
| BybitStream.FixedAdapt | src/bybit/websoket.ts:120-148 | the corrected adapter with `absChange` = last − open |
| BybitStream.FixedAbsChange | src/bybit/websoket.ts:137 | corrected, the change is last less open, whatever `parseFloat` gives |
| BybitStream.FixedUpdate | src/bybit/websoket.ts:47-65 | with one slot per topic, an event touches only its own topic's slot |
| BybitStream.OtherTopicsUntouched | src/bybit/websoket.ts:47-65 | corrected, events of other topics never change a topic's slot |
| BybitStream.FixedNoCrossTalk | src/bybit/websoket.ts:47-65 | corrected, the ETHUSDT delta emits nothing and the BTCUSDT snapshot is kept |
| BybitStream.HandleError | src/bybit/websoket.ts:92-118 | `ret_msg` and `conn_id` of the parsed error, or the unhandled error when it does not parse |
| BitgetStream.Put | src/bitget/websoket.ts:48 | `Map.set`: the key holds the value, an existing key keeps its place, a new one goes last, and other keys are unchanged |
| BitgetStream.StoreAll | src/bitget/websoket.ts:46-49 | a snapshot's items are stored one after the other; keys already stored keep their places |
| BitgetStream.StoreAllKeys | src/bitget/websoket.ts:46-49 | after a snapshot the keys are exactly the earlier ones and those of its items |
| BitgetStream.StoreAllLast | src/bitget/websoket.ts:46-49 | a snapshot item whose key no later item repeats is stored as it came |
| BitgetStream.MergeOne | src/bitget/websoket.ts:51-63 | a delta item with an `instId` and a stored key is merged over that snapshot; otherwise nothing changes |
| BitgetStream.MergeAll | src/bitget/websoket.ts:51-63 | delta items never add keys or reorder them |
| BitgetStream.Adapt | src/bitget/websoket.ts:106-147 | the stream ticker: times parsed as integers, `absChange` = last − open, `percChange` = change/open × 100, symbol looked up |
| BitgetStream.ChangeOverOpen | src/bitget/websoket.ts:127-128 | evaluated, the change is last − open and the percentage is 100 × change / open when open is non-zero |
| BitgetStream.Update | src/bitget/websoket.ts:45-69 | the store after the event, and one ticker per stored snapshot in first-stored order, on every event |
| BitgetStream.DeltaKeepsKeys | src/bitget/websoket.ts:51-63 | a delta keeps the keys and their order, and so the number of tickers emitted |
| BitgetStream.SnapshotKeepsOrder | src/bitget/websoket.ts:46-49 | a snapshot keeps earlier keys in place, ahead of new ones |
| BitgetStream.SnapshotItemStored | src/bitget/websoket.ts:46-49 | a snapshot item not repeated later in the event is stored as it came |
| BitgetStream.DeltaItemMerged | src/bitget/websoket.ts:52-61 | a delta item for a stored key, not repeated later, leaves that snapshot merged with it |
| BitgetStream.StoredKeysKept | src/bitget/websoket.ts:45-69 | no event removes a stored key, so its snapshot keeps being emitted |
| BitgetStream.Subscribe | src/bitget/websoket.ts:71-76 | every symbol normalised and subscribed on `USDT-FUTURES`/`ticker`; a symbol without `/` throws |
| BitgetStream.SubscribedSymbolReported | src/bitget/websoket.ts:71-131 | a ticker for a subscribed symbol's normalised form reports that symbol when forms are distinct |
| BitgetStream.HandleError | src/bitget/websoket.ts:83-104 | `msg` and `wsKey` of the parsed error, or the unhandled error |
| BinanceStream.Adapt | src/binance/websoket.ts:87-105 | fields copied; the symbol is the venue's own |
| BinanceStream.AdaptRoundTrip | src/binance/websoket.ts:87-105 | while the opening time is a valid date, the message can be read back from the ticker |
| BinanceStream.OpenTimeOutOfRange | src/binance/websoket.ts:102 | an opening time outside the date range gives an invalid date |
| BinanceStream.Deliver | src/binance/websoket.ts:42-45 | every formatted message is adapted and delivered |
| BinanceStream.Subscribe | src/binance/websoket.ts:47-52 | one `usdm` subscription per symbol's wire form |
| BinanceStream.SubscribedAsConcatenation | src/binance/websoket.ts:47-52 | `BASE/QUOTE[:SETTLE]` is subscribed as `BASEQUOTE` |
| BinanceStream.HandleError | src/binance/websoket.ts:59-85 | `error.message` and `wsKey` when the parsed error has an `error`, otherwise the unhandled error |
| OkxAdapters.InstIdOf | src/okx/market-data/adapters.ts:6 | reading `instId.split` throws unless the item is an object with a string `instId` |
| OkxAdapters.AdaptPrice | src/okx/market-data/adapters.ts:4-10 | symbol from the instrument id, time from `ts`, price from `last`; throws only on a bad item |
| OkxAdapters.AdaptTicker | src/okx/market-data/adapters.ts:12-34 | every field read from the item; the day opens one day before `ts`; timeframe `1d` |
| OkxAdapters.AdaptersAgree | src/okx/market-data/adapters.ts:4-34 | both adapters accept the same items and agree on symbol, time and price |
| OkxAdapters.OpenedADayBefore | src/okx/market-data/adapters.ts:13-29 | a `ts` of t stamps t and opens at t − 86 400 000 |
| OkxAdapters.UnparsableTimeInvalid | src/okx/market-data/adapters.ts:16-29 | a `ts` that does not parse gives invalid dates for both |
| OkxAdapters.SymbolRoundTrip | src/okx/market-data/adapters.ts:6-15 | a symbol sent as an instrument id comes back as itself |
| OkxHttp.SingleRequest | src/okx/market-data/http.ts:23-30 | the ticker endpoint with the symbol's instrument id |
| OkxHttp.Caught | src/okx/market-data/http.ts:36-38 | whatever `handleErrors` gives, as an `Err` |
| OkxHttp.Answer | src/okx/market-data/http.ts:32-38 | a failed call is normalised; a non-zero code is its error; a zero code is the read body; a throw while reading is normalised too |
| OkxHttp.AnswerContract | src/okx/market-data/http.ts:24-38 | a handler escapes only with what `handleErrors` itself throws |
| OkxHttp.RequestedMembers | src/okx/market-data/http.ts:57 | the filter throws exactly on a null item and otherwise keeps exactly the requested items |
| OkxHttp.RequestedKeepsOrder | src/okx/market-data/http.ts:57 | the filter keeps the response's order |
| OkxHttp.NoneRequested | src/okx/market-data/http.ts:101 | with no requested item the answer is empty, not an error |
| OkxHttp.ReadListedWellFormed | src/okx/market-data/http.ts:101-102 | a well-formed list gives one adaptation per requested item, in order |
| OkxHttp.GetPrice | src/okx/market-data/http.ts:20-39 | the first item, adapted, after the code check |
| OkxHttp.GetTicker | src/okx/market-data/http.ts:64-83 | the first item, adapted, after the code check |
| OkxHttp.TickerOfFirstItem | src/okx/market-data/http.ts:35-79 | a code-0 answer with a readable first item answers that item adapted |
| OkxHttp.GetPrices | src/okx/market-data/http.ts:41-62 | a failed call escapes only when `handleErrors` throws, and a non-zero code is answered as an error |
| OkxHttp.PricesOfRequestedItems | src/okx/market-data/http.ts:54-58 | a code-0 list answer gives one price per item naming a requested instrument, in the venue's order |
| OkxHttp.GetTickers | src/okx/market-data/http.ts:85-106 | the requested items of the answer, adapted |
| OkxHttp.TickersOfRequestedItems | src/okx/market-data/http.ts:101-102 | one ticker per requested item, in order |
| OkxStream.PushedError | src/okx/market-data/websocket.ts:111-121 | the pushed message, its code parsed as an integer, and its connection id |
| OkxStream.Adapter | src/okx/market-data/websocket.ts:106-123 | a confirmation calls `onSubscribed`; an error push calls `onError`; neither delivers; anything else is read |
| OkxStream.OnMessage | src/shared/websocket/index.ts:12-18 | malformed JSON throws; without a message handler nothing happens; otherwise the adapter runs and a truthy result is delivered |
| OkxStream.ControlMessagesNotDelivered | src/okx/market-data/websocket.ts:107-121 | confirmations and error pushes never reach the message handler |
| OkxStream.ErrorPushReported | src/okx/market-data/websocket.ts:111-121 | an error push with code n is reported once with code n |
| OkxStream.DataPushDelivered | src/okx/market-data/websocket.ts:122 | a readable data push is delivered once |
| OkxStream.SilentWithoutMessageHandler | src/shared/websocket/index.ts:14 | without a message handler even confirmations and errors go unreported |
| OkxStream.MapItems | src/okx/market-data/websocket.ts:52 | a missing or null `data` throws the property-read TypeError, any other non-array the not-a-function TypeError; otherwise each item adapted |
| OkxStream.ListReadItemwise | src/okx/market-data/websocket.ts:52-89 | the list readers succeed exactly when every item reads, one value per item |
| OkxStream.SingleIsFirstOfList | src/okx/market-data/websocket.ts:33-71 | the single readers give the first of what the list readers give |
| OkxStream.SubscribePayload | src/okx/market-data/websocket.ts:129-137 | `subscribe` with a `tickers` entry per instrument, in order |
| OkxStream.OnConnect | src/okx/market-data/websocket.ts:26-30 | sends the subscription, then calls the user's `onConnect` if supplied |
| OkxStream.SubscribedInstrumentsRoundTrip | src/okx/market-data/websocket.ts:46-47 | each requested instrument maps back to its symbol |

## Left out

- Js.ParseInt: its contract states only when the result is NaN; the value of a decimal numeral is stated by `Js.ParseIntOfDecimal`, and the other cases of `parseInt` (hexadecimal, other radices) are stated by no lemma.
- Base64.Encode: its contract states only the length; what the characters are is stated through `Base64.DecodeEncode`.
- `parseFloat`, IEEE arithmetic and rounding: prices are symbolic terms over the input text and are evaluated in exact reals; NaN and infinities are not modelled beyond "no value".
- Sockets, HTTP transport, the host URL and the stream clients' `close`, `reconnect` and `retry` handlers: these are I/O; the model takes what they deliver as inputs.
- `Date.now()`, `new Date()` and `setTimeout`: every reading of the clock is a separate input, one per read the code performs. The polling loop's readings advance at least 1000 ms per sleep.
- Promise concurrency: `Promise.all` and the stream callbacks are taken in order, one at a time.
- JSON numbers with a fraction or an exponent: a `JsVal` number is an integer, so a parsed `1.5` has no `JsVal`. The parsed payloads are read only for codes and messages, and OKX sends its prices as strings. The amounts and prices that ccxt hands over are a separate type of exact reals (`Js.Num`).
- `toUpperCase` beyond ASCII: `Naming.UpperSnake` upper-cases only `a`–`z`. Non-ASCII letters such as `ä` stay unchanged and `ß` does not become `SS`. The class names it is applied to are ASCII identifiers.
- Facade.FilterRaw: `currency in balance.free` is read as an own-key test. Inherited names such as `constructor`, which JavaScript's `in` also finds on the prototype, are not treated as present.
- ProxySync.BasicHeader: credentials are taken to be well-formed Unicode. A JavaScript string may hold a lone UTF-16 surrogate, which `Buffer.from` encodes as EF BF BD, so such a username or password would not survive the round trip. A Dafny `string` cannot hold one.
- Utf8.EncodeChar: encodes Unicode scalar values only; the replacement of lone surrogates is not modelled, for the reason above.
- Logging (`console.error` in the Bybit normaliser, the silent `customLogger` of the stream clients) has no observable effect and is not modelled.
- The ccxt exchange constructor settings (`apiKey`, `secret`, sandbox mode, `defaultType`) are passed to ccxt, which is not part of this model.
- Bybit's stream subscription swallows every exception (src/bybit/websoket.ts:88-89); the model has nothing that can throw there.
- `subscribeToTicker` and `subscribeToTickers` of the ccxt facades only construct a stream client; the clients themselves are modelled.
- ProxySync.SyncProxy: on an empty pool only the exchange's `proxy` is cleared. An `httpProxy` and a `Proxy-Authorization` header set by an earlier sync stay in effect. Likewise, when the next proxy has no credentials, a `Proxy-Authorization` header set earlier stays.
- OkxErrors.HandleErrors: an HTTP error whose response has no body makes `parseInt(data.code)` throw a TypeError, which escapes instead of becoming a normalised error.
- Proxy.Request: `ProxyRotator.request` rotates only after a successful call. The facades instead rotate in `finally`, after every call.
- BitgetStream.Adapt: the symbol is `symbolsMap.get(instId) || instId`, so an unknown instrument keeps the venue's name.
- OkxStream.OnMessage: the OKX adapter, error pushes included, runs only when a message handler was supplied.
- BitgetStream.Subscribe: a symbol without `/` throws in the constructor, because `normalizeSymbol` reads the missing second piece.
- Facade.LeverageCatch: on Binance the 110043 check reads `retCode`, a Bybit field, from the Binance payload, a field the Binance error body (`code`, `msg`) does not carry.
- Facade.BybitGetTickers: ccxt's `fetchTickers` result is taken as a list; the key order of the object ccxt returns is not modelled.
- Positions.BybitPosition: the fill step and the cancel are oracle answers; ccxt's own retries are not modelled.

## Findings

| source | as written | input that shows it | evidently intended | confidence | as-written member | corrected member |
|---|---|---|---|---|---|---|
| src/bybit/websoket.ts:10-65 | one `currentSnapshot` is shared by every subscribed topic, and each delta is merged into it | a `tickers.BTCUSDT` snapshot, then a `tickers.ETHUSDT` delta with `lastPrice` 3000: a ticker for BTCUSDT with last price 3000 is emitted | one snapshot per topic, each delta merged into its own topic's snapshot | not executed; high | BybitStream.CrossTopicDelta | BybitStream.FixedNoCrossTalk |
| src/bybit/websoket.ts:137 | `absChange = prevPrice24h - lastPrice` | open 58000, last 59500 gives −1500 for a rising price | last − open, as in the shared ccxt adapter and the Bitget stream | not executed; high | BybitStream.AbsChangeSign | BybitStream.FixedAbsChange |
| src/bitget/index.ts:140-150 | both `setLeverage` calls send `leverage: 1`, and the method answers `ok(opts.leverage)` | leverage 10 on `BTC/USDT`, with both calls accepted: the answer is `Ok(10)` while 1 was set on both sides | send `opts.leverage` on both sides | not executed; medium | Facade.BitgetLeverageMisreported | Facade.FixedBitgetLeverageApplied |

=== FILE: adapters.dfy ===
/** The shared adapters from ccxt structures to the library's own: `ccxtOrderAdapter` (which
    validates status, type and side, in that order), `ccxtBalanceAdapter` (which keeps the
    currency entries) and `ccxtTickerAdapter` (which rejects a ticker with a missing or zero
    field). The current time is a parameter. */
module Adapters {
  import opened Wrappers
  import opened Js
  import TE = TradeErrors

  /** Milliseconds in a day: `24 * 60 * 60 * 1000`. */
  const OneDay: int := 86400000

  // ---------------------------------------------------------------------------
  // Orders

  /** The fields of a ccxt order the library reads; absent fields are None. */
  datatype CcxtOrder = CcxtOrder(
    id: string,
    symbol: string,
    price: Option<Num>,
    amount: Option<Num>,
    status: Option<string>,
    orderType: Option<string>,
    side: Option<string>,
    timestamp: Option<int>,
    datetime: Option<string>,
    clientOrderId: Option<string>,
    remaining: Option<Num>)

  datatype OrderStatus = New | Filled | Canceled
  datatype OrderType = Market | Limit | Stop | StopLimit
  datatype Side = Buy | Sell

  datatype Order = Order(
    orderId: string,
    symbol: string,
    price: Option<Num>,
    quantity: Option<Num>,
    orderType: OrderType,
    side: Side,
    status: OrderStatus,
    timestamp: Option<int>,
    datetime: Date,
    clientOrderId: Option<string>)

  /** The ccxt status each library status comes from. */
  function CcxtStatus(s: OrderStatus): string {
    match s
    case New => "open"
    case Filled => "closed"
    case Canceled => "canceled"
  }

  function TypeName(t: OrderType): string {
    match t
    case Market => "market"
    case Limit => "limit"
    case Stop => "stop"
    case StopLimit => "stop-limit"
  }

  function SideName(s: Side): string {
    match s
    case Buy => "buy"
    case Sell => "sell"
  }

  function StatusOf(s: Option<string>): (r: Option<OrderStatus>)
    ensures r.Some? ==> s == Some(CcxtStatus(r.value))
    ensures s.Some? && (exists t :: CcxtStatus(t) == s.value) ==> r.Some?
  {
    if s == Some("open") then Some(New)
    else if s == Some("closed") then Some(Filled)
    else if s == Some("canceled") then Some(Canceled)
    else None
  }

  function TypeOf(s: Option<string>): (r: Option<OrderType>)
    ensures r.Some? ==> s == Some(TypeName(r.value))
    ensures s.Some? && (exists t :: TypeName(t) == s.value) ==> r.Some?
  {
    if s == Some("market") then Some(Market)
    else if s == Some("limit") then Some(Limit)
    else if s == Some("stop") then Some(Stop)
    else if s == Some("stop-limit") then Some(StopLimit)
    else None
  }

  function SideOf(s: Option<string>): (r: Option<Side>)
    ensures r.Some? ==> s == Some(SideName(r.value))
    ensures s.Some? && (exists t :: SideName(t) == s.value) ==> r.Some?
  {
    if s == Some("buy") then Some(Buy)
    else if s == Some("sell") then Some(Sell)
    else None
  }

  /** `ccxtOrderAdapter`: the first failing check, in the order status, type, side, names the
      error; otherwise the order with `id` as `orderId` and `amount` as `quantity`. */
  function OrderAdapter(o: CcxtOrder): (r: Result<Order, TE.TradeError>)
    ensures r.Ok? <==> StatusOf(o.status).Some? && TypeOf(o.orderType).Some? && SideOf(o.side).Some?
    ensures StatusOf(o.status).None? ==> r == Err(TE.CreateError("Unknown order status"))
    ensures StatusOf(o.status).Some? && TypeOf(o.orderType).None? ==> r == Err(TE.CreateError("Unknown order type"))
    ensures StatusOf(o.status).Some? && TypeOf(o.orderType).Some? && SideOf(o.side).None? ==>
      r == Err(TE.CreateError("Unknown order side"))
    ensures r.Ok? ==>
      && o.status == Some(CcxtStatus(r.value.status))
      && o.orderType == Some(TypeName(r.value.orderType))
      && o.side == Some(SideName(r.value.side))
      && r.value.orderId == o.id && r.value.quantity == o.amount
      && r.value.symbol == o.symbol && r.value.price == o.price
      && r.value.timestamp == o.timestamp && r.value.clientOrderId == o.clientOrderId
      && r.value.datetime == DateOfOptText(o.datetime)
  {
    match StatusOf(o.status)
    case None => Err(TE.CreateError("Unknown order status"))
    case Some(status) =>
      match TypeOf(o.orderType)
      case None => Err(TE.CreateError("Unknown order type"))
      case Some(t) =>
        match SideOf(o.side)
        case None => Err(TE.CreateError("Unknown order side"))
        case Some(side) =>
          Ok(Order(o.id, o.symbol, o.price, o.amount, t, side, status, o.timestamp,
                   DateOfOptText(o.datetime), o.clientOrderId))
  }

  /** Every adapted order records the status, type and side it was given: for every library
      value, the ccxt spelling of it is accepted and read back as that value. */
  lemma OrderAdapterAccepts(o: CcxtOrder, s: OrderStatus, t: OrderType, d: Side)
    requires o.status == Some(CcxtStatus(s)) && o.orderType == Some(TypeName(t)) && o.side == Some(SideName(d))
    ensures var r := OrderAdapter(o);
      r.Ok? && r.value.status == s && r.value.orderType == t && r.value.side == d
  {
  }

  /** The status check comes first: a bad status is reported even when type and side are also bad. */
  lemma StatusCheckedFirst(o: CcxtOrder)
    requires o.status == Some("expired") && o.orderType == None && o.side == Some("long")
    ensures OrderAdapter(o) == Err(TE.CreateError("Unknown order status"))
  {
  }

  // ---------------------------------------------------------------------------
  // Balances

  /** One entry of a ccxt balance: falsy (None), or an object whose amounts may be undefined. */
  datatype BalanceEntry = BalanceEntry(free: Option<Num>, used: Option<Num>, total: Option<Num>)

  type CcxtBalances = map<string, Option<BalanceEntry>>

  datatype CurrencyBalance = CurrencyBalance(free: Num, used: Num, total: Num)

  datatype Balance = Balance(currencies: map<string, CurrencyBalance>, timestamp: int, datetime: Date)

  /** Keys of a ccxt balance that are not currencies. */
  predicate IsMetaKey(k: string) {
    k == "info" || k == "timestamp" || k == "datetime"
  }

  /** A currency entry worth reporting: present, with at least one amount defined. */
  predicate HasAmounts(e: Option<BalanceEntry>) {
    e.Some? && (e.value.free.Some? || e.value.used.Some? || e.value.total.Some?)
  }

  function Amounts(e: BalanceEntry): (c: CurrencyBalance)
    ensures NumTruthy(e.free) ==> Some(c.free) == e.free
    ensures !NumTruthy(e.free) ==> c.free == Finite(0.0)
    ensures NumTruthy(e.used) ==> Some(c.used) == e.used
    ensures !NumTruthy(e.used) ==> c.used == Finite(0.0)
    ensures NumTruthy(e.total) ==> Some(c.total) == e.total
    ensures !NumTruthy(e.total) ==> c.total == Finite(0.0)
  {
    CurrencyBalance(NumOrZero(e.free), NumOrZero(e.used), NumOrZero(e.total))
  }

  /** `ccxtBalanceAdapter`. The clock is read twice: `stamp` is the reading stored as the
      timestamp and `date` the later one stored as the date. */
  function BalanceAdapter(b: CcxtBalances, stamp: int, date: int): (r: Balance)
    ensures r.currencies.Keys == set k | k in b && !IsMetaKey(k) && HasAmounts(b[k])
    ensures forall k :: k in r.currencies ==> r.currencies[k] == Amounts(b[k].value)
    ensures r.timestamp == stamp && r.datetime == MakeDate(Int(date))
  {
    var currencies := map k | k in b && !IsMetaKey(k) && HasAmounts(b[k]) :: Amounts(b[k].value);
    Balance(currencies, stamp, MakeDate(Int(date)))
  }

  /** The metadata keys never show up as currencies, and every currency shown was in the input. */
  lemma BalanceKeys(b: CcxtBalances, stamp: int, date: int)
    ensures var cs := BalanceAdapter(b, stamp, date).currencies;
      "info" !in cs && "timestamp" !in cs && "datetime" !in cs && cs.Keys <= b.Keys
  {
  }

  /** `getBalance` of Bybit and Bitget with a currency filter: the adapted currencies whose key
      is listed, unchanged. */
  function FilterCurrencies(cs: map<string, CurrencyBalance>, wanted: Option<seq<string>>): (r: map<string, CurrencyBalance>)
    ensures wanted.None? ==> r == cs
    ensures wanted.Some? ==> r.Keys == cs.Keys * (set i | 0 <= i < |wanted.value| :: wanted.value[i])
    ensures forall k :: k in r ==> k in cs && r[k] == cs[k]
  {
    match wanted
    case None => cs
    case Some(ws) =>
      assert forall k :: k in ws <==> k in (set i | 0 <= i < |ws| :: ws[i]) by {
        forall k ensures k in ws <==> k in (set i | 0 <= i < |ws| :: ws[i]) {
          if k in ws {
            var i :| 0 <= i < |ws| && ws[i] == k;
          }
        }
      }
      map k | k in cs && k in ws :: cs[k]
  }

  /** Filtering with a list keeps exactly the listed currencies that the balance holds. */
  lemma FilterCurrenciesMembership(cs: map<string, CurrencyBalance>, ws: seq<string>, k: string)
    ensures k in FilterCurrencies(cs, Some(ws)) <==> k in cs && k in ws
  {
    if k in ws {
      var i :| 0 <= i < |ws| && ws[i] == k;
    }
  }

  // ---------------------------------------------------------------------------
  // Tickers

  /** The fields of a ccxt ticker the library reads. */
  datatype CcxtTicker = CcxtTicker(
    symbol: Option<string>,
    timestamp: Option<int>,
    datetime: Option<string>,
    last: Option<Num>,
    close: Option<Num>,
    change: Option<Num>,
    percentage: Option<Num>,
    high: Option<Num>,
    low: Option<Num>,
    baseVolume: Option<Num>,
    quoteVolume: Option<Num>,
    open: Option<Num>,
    info: JsVal)

  /** The library's ticker. `S` is how the symbol is held (a string, or whatever a stream message
      carried) and `P` how prices are held (ccxt Numbers, `parseFloat` terms, raw message values). */
  datatype Ticker<S, P> = Ticker(
    symbol: S,
    timestamp: IntOrNaN,
    datetime: Date,
    last: P,
    close: P,
    absChange: P,
    percChange: P,
    high: P,
    low: P,
    volume: P,
    baseVolume: P,
    quoteVolume: P,
    open: P,
    openTime: Date,
    info: JsVal)

  /** Every field the adapter requires is truthy: a zero counts as missing. */
  predicate Complete(t: CcxtTicker) {
    t.symbol.Some? && t.symbol.value != ""
    && NumTruthy(t.last) && NumTruthy(t.close) && NumTruthy(t.change) && NumTruthy(t.percentage)
    && NumTruthy(t.high) && NumTruthy(t.low) && NumTruthy(t.baseVolume) && NumTruthy(t.quoteVolume)
    && NumTruthy(t.open)
  }

  /** `ccxtTickerAdapter`, with `now` the reading of the clock. */
  function TickerAdapter(t: CcxtTicker, now: int): (r: Result<Ticker<string, Num>, TE.TradeError>)
    ensures r.Ok? <==> Complete(t)
    ensures r.Err? ==> r.error == TE.CreateError("Missing ticker data")
    ensures r.Ok? ==>
      && t.symbol == Some(r.value.symbol)
      && t.last == Some(r.value.last) && t.close == Some(r.value.close)
      && t.change == Some(r.value.absChange) && t.percentage == Some(r.value.percChange)
      && t.high == Some(r.value.high) && t.low == Some(r.value.low)
      && t.baseVolume == Some(r.value.volume) && r.value.baseVolume == r.value.volume
      && t.quoteVolume == Some(r.value.quoteVolume) && t.open == Some(r.value.open)
      && r.value.info == t.info
    ensures r.Ok? ==> r.value.timestamp == Int(t.timestamp.GetOr(now))
    ensures r.Ok? ==> r.value.datetime == (if t.datetime.Some? then DateOfText(t.datetime.value) else MakeDate(Int(now)))
    ensures r.Ok? ==> r.value.openTime == MakeDate(Int(now - OneDay))
  {
    if !Complete(t) then Err(TE.CreateError("Missing ticker data"))
    else
      Ok(Ticker(t.symbol.value, Int(t.timestamp.GetOr(now)),
                if t.datetime.Some? then DateOfText(t.datetime.value) else MakeDate(Int(now)),
                t.last.value, t.close.value, t.change.value, t.percentage.value,
                t.high.value, t.low.value, t.baseVolume.value, t.baseVolume.value,
                t.quoteVolume.value, t.open.value, MakeDate(Int(now - OneDay)), t.info))
  }

  /** The opening time is a day before the clock reading, whatever time the ticker carries. */
  lemma OpenTimeIgnoresTicker(t: CcxtTicker, u: CcxtTicker, now: int)
    requires Complete(t) && Complete(u)
    ensures TickerAdapter(t, now).value.openTime == TickerAdapter(u, now).value.openTime
  {
  }

  /** A ticker whose change is exactly zero is rejected. */
  lemma ZeroChangeRejected(t: CcxtTicker, now: int)
    requires t.change == Some(Finite(0.0))
    ensures TickerAdapter(t, now) == Err(TE.CreateError("Missing ticker data"))
  {
  }
}

=== FILE: base64.dfy ===
/** Base 64 encoding with the standard alphabet and `=` padding (RFC 4648 section 4), as
    `buffer.toString('base64')` produces it. */
module Base64 {
  import opened Wrappers
  import opened Utf8

  /** The character for a 6-bit value (RFC 4648 section 4, Table 1). */
  function CharOf(v: nat): (c: char)
    requires v < 64
  {
    if v < 26 then ('A' as int + v) as char
    else if v < 52 then ('a' as int + (v - 26)) as char
    else if v < 62 then ('0' as int + (v - 52)) as char
    else if v == 62 then '+'
    else '/'
  }

  /** The 6-bit value of an alphabet character; None for padding and anything else. */
  function ValueOf(c: char): (r: Option<nat>)
    ensures r.Some? ==> r.value < 64 && CharOf(r.value) == c
  {
    if 'A' <= c <= 'Z' then Some(c as int - 'A' as int)
    else if 'a' <= c <= 'z' then Some(c as int - 'a' as int + 26)
    else if '0' <= c <= '9' then Some(c as int - '0' as int + 52)
    else if c == '+' then Some(62)
    else if c == '/' then Some(63)
    else None
  }

  lemma ValueOfCharOf(v: nat)
    requires v < 64
    ensures ValueOf(CharOf(v)) == Some(v) && CharOf(v) != '='
  {
  }

  /** Three bytes become four characters. */
  function EncodeGroup(b0: byte, b1: byte, b2: byte): string {
    [CharOf(b0 as nat / 4), CharOf((b0 as nat % 4) * 16 + b1 as nat / 16),
     CharOf((b1 as nat % 16) * 4 + b2 as nat / 64), CharOf(b2 as nat % 64)]
  }

  function Encode(bs: seq<byte>): (r: string)
    ensures |r| % 4 == 0
    ensures |bs| > 0 ==> |r| >= 4
  {
    if |bs| == 0 then ""
    else if |bs| == 1 then
      [CharOf(bs[0] as nat / 4), CharOf((bs[0] as nat % 4) * 16), '=', '=']
    else if |bs| == 2 then
      [CharOf(bs[0] as nat / 4), CharOf((bs[0] as nat % 4) * 16 + bs[1] as nat / 16),
       CharOf((bs[1] as nat % 16) * 4), '=']
    else EncodeGroup(bs[0], bs[1], bs[2]) + Encode(bs[3..])
  }

  /** Four characters of the encoding, decoded; `last` says whether padding may occur. The
      bits that padding leaves over must be zero (the canonical encoding of section 3.5). */
  function DecodeQuad(q: string, last: bool): (r: Option<seq<byte>>)
    requires |q| == 4
  {
    var v0 := ValueOf(q[0]);
    var v1 := ValueOf(q[1]);
    if v0.None? || v1.None? then None
    else if last && q[2] == '=' && q[3] == '=' then
      if v1.value % 16 != 0 then None
      else Some([(v0.value * 4 + v1.value / 16) as byte])
    else
      var v2 := ValueOf(q[2]);
      if v2.None? then None
      else if last && q[3] == '=' then
        if v2.value % 4 != 0 then None
        else Some([(v0.value * 4 + v1.value / 16) as byte, ((v1.value % 16) * 16 + v2.value / 4) as byte])
      else
        var v3 := ValueOf(q[3]);
        if v3.None? then None
        else Some([(v0.value * 4 + v1.value / 16) as byte, ((v1.value % 16) * 16 + v2.value / 4) as byte,
                   ((v2.value % 4) * 64 + v3.value) as byte])
  }

  function Decode(s: string): (r: Option<seq<byte>>)
    ensures |s| % 4 != 0 ==> r.None?
  {
    if |s| == 0 then Some([])
    else if |s| < 4 then None
    else
      match DecodeQuad(s[..4], |s| == 4)
      case None => None
      case Some(bs) =>
        match Decode(s[4..])
        case None => None
        case Some(rest) => Some(bs + rest)
  }

  lemma GroupArithmetic(x0: nat, x1: nat, x2: nat)
    requires x0 < 256 && x1 < 256 && x2 < 256
    ensures var v1 := (x0 % 4) * 16 + x1 / 16; x0 / 4 * 4 + v1 / 16 == x0 && v1 % 16 == x1 / 16
    ensures var v2 := (x1 % 16) * 4 + x2 / 64; (x1 / 16) * 16 + v2 / 4 == x1 && v2 % 4 == x2 / 64
    ensures (x2 / 64) * 64 + x2 % 64 == x2
  {
    var hi0, lo0 := x0 % 4, x1 / 16;
    assert (hi0 * 16 + lo0) / 16 == hi0 && (hi0 * 16 + lo0) % 16 == lo0;
    var hi1, lo1 := x1 % 16, x2 / 64;
    assert (hi1 * 4 + lo1) / 4 == hi1 && (hi1 * 4 + lo1) % 4 == lo1;
  }

  lemma DecodeGroup(b0: byte, b1: byte, b2: byte, last: bool)
    ensures DecodeQuad(EncodeGroup(b0, b1, b2), last) == Some([b0, b1, b2])
  {
    var x0, x1, x2 := b0 as nat, b1 as nat, b2 as nat;
    var v0, v1, v2, v3 := x0 / 4, (x0 % 4) * 16 + x1 / 16, (x1 % 16) * 4 + x2 / 64, x2 % 64;
    var q := EncodeGroup(b0, b1, b2);
    assert q == [CharOf(v0), CharOf(v1), CharOf(v2), CharOf(v3)];
    ValueOfCharOf(v0);
    ValueOfCharOf(v1);
    ValueOfCharOf(v2);
    ValueOfCharOf(v3);
    GroupArithmetic(x0, x1, x2);
    assert v0 * 4 + v1 / 16 == x0;
    assert (v1 % 16) * 16 + v2 / 4 == x1;
    assert (v2 % 4) * 64 + v3 == x2;
  }

  lemma DecodeTail1(b0: byte)
    ensures DecodeQuad([CharOf(b0 as nat / 4), CharOf((b0 as nat % 4) * 16), '=', '='], true) == Some([b0])
  {
    ValueOfCharOf(b0 as nat / 4);
    ValueOfCharOf((b0 as nat % 4) * 16);
  }

  lemma DecodeTail2(b0: byte, b1: byte)
    ensures DecodeQuad([CharOf(b0 as nat / 4), CharOf((b0 as nat % 4) * 16 + b1 as nat / 16),
                        CharOf((b1 as nat % 16) * 4), '='], true) == Some([b0, b1])
  {
    ValueOfCharOf(b0 as nat / 4);
    ValueOfCharOf((b0 as nat % 4) * 16 + b1 as nat / 16);
    ValueOfCharOf((b1 as nat % 16) * 4);
  }

  /** The encoding of three or more bytes: their first group, then the encoding of the rest. */
  lemma EncodeFirstGroup(bs: seq<byte>)
    requires |bs| >= 3
    ensures Encode(bs) == EncodeGroup(bs[0], bs[1], bs[2]) + Encode(bs[3..])
  {
  }

  /** Decoding takes one quad off the front. */
  lemma DecodeAppend(g: string, t: string, b: seq<byte>)
    requires |g| == 4 && DecodeQuad(g, |t| == 0) == Some(b)
    ensures Decode(g + t) == (match Decode(t) case None => None case Some(rest) => Some(b + rest))
  {
    assert (g + t)[..4] == g && (g + t)[4..] == t;
  }

  /** A group of three bytes decodes back in front of whatever follows it. */
  lemma DecodeGroupThen(b0: byte, b1: byte, b2: byte, t: string)
    ensures Decode(EncodeGroup(b0, b1, b2) + t)
         == (match Decode(t) case None => None case Some(rest) => Some([b0, b1, b2] + rest))
  {
    DecodeGroup(b0, b1, b2, |t| == 0);
    DecodeAppend(EncodeGroup(b0, b1, b2), t, [b0, b1, b2]);
  }

  lemma FirstThree(bs: seq<byte>)
    requires |bs| >= 3
    ensures [bs[0], bs[1], bs[2]] + bs[3..] == bs
  {
  }

  /** The inductive step: a first group of three bytes decodes back in front of the rest. */
  lemma DecodeFirstGroup(bs: seq<byte>)
    requires |bs| >= 3 && Decode(Encode(bs[3..])) == Some(bs[3..])
    ensures Decode(Encode(bs)) == Some(bs)
  {
    FirstThree(bs);
    EncodeFirstGroup(bs);
    DecodeGroupThen(bs[0], bs[1], bs[2], Encode(bs[3..]));
  }

  /** The encoding is four characters for every three bytes or part of three. */
  lemma {:induction false} EncodeLength(bs: seq<byte>)
    ensures |Encode(bs)| == 4 * ((|bs| + 2) / 3)
  {
    var n := |bs|;
    if n >= 3 {
      EncodeLength(bs[3..]);
      assert (n - 3 + 2) / 3 == (n + 2) / 3 - 1;
    }
  }

  lemma DecodeOne(bs: seq<byte>)
    requires |bs| == 1
    ensures Decode(Encode(bs)) == Some(bs)
  {
    var s := Encode(bs);
    DecodeTail1(bs[0]);
    assert s[..4] == s && s[4..] == [];
    assert bs == [bs[0]] + [];
  }

  lemma DecodeTwo(bs: seq<byte>)
    requires |bs| == 2
    ensures Decode(Encode(bs)) == Some(bs)
  {
    var s := Encode(bs);
    DecodeTail2(bs[0], bs[1]);
    assert s[..4] == s && s[4..] == [];
    assert bs == [bs[0], bs[1]] + [];
  }

  /** Decoding gives back exactly the encoded bytes. */
  lemma {:induction false} DecodeEncode(bs: seq<byte>)
    ensures Decode(Encode(bs)) == Some(bs)
  {
    if |bs| == 1 {
      DecodeOne(bs);
    } else if |bs| == 2 {
      DecodeTwo(bs);
    } else if |bs| >= 3 {
      DecodeEncode(bs[3..]);
      DecodeFirstGroup(bs);
    }
  }

  /** The text of a string, UTF-8 encoded and then base-64 encoded: `Buffer.from(text).toString('base64')`. */
  function EncodeText(text: string): (r: string)
    ensures |r| % 4 == 0
  {
    Encode(Utf8.Encode(text))
  }

  lemma DecodeEncodeText(text: string)
    ensures var d := Decode(EncodeText(text)); d.Some? && Utf8.Decode(d.value) == Some(text)
  {
    DecodeEncode(Utf8.Encode(text));
    Utf8.DecodeEncode(text);
  }
}

=== FILE: base_class.dfy ===
/** `BaseClass`, the state every venue facade shares: credentials, the sandbox flag and the
    proxy rotator, with the accessors that report a missing value as a `TRADEKIT_ERROR`. */
module BaseClass {
  import opened Wrappers
  import opened Js
  import opened Proxy
  import TE = TradeErrors

  datatype Auth = Auth(key: string, secret: string, passphrase: Option<string>)

  datatype Options = Options(proxies: Option<seq<ProxyOptions>>, sandbox: Option<bool>, auth: Option<Auth>)

  datatype Client = Client(auth: Option<Auth>, http: Rotator, sandbox: bool)

  ghost predicate Valid(c: Client) {
    Proxy.Valid(c.http)
  }

  const AuthUnsetMessage: string :=
    "Unable to retrive auth object. Please set it one time before using this method."

  /** The constructor: `sandbox` is false unless given as true. */
  function New(opts: Option<Options>): (c: Client)
    ensures Valid(c)
    ensures c.sandbox <==> (opts.Some? && opts.value.sandbox == Some(true))
    ensures c.auth == (if opts.Some? then opts.value.auth else None)
    ensures c.http.proxies == (if opts.Some? then opts.value.proxies.GetOr([]) else [])
    ensures CurrentProxy(c.http) == (if |c.http.proxies| > 0 then Some(c.http.proxies[0]) else None)
  {
    match opts
    case None => Client(None, NewRotator(None), false)
    case Some(o) => Client(o.auth, NewRotator(o.proxies), o.sandbox.GetOr(false))
  }

  /** `setAuth` always reports success. */
  function SetAuth(c: Client, auth: Auth): (res: (bool, Client))
    ensures res.0 && res.1 == c.(auth := Some(auth))
  {
    (true, c.(auth := Some(auth)))
  }

  function GetAuth(c: Client): (r: Result<Auth, TE.TradeError>)
    ensures r.Ok? <==> c.auth.Some?
    ensures r.Ok? ==> r.value == c.auth.value
    ensures r.Err? ==> r.error == TE.Tradekit(TE.AuthUnset, AuthUnsetMessage)
  {
    match c.auth
    case Some(a) => Ok(a)
    case None => Err(TE.Tradekit(TE.AuthUnset, AuthUnsetMessage))
  }

  /** `setSandbox` returns the value it stored. */
  function SetSandbox(c: Client, sandbox: bool): (res: (bool, Client))
    ensures res.0 == sandbox && res.1.sandbox == sandbox
    ensures res.1.auth == c.auth && res.1.http == c.http
  {
    (sandbox, c.(sandbox := sandbox))
  }

  /** `addProxy` appends to the pool (restarting the rotation) and returns the proxy. */
  function AddProxy(c: Client, p: ProxyOptions): (res: (ProxyOptions, Client))
    ensures res.0 == p
    ensures res.1.http.proxies == c.http.proxies + [p] && res.1.http.index == Int(0)
    ensures res.1.auth == c.auth && res.1.sandbox == c.sandbox
  {
    (p, c.(http := Proxy.SetProxies(c.http, c.http.proxies + [p])))
  }

  /** `setProxies` replaces the pool and returns its size. */
  function SetProxies(c: Client, proxies: seq<ProxyOptions>): (res: (nat, Client))
    ensures res.0 == |proxies|
    ensures res.1.http.proxies == proxies && res.1.http.index == Int(0)
    ensures res.1.auth == c.auth && res.1.sandbox == c.sandbox
  {
    (|proxies|, c.(http := Proxy.SetProxies(c.http, proxies)))
  }

  function GetProxies(c: Client): (r: Result<seq<ProxyOptions>, TE.TradeError>)
    ensures r.Ok? <==> |c.http.proxies| > 0
    ensures r.Ok? ==> r.value == c.http.proxies
    ensures r.Err? ==> r.error == TE.Tradekit(TE.ProxyUnset, "No proxies found.")
  {
    if |c.http.proxies| > 0 then Ok(c.http.proxies)
    else Err(TE.Tradekit(TE.ProxyUnset, "No proxies found."))
  }

  function GetCurrentProxy(c: Client): (r: Result<ProxyOptions, TE.TradeError>)
    requires Valid(c)
    ensures r.Ok? <==> |c.http.proxies| > 0
    ensures r.Ok? ==> r.value == c.http.proxies[c.http.index.i]
    ensures r.Err? ==> r.error == TE.Tradekit(TE.ProxyUnset, "No proxy found.")
  {
    match CurrentProxy(c.http)
    case Some(p) => Ok(p)
    case None => Err(TE.Tradekit(TE.ProxyUnset, "No proxy found."))
  }

  /** `rotateProxy` moves to the next proxy and returns it. */
  function RotateProxy(c: Client): (res: (Result<ProxyOptions, TE.TradeError>, Client))
    requires Valid(c)
    ensures Valid(res.1)
    ensures res.1 == c.(http := Rotate(c.http))
    ensures res.0.Ok? <==> |c.http.proxies| > 0
    ensures res.0.Ok? ==> res.0.value == c.http.proxies[res.1.http.index.i]
    ensures res.0.Err? ==> res.0.error == TE.Tradekit(TE.ProxyUnset, "No proxies found.")
  {
    var c' := c.(http := Rotate(c.http));
    match CurrentProxy(c'.http)
    case Some(p) => (Ok(p), c')
    case None => (Err(TE.Tradekit(TE.ProxyUnset, "No proxies found.")), c')
  }

  /** Credentials that were set can be read back. */
  lemma AuthRoundTrip(c: Client, auth: Auth)
    ensures GetAuth(SetAuth(c, auth).1) == Ok(auth)
  {
  }

  /** A proxy that was added is the last of the pool, and the rotation restarts at the first. */
  lemma AddProxyThenRead(c: Client, p: ProxyOptions)
    requires Valid(c)
    ensures var c' := AddProxy(c, p).1;
      Valid(c') && GetProxies(c') == Ok(c.http.proxies + [p])
      && GetCurrentProxy(c') == Ok((c.http.proxies + [p])[0])
  {
  }

  /** `rotateProxy` reports the proxy that `getCurrentProxy` reports afterwards, with the one
      difference that the empty pool's message says "No proxies found." */
  lemma RotateProxyAgrees(c: Client)
    requires Valid(c)
    ensures
      var res := RotateProxy(c);
      Valid(res.1) && (res.0.Ok? ==> GetCurrentProxy(res.1) == res.0)
      && (res.0.Err? ==> GetCurrentProxy(res.1).Err?)
  {
  }

  function RotateProxyN(c: Client, n: nat): (c': Client)
    requires Valid(c)
    ensures Valid(c') && c'.http.proxies == c.http.proxies
    ensures c'.auth == c.auth && c'.sandbox == c.sandbox
  {
    if n == 0 then c else RotateProxy(RotateProxyN(c, n - 1)).1
  }

  /** Calling `rotateProxy` once per proxy comes back to the client we started with. */
  lemma {:induction false} RotateProxyCycle(c: Client)
    requires Valid(c) && |c.http.proxies| > 0
    ensures RotateProxyN(c, |c.http.proxies|) == c
  {
    RotateProxyNIsRotateN(c, |c.http.proxies|);
    Proxy.FullCycle(c.http);
  }

  lemma {:induction false} RotateProxyNIsRotateN(c: Client, n: nat)
    requires Valid(c)
    ensures RotateProxyN(c, n) == c.(http := RotateN(c.http, n))
  {
    if n > 0 {
      RotateProxyNIsRotateN(c, n - 1);
    }
  }
}

=== FILE: binance_stream.dfy ===
/** `BinanceStreamClient`: one ticker per formatted 24-hour ticker message, the subscription
    (USDⓈ-M futures, one stream per symbol) and the error parser. */
module BinanceStream {
  import opened Wrappers
  import opened Js
  import TE = TradeErrors
  import VE = VenueErrors
  import Adapters
  import Symbols
  import SC = StreamCommon

  /** A `24hrTicker` message as the client library formats it: numbers already parsed, times in
      milliseconds, the message itself kept as `raw`. */
  datatype Message = Message(
    symbol: string,
    eventTime: int,
    currentClose: Num,
    priceChange: Num,
    priceChangePercent: Num,
    high: Num,
    low: Num,
    baseAssetVolume: Num,
    quoteAssetVolume: Num,
    open: Num,
    openTime: int,
    raw: JsVal)

  /** `tickerAdapter`: fields copied over; the symbol is the venue's own, not the subscribed one. */
  function Adapt(m: Message): (t: Adapters.Ticker<string, Num>)
    ensures t.symbol == m.symbol && t.info == m.raw
    ensures t.timestamp == Int(m.eventTime) && t.datetime == MakeDate(Int(m.eventTime))
    ensures t.openTime == MakeDate(Int(m.openTime))
    ensures t.last == t.close == m.currentClose && t.open == m.open
    ensures t.absChange == m.priceChange && t.percChange == m.priceChangePercent
    ensures t.high == m.high && t.low == m.low && t.quoteVolume == m.quoteAssetVolume
    ensures t.volume == t.baseVolume == m.baseAssetVolume
  {
    Adapters.Ticker(m.symbol, Int(m.eventTime), MakeDate(Int(m.eventTime)), m.currentClose, m.currentClose,
      m.priceChange, m.priceChangePercent, m.high, m.low, m.baseAssetVolume, m.baseAssetVolume,
      m.quoteAssetVolume, m.open, MakeDate(Int(m.openTime)), m.raw)
  }

  /** The message a ticker came from, read back out of it. */
  function MessageOf(t: Adapters.Ticker<string, Num>): Message
    requires t.timestamp.Int? && t.openTime.DateAt? && t.openTime.ms.Int?
  {
    Message(t.symbol, t.timestamp.i, t.last, t.absChange, t.percChange, t.high, t.low, t.baseVolume,
      t.quoteVolume, t.open, t.openTime.ms.i, t.info)
  }

  /** The adapter loses nothing while the opening time is a valid date: the message can be read
      back from the ticker. */
  lemma AdaptRoundTrip(m: Message)
    requires Abs(m.openTime) <= MaxTimeValue
    ensures var t := Adapt(m);
      t.timestamp.Int? && t.openTime.DateAt? && t.openTime.ms.Int? && MessageOf(t) == m
  {
  }

  /** An opening time outside the range of dates gives an invalid date, and the ticker no longer
      carries it. */
  lemma OpenTimeOutOfRange(m: Message)
    requires Abs(m.openTime) > MaxTimeValue
    ensures Adapt(m).openTime == DateAt(NaN)
  {
  }

  /** What a socket event delivers: a formatted message always reaches `onUpdate`. */
  function Deliver(ms: seq<Message>): (ts: seq<Adapters.Ticker<string, Num>>)
    ensures |ts| == |ms|
    ensures forall i :: 0 <= i < |ms| ==> ts[i] == Adapt(ms[i])
  {
    seq(|ms|, i requires 0 <= i < |ms| => Adapt(ms[i]))
  }

  // ---------------------------------------------------------------------------
  // Subscription

  /** One `subscribeSymbol24hrTicker` call: the symbol and the market. */
  datatype Subscription = Subscription(symbol: string, market: string)

  /** Each symbol, `/` removed and settle dropped, on the `usdm` market. */
  function Subscribe(symbols: seq<string>): (r: seq<Subscription>)
    ensures |r| == |symbols|
    ensures forall i :: 0 <= i < |symbols| ==> r[i] == Subscription(Symbols.WireSymbol(symbols[i]), "usdm")
  {
    seq(|symbols|, i requires 0 <= i < |symbols| => Subscription(Symbols.WireSymbol(symbols[i]), "usdm"))
  }

  /** A `BASE/QUOTE:SETTLE` symbol is subscribed as `BASEQUOTE`, which is the symbol its messages
      carry back. */
  lemma SubscribedAsConcatenation(symbols: seq<string>, i: nat, base: string, quote: string, settle: Option<string>)
    requires i < |symbols| && symbols[i] == base + "/" + quote + (if settle.Some? then ":" + settle.value else "")
    requires '/' !in base && ':' !in base && ':' !in quote
    requires settle.Some? ==> ':' !in settle.value
    ensures Subscribe(symbols)[i] == Subscription(base + quote, "usdm")
  {
    Symbols.WireSymbolOfParts(base, quote, settle);
  }

  // ---------------------------------------------------------------------------
  // Errors

  /** `parsed.error.message` and `parsed.wsKey`: throws when `parsed` or its `error` is null. */
  function ReadError(p: JsVal): (r: Completion<(JsVal, JsVal)>)
    ensures r.Abrupt? <==> IsNullish(p) || IsNullish(OptProp(p, "error"))
    ensures r.Normal? ==> r.value == (OptProp(OptProp(p, "error"), "message"), OptProp(p, "wsKey"))
  {
    match Prop(p, "error")
    case Abrupt(t) => Abrupt(t)
    case Normal(e) =>
      match Prop(e, "message")
      case Abrupt(t) => Abrupt(t)
      case Normal(msg) => Normal((msg, OptProp(p, "wsKey")))
  }

  /** `handleErros` */
  function HandleError(parse: VE.JsonParser, err: JsVal): (e: TE.TradeError)
    ensures e.WebSocketError?
    ensures e.wsCode == TE.HandledError <==>
      parse(ToString(err)).Some? && !IsNullish(parse(ToString(err)).value)
      && !IsNullish(OptProp(parse(ToString(err)).value, "error"))
    ensures e.wsCode == TE.HandledError ==>
      var p := parse(ToString(err)).value;
      e == TE.WebSocketError(OptProp(OptProp(p, "error"), "message"), TE.HandledError, OptProp(p, "wsKey"))
    ensures e.wsCode != TE.HandledError ==> e == SC.Unhandled()
  {
    SC.WsError(parse, err, ReadError)
  }
}

=== FILE: bitget_stream.dfy ===
/** `BitgetStreamClient`: stored snapshots keyed `instId--instType` in a `Map`, which iterates in
    insertion order; delta items merged over a stored snapshot; after every event, one ticker per
    stored snapshot; the subscription; the error parser. */
module BitgetStream {
  import opened Wrappers
  import opened Js
  import TE = TradeErrors
  import VE = VenueErrors
  import Adapters
  import Symbols
  import SC = StreamCommon

  /** A pushed `update`: its `action`, `arg.instType` and `data` items. */
  datatype Event = Event(action: JsVal, instType: JsVal, data: seq<SC.Fields>)

  predicate IsSnapshot(e: Event) {
    e.action == Str("snapshot")
  }

  // ---------------------------------------------------------------------------
  // A `Map` from key to snapshot, in insertion order

  /** The keys in the order they were first set, and the value of each. */
  datatype Store = Store(keys: seq<string>, values: map<string, SC.Fields>)

  const Empty: Store := Store([], map[])

  predicate Distinct(ks: seq<string>) {
    forall i, j :: 0 <= i < j < |ks| ==> ks[i] != ks[j]
  }

  /** Each key listed once, and listed exactly when it has a value. */
  ghost predicate WellFormed(st: Store) {
    Distinct(st.keys) && forall k :: k in st.values <==> k in st.keys
  }

  /** The snapshot stored under a key, if any. */
  function Get(st: Store, k: string): Option<SC.Fields> {
    if k in st.values then Some(st.values[k]) else None
  }

  /** The value under the `i`-th key. */
  function At(st: Store, i: nat): SC.Fields
    requires WellFormed(st) && i < |st.keys|
  {
    assert st.keys[i] in st.keys;
    st.values[st.keys[i]]
  }

  /** `map.set(k, v)`: an existing key keeps its place, a new one goes last. */
  function Put(st: Store, k: string, v: SC.Fields): (r: Store)
    requires WellFormed(st)
    ensures WellFormed(r)
    ensures Get(r, k) == Some(v)
    ensures forall k' :: k' != k ==> Get(r, k') == Get(st, k')
    ensures r.keys == if k in st.keys then st.keys else st.keys + [k]
  {
    if k in st.values then Store(st.keys, st.values[k := v])
    else
      var r := Store(st.keys + [k], st.values[k := v]);
      assert forall i :: 0 <= i < |st.keys| ==> r.keys[i] == st.keys[i] != k;
      r
  }

  // ---------------------------------------------------------------------------
  // The update handler

  datatype Client = Client(snapshots: Store, symbols: map<string, string>)

  ghost predicate Valid(c: Client) {
    WellFormed(c.snapshots)
  }

  /** The store key of an item: its instrument id and the channel's instrument type, joined by `--`. */
  function Key(d: SC.Fields, instType: JsVal): string {
    ToString(SC.Field(d, "instId")) + "--" + ToString(instType)
  }

  /** The snapshot items, one after the other: each replaces its key; keys already stored keep
      their place and new ones follow them. */
  function StoreAll(st: Store, items: seq<SC.Fields>, instType: JsVal): (r: Store)
    requires WellFormed(st)
    ensures WellFormed(r)
    ensures |st.keys| <= |r.keys| && r.keys[..|st.keys|] == st.keys
    decreases |items|
  {
    if |items| == 0 then st
    else
      var st1 := Put(st, Key(items[0], instType), items[0]);
      var r := StoreAll(st1, items[1..], instType);
      assert r.keys[..|st.keys|] == r.keys[..|st1.keys|][..|st.keys|];
      r
  }

  /** The keys stored after a snapshot: those before it and those of its items. */
  lemma {:induction false} StoreAllKeys(st: Store, items: seq<SC.Fields>, instType: JsVal, k: string)
    requires WellFormed(st)
    ensures k in StoreAll(st, items, instType).keys <==>
      k in st.keys || exists i :: 0 <= i < |items| && Key(items[i], instType) == k
    decreases |items|
  {
    if |items| > 0 {
      var rest := items[1..];
      assert forall i :: 0 <= i < |rest| ==> rest[i] == items[i + 1];
      StoreAllKeys(Put(st, Key(items[0], instType), items[0]), rest, instType, k);
      if exists i :: 0 <= i < |items| && Key(items[i], instType) == k {
        var i :| 0 <= i < |items| && Key(items[i], instType) == k;
        if i > 0 { assert Key(rest[i - 1], instType) == k; }
      }
    }
  }

  /** A key no item of the snapshot carries keeps its snapshot. */
  lemma {:induction false} StoreAllOthers(st: Store, items: seq<SC.Fields>, instType: JsVal, k: string)
    requires WellFormed(st)
    requires forall i :: 0 <= i < |items| ==> Key(items[i], instType) != k
    ensures Get(StoreAll(st, items, instType), k) == Get(st, k)
    decreases |items|
  {
    if |items| > 0 {
      var rest := items[1..];
      assert forall i :: 0 <= i < |rest| ==> rest[i] == items[i + 1];
      StoreAllOthers(Put(st, Key(items[0], instType), items[0]), rest, instType, k);
    }
  }

  /** No later item of the event has the key of item `i`. */
  predicate Last(items: seq<SC.Fields>, instType: JsVal, i: nat)
    requires i < |items|
  {
    forall j :: i < j < |items| ==> Key(items[j], instType) != Key(items[i], instType)
  }

  /** A snapshot item whose key no later item repeats is stored as it came. */
  lemma {:induction false} StoreAllLast(st: Store, items: seq<SC.Fields>, instType: JsVal, i: nat)
    requires WellFormed(st) && i < |items| && Last(items, instType, i)
    ensures Get(StoreAll(st, items, instType), Key(items[i], instType)) == Some(items[i])
    decreases |items|
  {
    var rest := items[1..];
    var st1 := Put(st, Key(items[0], instType), items[0]);
    assert forall j :: 0 <= j < |rest| ==> rest[j] == items[j + 1];
    if i > 0 {
      assert Last(rest, instType, i - 1);
      StoreAllLast(st1, rest, instType, i - 1);
    } else {
      StoreAllOthers(st1, rest, instType, Key(items[0], instType));
    }
  }

  /** One delta item: with a truthy `instId` and a stored key it is merged over that snapshot,
      its fields winning; otherwise it is dropped. */
  function MergeOne(st: Store, d: SC.Fields, instType: JsVal): (r: Store)
    requires WellFormed(st)
    ensures WellFormed(r) && r.keys == st.keys
    ensures var k := Key(d, instType);
      Get(r, k) == if Truthy(SC.Field(d, "instId")) && Get(st, k).Some? then Some(Get(st, k).value + d) else Get(st, k)
    ensures forall k' :: k' != Key(d, instType) ==> Get(r, k') == Get(st, k')
  {
    var k := Key(d, instType);
    if Truthy(SC.Field(d, "instId")) && k in st.values then Put(st, k, st.values[k] + d) else st
  }

  /** The delta items, one after the other; the keys, and their order, stay as they were. */
  function MergeAll(st: Store, items: seq<SC.Fields>, instType: JsVal): (r: Store)
    requires WellFormed(st)
    ensures WellFormed(r) && r.keys == st.keys
    decreases |items|
  {
    if |items| == 0 then st
    else MergeAll(MergeOne(st, items[0], instType), items[1..], instType)
  }

  /** A key no item of the delta carries keeps its snapshot. */
  lemma {:induction false} MergeAllOthers(st: Store, items: seq<SC.Fields>, instType: JsVal, k: string)
    requires WellFormed(st)
    requires forall i :: 0 <= i < |items| ==> Key(items[i], instType) != k
    ensures Get(MergeAll(st, items, instType), k) == Get(st, k)
    decreases |items|
  {
    if |items| > 0 {
      var rest := items[1..];
      assert forall i :: 0 <= i < |rest| ==> rest[i] == items[i + 1];
      MergeAllOthers(MergeOne(st, items[0], instType), rest, instType, k);
    }
  }

  /** `tickerAdapter` */
  function Adapt(m: map<string, string>, d: SC.Fields): (t: SC.StreamTicker<Float>)
    ensures t.symbol == SC.StreamSymbol(m, SC.Field(d, "instId"))
    ensures t.timestamp == ParseIntOf(SC.Field(d, "ts"), 10) && t.datetime == MakeDate(t.timestamp)
    ensures t.openTime == MakeDate(MulInt(ParseIntOf(SC.Field(d, "openUtc"), 10), 1000))
    ensures t.last == t.close == ParseFloat(SC.Field(d, "lastPr")) && t.open == ParseFloat(SC.Field(d, "open24h"))
    ensures t.absChange == Minus(t.last, t.open) && t.percChange == Percent(Divide(t.absChange, t.open))
    ensures t.high == ParseFloat(SC.Field(d, "high24h")) && t.low == ParseFloat(SC.Field(d, "low24h"))
    ensures t.volume == t.baseVolume == ParseFloat(SC.Field(d, "baseVolume"))
    ensures t.quoteVolume == ParseFloat(SC.Field(d, "quoteVolume"))
    ensures t.info == Obj(d)
  {
    var timestamp := ParseIntOf(SC.Field(d, "ts"), 10);
    var last := ParseFloat(SC.Field(d, "lastPr"));
    var open := ParseFloat(SC.Field(d, "open24h"));
    var absChange := Minus(last, open);
    Adapters.Ticker(SC.StreamSymbol(m, SC.Field(d, "instId")), timestamp, MakeDate(timestamp), last, last, absChange,
      Percent(Divide(absChange, open)), ParseFloat(SC.Field(d, "high24h")), ParseFloat(SC.Field(d, "low24h")),
      ParseFloat(SC.Field(d, "baseVolume")), ParseFloat(SC.Field(d, "baseVolume")), ParseFloat(SC.Field(d, "quoteVolume")),
      open, MakeDate(MulInt(ParseIntOf(SC.Field(d, "openUtc"), 10), 1000)), Obj(d))
  }

  /** For the terms `Adapt` builds: the change is the last price less the open, and the
      percentage change is the change over the open, times 100, whatever `parseFloat` makes of
      the two texts. */
  lemma ChangeOverOpen(last: Float, open: Float, pf: JsVal -> Option<real>, l: real, o: real)
    requires EvalFloat(last, pf) == Some(l) && EvalFloat(open, pf) == Some(o) && o != 0.0
    ensures EvalFloat(Minus(last, open), pf) == Some(l - o)
    ensures EvalFloat(Percent(Divide(Minus(last, open), open)), pf) == Some((l - o) / o * 100.0)
  {
    var ch := Minus(last, open);
    EvalMinus(last, open, pf);
    EvalDivide(ch, open, pf);
    EvalPercent(Divide(ch, open), pf);
  }

  /** The `update` handler: the new state, and one ticker per stored snapshot, in the order the
      keys were first stored, whatever the event touched. */
  function Update(c: Client, e: Event): (r: (Client, seq<SC.StreamTicker<Float>>))
    requires Valid(c)
    ensures Valid(r.0) && r.0.symbols == c.symbols
    ensures IsSnapshot(e) ==> r.0.snapshots == StoreAll(c.snapshots, e.data, e.instType)
    ensures !IsSnapshot(e) ==> r.0.snapshots == MergeAll(c.snapshots, e.data, e.instType)
    ensures |r.1| == |r.0.snapshots.keys|
    ensures forall i :: 0 <= i < |r.1| ==> r.1[i] == Adapt(c.symbols, At(r.0.snapshots, i))
  {
    var st := if IsSnapshot(e) then StoreAll(c.snapshots, e.data, e.instType) else MergeAll(c.snapshots, e.data, e.instType);
    (c.(snapshots := st), seq(|st.keys|, i requires 0 <= i < |st.keys| => Adapt(c.symbols, At(st, i))))
  }

  /** A delta never stores a new key: the keys, and their order, stay as they were, and so does
      the number of tickers reported. */
  lemma DeltaKeepsKeys(c: Client, e: Event)
    requires Valid(c) && !IsSnapshot(e)
    ensures Update(c, e).0.snapshots.keys == c.snapshots.keys
    ensures |Update(c, e).1| == |c.snapshots.keys|
  {
  }

  /** A snapshot keeps the keys already stored, in their places, ahead of any new ones. */
  lemma SnapshotKeepsOrder(c: Client, e: Event)
    requires Valid(c) && IsSnapshot(e)
    ensures var ks := Update(c, e).0.snapshots.keys;
      |c.snapshots.keys| <= |ks| && ks[..|c.snapshots.keys|] == c.snapshots.keys
  {
  }

  /** A snapshot item whose key no later item repeats is stored as it came. */
  lemma SnapshotItemStored(c: Client, e: Event, i: nat)
    requires Valid(c) && IsSnapshot(e) && i < |e.data| && Last(e.data, e.instType, i)
    ensures Get(Update(c, e).0.snapshots, Key(e.data[i], e.instType)) == Some(e.data[i])
  {
    StoreAllLast(c.snapshots, e.data, e.instType, i);
  }

  /** A delta item with an `instId` whose key is stored, and that no other item of the event
      touches, is merged over the stored snapshot, its fields winning. */
  lemma {:induction false} DeltaItemMerged(st: Store, items: seq<SC.Fields>, instType: JsVal, i: nat)
    requires WellFormed(st) && i < |items| && Truthy(SC.Field(items[i], "instId"))
    requires Get(st, Key(items[i], instType)).Some?
    requires forall j :: 0 <= j < |items| && j != i ==> Key(items[j], instType) != Key(items[i], instType)
    ensures Get(MergeAll(st, items, instType), Key(items[i], instType)) == Some(Get(st, Key(items[i], instType)).value + items[i])
    decreases |items|
  {
    var k := Key(items[i], instType);
    var st1 := MergeOne(st, items[0], instType);
    var rest := items[1..];
    assert forall j :: 0 <= j < |rest| ==> rest[j] == items[j + 1];
    if i == 0 {
      MergeAllOthers(st1, rest, instType, k);
    } else {
      assert Key(items[0], instType) != k;
      DeltaItemMerged(st1, rest, instType, i - 1);
    }
  }

  /** No event removes a stored key, so (by `Update`) every snapshot stored before an event is
      reported again after it, touched or not. */
  lemma StoredKeysKept(c: Client, e: Event, k: string)
    requires Valid(c) && k in c.snapshots.keys
    ensures k in Update(c, e).0.snapshots.keys
  {
    if IsSnapshot(e) {
      StoreAllKeys(c.snapshots, e.data, e.instType, k);
    }
  }

  // ---------------------------------------------------------------------------
  // Subscription

  /** One `subscribeTopic` call. */
  datatype Topic = Topic(instType: string, channel: string, instId: string)

  /** The constructor's subscription: every symbol is first normalised, so one without `/`
      makes the constructor throw before anything is subscribed; otherwise each symbol's
      normalised form is mapped back to it and subscribed as a `USDT-FUTURES` ticker. */
  function Subscribe(symbols: seq<string>): (r: Completion<(Client, seq<Topic>)>)
    ensures r.Abrupt? <==> exists i :: 0 <= i < |symbols| && '/' !in symbols[i]
    ensures r.Normal? ==>
      var (c, topics) := r.value;
      && c.snapshots == Empty && Valid(c)
      && |topics| == |symbols|
      && (forall i :: 0 <= i < |symbols| ==>
            topics[i] == Topic("USDT-FUTURES", "ticker", Symbols.NormalizeSymbol(symbols[i], false).value))
      && c.symbols == Symbols.SymbolsMap(seq(|symbols|, i requires 0 <= i < |symbols| => (topics[i].instId, symbols[i])))
  {
    if exists i :: 0 <= i < |symbols| && '/' !in symbols[i] then
      var i :| 0 <= i < |symbols| && '/' !in symbols[i];
      Abrupt(Symbols.NormalizeSymbol(symbols[i], false).thrown)
    else
      var topics := seq(|symbols|, i requires 0 <= i < |symbols| => Topic("USDT-FUTURES", "ticker", Symbols.NormalizeSymbol(symbols[i], false).value));
      Normal((Client(Empty, Symbols.SymbolsMap(seq(|symbols|, i requires 0 <= i < |symbols| => (topics[i].instId, symbols[i])))), topics))
  }

  /** A ticker whose `instId` is a subscribed symbol's normalised form reports that symbol, as
      long as no other subscribed symbol normalises the same way. */
  lemma SubscribedSymbolReported(symbols: seq<string>, i: nat)
    requires Subscribe(symbols).Normal? && i < |symbols| && symbols[i] != ""
    requires forall j :: 0 <= j < |symbols| && j != i ==>
      Subscribe(symbols).value.1[j].instId != Subscribe(symbols).value.1[i].instId
    ensures var (c, topics) := Subscribe(symbols).value;
      SC.StreamSymbol(c.symbols, Str(topics[i].instId)) == Str(symbols[i])
  {
    var (c, topics) := Subscribe(symbols).value;
    var pairs := seq(|symbols|, j requires 0 <= j < |symbols| => (topics[j].instId, symbols[j]));
    assert Symbols.NotOverwritten(pairs, i);
    assert pairs[i] == (topics[i].instId, symbols[i]);
  }

  // ---------------------------------------------------------------------------
  // Errors

  /** `handleErros`: `msg` and `wsKey` of the parsed JSON. */
  function HandleError(parse: VE.JsonParser, err: JsVal): (e: TE.TradeError)
    ensures e.WebSocketError?
    ensures e.wsCode == TE.HandledError <==> parse(ToString(err)).Some? && !IsNullish(parse(ToString(err)).value)
    ensures e.wsCode == TE.HandledError ==>
      var p := parse(ToString(err)).value;
      e == TE.WebSocketError(OptProp(p, "msg"), TE.HandledError, OptProp(p, "wsKey"))
    ensures e.wsCode != TE.HandledError ==> e == SC.Unhandled()
  {
    SC.WsError(parse, err, p => SC.ReadTwo(p, "msg", "wsKey"))
  }
}

=== FILE: bybit_stream.dfy ===
/** `BybitStreamClient`: one stored snapshot, into which every delta is merged before a ticker is
    emitted; the subscription topics; the error parser.

    The stored slot is shared by every subscribed symbol, and Bybit's deltas carry only the
    changed fields (no symbol), so a delta for one topic is merged into whatever snapshot came
    last. `FixedUpdate` keeps one slot per topic instead. The ticker adapter also computes
    `absChange` as open minus last; `FixedAdapt` uses last minus open. */
module BybitStream {
  import opened Wrappers
  import opened Js
  import TE = TradeErrors
  import VE = VenueErrors
  import Adapters
  import Symbols
  import SC = StreamCommon

  /** A pushed `update`: its `type`, `topic`, `ts` and `data`. */
  datatype Event = Event(kind: JsVal, topic: JsVal, ts: int, data: SC.Fields)

  predicate IsSnapshot(e: Event) {
    e.kind == Str("snapshot")
  }

  datatype Client = Client(current: Option<Event>, symbols: map<string, string>)

  // ---------------------------------------------------------------------------
  // Subscription

  /** The topics subscribed, one per symbol in order. */
  function Topics(symbols: seq<string>): (ts: seq<string>)
    ensures |ts| == |symbols|
    ensures forall i :: 0 <= i < |symbols| ==> ts[i] == "tickers." + Symbols.WireSymbol(symbols[i])
  {
    seq(|symbols|, i requires 0 <= i < |symbols| => "tickers." + Symbols.WireSymbol(symbols[i]))
  }

  /** The client after the constructor has registered its symbols: nothing stored yet. */
  function Subscribe(symbols: seq<string>): (c: Client)
    ensures c.current.None?
    ensures c.symbols == Symbols.SymbolsMap(Symbols.WirePairs(symbols, Symbols.WireSymbol))
  {
    Client(None, Symbols.SymbolsMap(Symbols.WirePairs(symbols, Symbols.WireSymbol)))
  }

  /** A ticker whose data names a subscribed symbol's wire form reports that symbol, as long as
      no other subscribed symbol has the same wire form. */
  lemma SubscribedSymbolReported(symbols: seq<string>, i: nat)
    requires i < |symbols| && symbols[i] != ""
    requires forall j :: 0 <= j < |symbols| && j != i ==> Symbols.WireSymbol(symbols[j]) != Symbols.WireSymbol(symbols[i])
    ensures SC.StreamSymbol(Subscribe(symbols).symbols, Str(Symbols.WireSymbol(symbols[i]))) == Str(symbols[i])
  {
    Symbols.LookupRecoversSymbol(symbols, Symbols.WireSymbol, i);
  }

  // ---------------------------------------------------------------------------
  // Merging and adapting

  /** `{ ...snapshot, data: { ...snapshot.data, ...delta.data } }`: the delta's fields win, the
      snapshot's other fields and its `type`, `topic` and `ts` stay. */
  function Merge(s: Event, d: Event): (r: Event)
    ensures r.kind == s.kind && r.topic == s.topic && r.ts == s.ts
    ensures r.data.Keys == s.data.Keys + d.data.Keys
    ensures forall k :: k in d.data ==> r.data[k] == d.data[k]
    ensures forall k :: k in s.data && k !in d.data ==> r.data[k] == s.data[k]
  {
    s.(data := s.data + d.data)
  }

  function Price(d: SC.Fields, k: string): Float {
    ParseFloat(SC.Field(d, k))
  }

  /** `tickerAdapter` as written. */
  function Adapt(m: map<string, string>, s: Event): (t: SC.StreamTicker<Float>)
    ensures t.symbol == SC.StreamSymbol(m, SC.Field(s.data, "symbol"))
    ensures t.timestamp == Int(s.ts) && t.datetime == MakeDate(Int(s.ts))
    ensures t.openTime == MakeDate(Int(s.ts - Adapters.OneDay))
    ensures t.last == t.close == Price(s.data, "lastPrice") && t.open == Price(s.data, "prevPrice24h")
    ensures t.absChange == Minus(t.open, t.last)
    ensures t.percChange == Price(s.data, "price24hPcnt")
    ensures t.high == Price(s.data, "highPrice24h") && t.low == Price(s.data, "lowPrice24h")
    ensures t.volume == t.baseVolume == Price(s.data, "volume24h") && t.quoteVolume == Price(s.data, "turnover24h")
    ensures t.info == Obj(s.data)
  {
    var d := s.data;
    Adapters.Ticker(SC.StreamSymbol(m, SC.Field(d, "symbol")), Int(s.ts), MakeDate(Int(s.ts)),
      Price(d, "lastPrice"), Price(d, "lastPrice"), Minus(Price(d, "prevPrice24h"), Price(d, "lastPrice")),
      Price(d, "price24hPcnt"), Price(d, "highPrice24h"), Price(d, "lowPrice24h"), Price(d, "volume24h"),
      Price(d, "volume24h"), Price(d, "turnover24h"), Price(d, "prevPrice24h"),
      MakeDate(Int(s.ts - Adapters.OneDay)), Obj(d))
  }

  /** Within the valid date range, `openTime` is exactly one day before `datetime`. */
  lemma OpenTimeOneDayBefore(m: map<string, string>, s: Event)
    requires Abs(s.ts) <= MaxTimeValue && Abs(s.ts - Adapters.OneDay) <= MaxTimeValue
    ensures GetTime(Adapt(m, s).datetime) == Some(Int(s.ts))
    ensures GetTime(Adapt(m, s).openTime) == Some(Int(s.ts - Adapters.OneDay))
  {
  }

  // ---------------------------------------------------------------------------
  // The update handler as written

  /** The `update` handler: the new state and the tickers emitted. */
  function Update(c: Client, e: Event): (r: (Client, seq<SC.StreamTicker<Float>>))
    ensures r.0.symbols == c.symbols
    ensures IsSnapshot(e) ==> r.0.current == Some(e) && r.1 == []
    ensures !IsSnapshot(e) && c.current.None? ==> r == (c, [])
    ensures !IsSnapshot(e) && c.current.Some? ==>
      r.0.current == Some(Merge(c.current.value, e)) && r.1 == [Adapt(c.symbols, Merge(c.current.value, e))]
  {
    if IsSnapshot(e) then (c.(current := Some(e)), [])
    else if c.current.None? then (c, [])
    else
      var merged := Merge(c.current.value, e);
      (c.(current := Some(merged)), [Adapt(c.symbols, merged)])
  }

  /** The handler over a sequence of events. */
  function Replay(c: Client, es: seq<Event>): (r: (Client, seq<SC.StreamTicker<Float>>))
    ensures r.0.symbols == c.symbols
    decreases |es|
  {
    if |es| == 0 then (c, [])
    else
      var (c1, t1) := Update(c, es[0]);
      var (c2, t2) := Replay(c1, es[1..]);
      (c2, t1 + t2)
  }

  lemma ReplayOne(c: Client, e: Event)
    ensures Replay(c, [e]) == Update(c, e)
  {
    assert [e][1..] == [];
    assert Update(c, e).1 + [] == Update(c, e).1;
  }

  predicate AllDeltas(es: seq<Event>) {
    forall i :: 0 <= i < |es| ==> !IsSnapshot(es[i])
  }

  /** The fields of a run of deltas, later ones winning. */
  function MergeAll(ds: seq<Event>): SC.Fields
    decreases |ds|
  {
    if |ds| == 0 then map[] else ds[0].data + MergeAll(ds[1..])
  }

  lemma UnionAssoc(a: SC.Fields, b: SC.Fields, c: SC.Fields)
    ensures (a + b) + c == a + (b + c)
  {
  }

  /** Deltas that arrive before any snapshot change nothing and emit nothing. */
  lemma {:induction false} DeltasBeforeSnapshotIgnored(c: Client, ds: seq<Event>)
    requires c.current.None? && AllDeltas(ds)
    ensures Replay(c, ds) == (c, [])
    decreases |ds|
  {
    if |ds| > 0 {
      assert AllDeltas(ds[1..]) by {
        forall i | 0 <= i < |ds[1..]| ensures !IsSnapshot(ds[1..][i]) {
          assert ds[1..][i] == ds[i + 1];
        }
      }
      DeltasBeforeSnapshotIgnored(c, ds[1..]);
      assert Update(c, ds[0]) == (c, []);
      assert Replay(c, ds).1 == [] + [];
    }
  }

  /** After a stored snapshot, a run of deltas emits one ticker each and leaves the snapshot with
      every delta field merged in, later deltas winning. */
  lemma {:induction false} DeltasMergeIntoSnapshot(c: Client, ds: seq<Event>)
    requires c.current.Some? && AllDeltas(ds)
    ensures Replay(c, ds).0.current == Some(c.current.value.(data := c.current.value.data + MergeAll(ds)))
    ensures |Replay(c, ds).1| == |ds|
    decreases |ds|
  {
    if |ds| > 0 {
      assert AllDeltas(ds[1..]) by {
        forall i | 0 <= i < |ds[1..]| ensures !IsSnapshot(ds[1..][i]) {
          assert ds[1..][i] == ds[i + 1];
        }
      }
      var (c1, t1) := Update(c, ds[0]);
      DeltasMergeIntoSnapshot(c1, ds[1..]);
      UnionAssoc(c.current.value.data, ds[0].data, MergeAll(ds[1..]));
      assert |t1| == 1;
      assert Replay(c, ds).1 == t1 + Replay(c1, ds[1..]).1;
    } else {
      assert c.current.value.data + MergeAll(ds) == c.current.value.data;
    }
  }

  /** A snapshot followed by deltas: one ticker per delta, and the state is the snapshot with the
      deltas merged in. */
  lemma SnapshotThenDeltas(c: Client, s: Event, ds: seq<Event>)
    requires IsSnapshot(s) && AllDeltas(ds)
    ensures Replay(c, [s] + ds).0.current == Some(s.(data := s.data + MergeAll(ds)))
    ensures |Replay(c, [s] + ds).1| == |ds|
  {
    var es := [s] + ds;
    assert es[0] == s && es[1..] == ds;
    DeltasMergeIntoSnapshot(Update(c, s).0, ds);
  }

  /** The defect of the shared slot: a delta for ETHUSDT after a BTCUSDT snapshot is reported as a
      BTCUSDT ticker at the ETHUSDT price. */
  lemma CrossTopicDelta(m: map<string, string>)
    ensures var s := Event(Str("snapshot"), Str("tickers.BTCUSDT"), 1, map["symbol" := Str("BTCUSDT"), "lastPrice" := Str("60000")]);
      var d := Event(Str("delta"), Str("tickers.ETHUSDT"), 2, map["lastPrice" := Str("3000")]);
      var out := Replay(Client(None, m), [s, d]).1;
      |out| == 1 && out[0].symbol == SC.StreamSymbol(m, Str("BTCUSDT")) && out[0].last == ParseFloat(Str("3000"))
  {
    var s := Event(Str("snapshot"), Str("tickers.BTCUSDT"), 1, map["symbol" := Str("BTCUSDT"), "lastPrice" := Str("60000")]);
    var d := Event(Str("delta"), Str("tickers.ETHUSDT"), 2, map["lastPrice" := Str("3000")]);
    var c1 := Update(Client(None, m), s).0;
    assert [s, d][1..] == [d];
    ReplayOne(c1, d);
    var merged := Merge(s, d);
    assert SC.Field(merged.data, "symbol") == Str("BTCUSDT");
    assert SC.Field(merged.data, "lastPrice") == Str("3000");
  }

  /** As written, `absChange` is the previous price less the last one, the negative of the
      change: a price that rose (58000 to 59500, say, which the venue's `price24hPcnt` reports as
      positive) gets a negative `absChange`. The corrected adapter gives the change itself. */
  lemma AbsChangeSign(m: map<string, string>, s: Event, pf: JsVal -> Option<real>, prev: real, last: real)
    requires pf(SC.Field(s.data, "prevPrice24h")) == Some(prev) && pf(SC.Field(s.data, "lastPrice")) == Some(last)
    ensures EvalFloat(Adapt(m, s).absChange, pf) == Some(prev - last)
    ensures EvalFloat(FixedAdapt(m, s).absChange, pf) == Some(last - prev)
    ensures prev < last ==> EvalFloat(Adapt(m, s).absChange, pf).value < 0.0 < EvalFloat(FixedAdapt(m, s).absChange, pf).value
  {
    var t := Adapt(m, s);
    EvalMinus(t.open, t.last, pf);
    EvalMinus(t.last, t.open, pf);
  }

  // ---------------------------------------------------------------------------
  // The corrected handler: one slot per topic, change measured from the open

  /** The adapter with `absChange` = last − open, the convention of the shared ccxt adapter and of
      the Bitget stream. */
  function FixedAdapt(m: map<string, string>, s: Event): (t: SC.StreamTicker<Float>)
    ensures t.absChange == Minus(t.last, t.open)
    ensures t.(absChange := Adapt(m, s).absChange) == Adapt(m, s)
  {
    var t := Adapt(m, s);
    t.(absChange := Minus(t.last, t.open))
  }

  /** The corrected change is the last price less the open, whatever `parseFloat` makes of them. */
  lemma FixedAbsChange(m: map<string, string>, s: Event, pf: JsVal -> Option<real>)
    requires pf(SC.Field(s.data, "lastPrice")).Some? && pf(SC.Field(s.data, "prevPrice24h")).Some?
    ensures EvalFloat(FixedAdapt(m, s).absChange, pf)
      == Some(pf(SC.Field(s.data, "lastPrice")).value - pf(SC.Field(s.data, "prevPrice24h")).value)
  {
  }

  datatype FixedClient = FixedClient(slots: map<JsVal, Event>, symbols: map<string, string>)

  /** Every slot holds an event of its own topic. */
  ghost predicate SlotsOwnTopics(c: FixedClient) {
    forall t :: t in c.slots ==> c.slots[t].topic == t
  }

  function FixedUpdate(c: FixedClient, e: Event): (r: (FixedClient, seq<SC.StreamTicker<Float>>))
    ensures r.0.symbols == c.symbols
    ensures r.0.slots.Keys == c.slots.Keys + (if IsSnapshot(e) then {e.topic} else {})
    ensures forall t :: t in c.slots && t != e.topic ==> r.0.slots[t] == c.slots[t]
    ensures SlotsOwnTopics(c) ==> SlotsOwnTopics(r.0)
    ensures IsSnapshot(e) ==> r.0.slots[e.topic] == e && r.1 == []
    ensures !IsSnapshot(e) && e.topic !in c.slots ==> r == (c, [])
    ensures !IsSnapshot(e) && e.topic in c.slots ==>
      var merged := Merge(c.slots[e.topic], e);
      r.0.slots[e.topic] == merged && r.1 == [FixedAdapt(c.symbols, merged)]
  {
    if IsSnapshot(e) then (c.(slots := c.slots[e.topic := e]), [])
    else if e.topic !in c.slots then (c, [])
    else
      var merged := Merge(c.slots[e.topic], e);
      (c.(slots := c.slots[e.topic := merged]), [FixedAdapt(c.symbols, merged)])
  }

  function FixedReplay(c: FixedClient, es: seq<Event>): (r: (FixedClient, seq<SC.StreamTicker<Float>>))
    ensures r.0.symbols == c.symbols
    ensures SlotsOwnTopics(c) ==> SlotsOwnTopics(r.0)
    decreases |es|
  {
    if |es| == 0 then (c, [])
    else
      var (c1, t1) := FixedUpdate(c, es[0]);
      var (c2, t2) := FixedReplay(c1, es[1..]);
      (c2, t1 + t2)
  }

  lemma FixedReplayOne(c: FixedClient, e: Event)
    ensures FixedReplay(c, [e]) == FixedUpdate(c, e)
  {
    assert [e][1..] == [];
    assert FixedUpdate(c, e).1 + [] == FixedUpdate(c, e).1;
  }

  /** Events of other topics never touch a topic's slot. */
  lemma {:induction false} OtherTopicsUntouched(c: FixedClient, es: seq<Event>, t: JsVal)
    requires t in c.slots
    requires forall i :: 0 <= i < |es| ==> es[i].topic != t
    ensures t in FixedReplay(c, es).0.slots && FixedReplay(c, es).0.slots[t] == c.slots[t]
    decreases |es|
  {
    if |es| > 0 {
      var c1 := FixedUpdate(c, es[0]).0;
      assert forall i :: 0 <= i < |es[1..]| ==> es[1..][i].topic != t by {
        forall i | 0 <= i < |es[1..]| ensures es[1..][i].topic != t {
          assert es[1..][i] == es[i + 1];
        }
      }
      OtherTopicsUntouched(c1, es[1..], t);
    }
  }

  /** With a slot per topic, the ETHUSDT delta of `CrossTopicDelta` emits nothing and the
      BTCUSDT snapshot is left as it was. */
  lemma FixedNoCrossTalk(m: map<string, string>)
    ensures var s := Event(Str("snapshot"), Str("tickers.BTCUSDT"), 1, map["symbol" := Str("BTCUSDT"), "lastPrice" := Str("60000")]);
      var d := Event(Str("delta"), Str("tickers.ETHUSDT"), 2, map["lastPrice" := Str("3000")]);
      var r := FixedReplay(FixedClient(map[], m), [s, d]);
      r.1 == [] && r.0.slots == map[s.topic := s]
  {
    var s := Event(Str("snapshot"), Str("tickers.BTCUSDT"), 1, map["symbol" := Str("BTCUSDT"), "lastPrice" := Str("60000")]);
    var d := Event(Str("delta"), Str("tickers.ETHUSDT"), 2, map["lastPrice" := Str("3000")]);
    var c1 := FixedUpdate(FixedClient(map[], m), s).0;
    assert [s, d][1..] == [d];
    FixedReplayOne(c1, d);
  }

  // ---------------------------------------------------------------------------
  // Errors

  /** `handleErros`: `ret_msg` and `conn_id` of the parsed JSON. */
  function HandleError(parse: VE.JsonParser, err: JsVal): (e: TE.TradeError)
    ensures e.WebSocketError?
    ensures e.wsCode == TE.HandledError <==> parse(ToString(err)).Some? && !IsNullish(parse(ToString(err)).value)
    ensures e.wsCode == TE.HandledError ==>
      var p := parse(ToString(err)).value;
      e == TE.WebSocketError(OptProp(p, "ret_msg"), TE.HandledError, OptProp(p, "conn_id"))
    ensures e.wsCode != TE.HandledError ==> e == SC.Unhandled()
  {
    SC.WsError(parse, err, p => SC.ReadTwo(p, "ret_msg", "conn_id"))
  }
}

=== FILE: controller.dfy ===
/** The polling loop of `openPosition`/`closePosition` in the ccxt facades: after the market
    order is placed, wait a second, ask the exchange about the order, and stop when it is filled;
    give up once `Date.now() - startTime` reaches the timeout.

    The clock is an oracle: `clock(0)` is `startTime`, and `clock(j + 1)` is the reading taken by
    the `j`-th test of the loop condition. Between two tests the loop sleeps 1000 ms, so from
    the second test on every reading is at least 1000 later than the one before. The `j`-th
    poll's answer is `poll(j)`, which may be a thrown error. */
module Controller {
  import opened Wrappers
  import opened Js

  /** Milliseconds slept before each poll. */
  const PollInterval: int := 1000

  /** The default `timeInForce`. */
  const DefaultTimeout: int := 30000

  ghost predicate ClockAdvances(clock: nat -> int) {
    clock(0) <= clock(1) && forall j: nat :: j >= 1 ==> clock(j) + PollInterval <= clock(j + 1)
  }

  /** How the loop ends, and how many polls it made. */
  datatype PollOutcome<P> =
    | Filled(answer: P, polls: nat)
    | TimedOut(polls: nat)
    | Threw(thrown: Thrown, polls: nat)

  /** No poll before the `n`-th (from `j` on) threw or saw the order filled. */
  ghost predicate Unfilled<P>(poll: nat -> Completion<P>, filled: P -> bool, j: nat, n: nat) {
    forall k: nat :: j <= k < n ==> poll(k).Normal? && !filled(poll(k).value)
  }

  /** The loop from its `j`-th test of the condition on. */
  function PollFrom<P>(clock: nat -> int, timeout: int, poll: nat -> Completion<P>, filled: P -> bool, j: nat): (r: PollOutcome<P>)
    requires ClockAdvances(clock)
    ensures r.polls >= j
    ensures r.TimedOut? ==> Unfilled(poll, filled, j, r.polls)
    ensures !r.TimedOut? ==> r.polls > j && Unfilled(poll, filled, j, r.polls - 1)
    ensures r.polls > j ==> clock(r.polls) - clock(0) < timeout
    ensures r.TimedOut? ==> clock(r.polls + 1) - clock(0) >= timeout
    ensures r.Filled? ==> r.polls > j && poll(r.polls - 1) == Normal(r.answer) && filled(r.answer)
    ensures r.Threw? ==> r.polls > j && poll(r.polls - 1) == Abrupt(r.thrown)
    decreases timeout - (clock(j + 1) - clock(0))
  {
    if clock(j + 1) - clock(0) >= timeout then TimedOut(j)
    else
      assert clock(j + 1) + PollInterval <= clock(j + 2);
      match poll(j)
      case Abrupt(t) => Threw(t, j + 1)
      case Normal(p) => if filled(p) then Filled(p, j + 1) else PollFrom(clock, timeout, poll, filled, j + 1)
  }

  /** The `n`-th reading is at least `1000 * (n - 1)` after `startTime`. */
  lemma {:induction false} ClockLowerBound(clock: nat -> int, n: nat)
    requires ClockAdvances(clock) && n >= 1
    ensures clock(n) >= clock(0) + PollInterval * (n - 1)
  {
    if n > 1 {
      ClockLowerBound(clock, n - 1);
      assert clock(n - 1) + PollInterval <= clock(n);
    }
  }

  /** The loop polls at most `ceil(timeout / 1000)` times, and not at all for a timeout of zero
      or less. */
  lemma PollBound<P>(clock: nat -> int, timeout: int, poll: nat -> Completion<P>, filled: P -> bool)
    requires ClockAdvances(clock)
    ensures var n := PollFrom(clock, timeout, poll, filled, 0).polls;
      (timeout <= 0 ==> n == 0) && (n >= 1 ==> PollInterval * (n - 1) < timeout)
  {
    var n := PollFrom(clock, timeout, poll, filled, 0).polls;
    if n >= 1 {
      ClockLowerBound(clock, n);
    }
  }

  /** The loop as the facades run it. */
  method Poll<P>(clock: nat -> int, timeout: int, poll: nat -> Completion<P>, filled: P -> bool)
    returns (r: PollOutcome<P>)
    requires ClockAdvances(clock)
    ensures r == PollFrom(clock, timeout, poll, filled, 0)
    ensures r.polls >= 1 ==> PollInterval * (r.polls - 1) < timeout
  {
    PollBound(clock, timeout, poll, filled);
    var startTime := clock(0);
    var j: nat := 0;
    while clock(j + 1) - startTime < timeout
      invariant PollFrom(clock, timeout, poll, filled, j) == PollFrom(clock, timeout, poll, filled, 0)
      decreases timeout - (clock(j + 1) - startTime)
    {
      assert clock(j + 1) + PollInterval <= clock(j + 2);
      var answer := poll(j);
      if answer.Abrupt? {
        return Threw(answer.thrown, j + 1);
      }
      if filled(answer.value) {
        return Filled(answer.value, j + 1);
      }
      j := j + 1;
    }
    return TimedOut(j);
  }
}

=== FILE: facade.dfy ===
/** The public operations of the three ccxt-backed venues (Bybit, Binance, Bitget) other than
    placing orders. Each runs its body in `try`, hands whatever the body throws to the venue's
    `handleError` and returns it as an `Err`, and calls `syncProxy` once in `finally`.

    The answers of the ccxt calls are parameters: a `Completion` is the value the call resolves
    to, or what it rejects with. If `handleError` itself throws, the operation's promise rejects
    with that error, which the result records as an `Abrupt` completion. */
module Facade {
  import opened Wrappers
  import opened Js
  import TE = TradeErrors
  import VE = VenueErrors
  import Strs
  import Symbols
  import Adapters
  import BaseClass
  import ProxySync

  type Outcome<T> = Completion<Result<T, TE.TradeError>>

  /** What a facade's `catch` answers: the thrown error, normalised by the venue's `handleError`
      and returned as an error; a throw from the normaliser itself escapes. */
  function Caught<T>(v: VE.Venue, parse: VE.JsonParser, e: Thrown): (r: Outcome<T>)
    ensures r.Abrupt? <==> VE.HandleError(v, parse, e).Abrupt?
    ensures r.Abrupt? ==> r.thrown == VE.HandleError(v, parse, e).thrown
    ensures r.Normal? ==> r.value == Err(VE.HandleError(v, parse, e).value)
  {
    match VE.HandleError(v, parse, e)
    case Normal(te) => Normal(Err(te))
    case Abrupt(t) => Abrupt(t)
  }

  /** The `syncProxy` of the venue. */
  function Sync(v: VE.Venue, f: ProxySync.Facade): (f': ProxySync.Facade)
    requires ProxySync.Valid(f)
    ensures ProxySync.Valid(f') && f' == ProxySync.SyncProxy(f)
  {
    ProxySync.SyncProxyVariantsAgree(f);
    if v == VE.Binance then ProxySync.SyncProxyThenRead(f) else ProxySync.SyncProxy(f)
  }

  /** A facade method's body run under its `try`: a throw is answered as by `Caught`, and on every
      path the proxy is synchronised once afterwards, as the `finally` block does. */
  function Guarded<T>(v: VE.Venue, parse: VE.JsonParser, f: ProxySync.Facade, body: Outcome<T>): (res: (Outcome<T>, ProxySync.Facade))
    requires ProxySync.Valid(f)
    ensures ProxySync.Valid(res.1) && res.1 == ProxySync.SyncProxy(f)
    ensures body.Normal? ==> res.0 == body
    ensures body.Abrupt? ==> res.0 == Caught(v, parse, body.thrown)
    ensures res.0.Abrupt? ==> body.Abrupt? && VE.HandleError(v, parse, body.thrown).Abrupt?
  {
    (match body
     case Normal(r) => Normal(r)
     case Abrupt(e) => Caught(v, parse, e),
     Sync(v, f))
  }

  /** The constructor: the client state, then one `syncProxy`, which already rotates once. */
  function Construct(opts: Option<BaseClass.Options>, ex: ProxySync.Exchange): (f: ProxySync.Facade)
    ensures ProxySync.Valid(f)
    ensures f == ProxySync.SyncProxy(ProxySync.Facade(BaseClass.New(opts), ex))
  {
    ProxySync.SyncProxy(ProxySync.Facade(BaseClass.New(opts), ex))
  }

  /** With two proxies or more, the exchange starts out on the second one. */
  lemma ConstructUsesSecondProxy(opts: BaseClass.Options, ex: ProxySync.Exchange)
    requires opts.proxies.Some? && |opts.proxies.value| >= 2
    ensures Construct(Some(opts), ex).exchange.httpProxy == Some(ProxySync.ProxyUrl(opts.proxies.value[1]))
  {
  }

  // ---------------------------------------------------------------------------
  // Tickers

  /** `getTicker` of Bybit and Bitget: the fetched ticker through `ccxtTickerAdapter`. */
  function GetTicker(v: VE.Venue, parse: VE.JsonParser, f: ProxySync.Facade, fetched: Completion<Adapters.CcxtTicker>, now: int)
    : (res: (Outcome<Adapters.Ticker<string, Num>>, ProxySync.Facade))
    requires ProxySync.Valid(f) && v != VE.Binance
    ensures res.1 == ProxySync.SyncProxy(f)
    ensures fetched.Normal? ==> res.0 == Normal(Adapters.TickerAdapter(fetched.value, now))
    ensures fetched.Abrupt? ==> res.0 == Caught(v, parse, fetched.thrown)
  {
    Guarded(v, parse, f, match fetched
      case Normal(t) => Normal(Adapters.TickerAdapter(t, now))
      case Abrupt(e) => Abrupt(e))
  }

  /** `getTicker` and `getTickers` of Binance return what ccxt returned, unadapted. */
  function GetRaw<T>(parse: VE.JsonParser, f: ProxySync.Facade, fetched: Completion<T>): (res: (Outcome<T>, ProxySync.Facade))
    requires ProxySync.Valid(f)
    ensures res.1 == ProxySync.SyncProxy(f)
    ensures fetched.Normal? ==> res.0 == Normal(Ok(fetched.value))
    ensures fetched.Abrupt? ==> res.0 == Caught(VE.Binance, parse, fetched.thrown)
  {
    Guarded(VE.Binance, parse, f, match fetched
      case Normal(t) => Normal(Ok(t))
      case Abrupt(e) => Abrupt(e))
  }

  /** Every ticker adapted in turn; each adapter call reads the clock once, `clock(i)` being the
      reading taken for the `i`-th ticker. */
  function AdaptAll(ts: seq<Adapters.CcxtTicker>, clock: nat -> int): (rs: seq<Result<Adapters.Ticker<string, Num>, TE.TradeError>>)
    ensures |rs| == |ts| && forall i :: 0 <= i < |ts| ==> rs[i] == Adapters.TickerAdapter(ts[i], clock(i))
  {
    seq(|ts|, i requires 0 <= i < |ts| => Adapters.TickerAdapter(ts[i], clock(i)))
  }

  /** `getTickers` of Bybit: one `fetchTickers` call; the first ticker that fails adaptation
      makes the whole result that error. */
  function BybitGetTickers(parse: VE.JsonParser, f: ProxySync.Facade, fetched: Completion<seq<Adapters.CcxtTicker>>, clock: nat -> int)
    : (res: (Outcome<seq<Adapters.Ticker<string, Num>>>, ProxySync.Facade))
    requires ProxySync.Valid(f)
    ensures res.1 == ProxySync.SyncProxy(f)
    ensures fetched.Normal? ==> res.0.Normal? && (res.0.value.Ok? <==> forall i :: 0 <= i < |fetched.value| ==> Adapters.Complete(fetched.value[i]))
    ensures fetched.Normal? && res.0.value.Ok? ==> |res.0.value.value| == |fetched.value|
    ensures fetched.Normal? && res.0.value.Err? ==> res.0.value.error == TE.CreateError("Missing ticker data")
    // Each ticker opens a day before the clock reading its own adapter call took.
    ensures fetched.Normal? && res.0.value.Ok? ==>
      forall i :: 0 <= i < |fetched.value| ==> res.0.value.value[i].openTime == MakeDate(Int(clock(i) - Adapters.OneDay))
    ensures fetched.Abrupt? ==> res.0 == Caught(VE.Bybit, parse, fetched.thrown)
  {
    Guarded(VE.Bybit, parse, f, match fetched
      case Normal(ts) => Normal(Combine(AdaptAll(ts, clock)))
      case Abrupt(e) => Abrupt(e))
  }

  /** `getTickers` of Bitget: a `fetchTicker` per requested symbol, then `Result.combine`. */
  function BitgetGetTickers(parse: VE.JsonParser, f: ProxySync.Facade, symbols: seq<string>,
                            fetch: string -> Completion<Adapters.CcxtTicker>, clock: nat -> int)
    : (res: (Outcome<seq<Adapters.Ticker<string, Num>>>, ProxySync.Facade))
    requires ProxySync.Valid(f)
    ensures res.1 == ProxySync.SyncProxy(f)
    ensures var fetched := All(seq(|symbols|, i requires 0 <= i < |symbols| => fetch(symbols[i])));
      && (fetched.Normal? ==> res.0 == Normal(Combine(AdaptAll(fetched.value, clock))))
      && (fetched.Abrupt? ==> res.0 == Caught(VE.Bitget, parse, fetched.thrown))
    ensures res.0.Normal? && res.0.value.Ok? ==> |res.0.value.value| == |symbols|
  {
    var fetched := All(seq(|symbols|, i requires 0 <= i < |symbols| => fetch(symbols[i])));
    Guarded(VE.Bitget, parse, f, match fetched
      case Normal(ts) => Normal(Combine(AdaptAll(ts, clock)))
      case Abrupt(e) => Abrupt(e))
  }

  // ---------------------------------------------------------------------------
  // Balances

  /** `getBalance` of Bybit and Bitget: the adapted balance, restricted to the listed currencies
      when a list is given. `clock(0)` and `clock(1)` are the adapter's two readings of the clock. */
  function GetBalance(v: VE.Venue, parse: VE.JsonParser, f: ProxySync.Facade, fetched: Completion<Adapters.CcxtBalances>,
                      clock: nat -> int, currencies: Option<seq<string>>)
    : (res: (Outcome<Adapters.Balance>, ProxySync.Facade))
    requires ProxySync.Valid(f) && v != VE.Binance
    ensures res.1 == ProxySync.SyncProxy(f)
    ensures fetched.Normal? ==> res.0.Normal? && res.0.value.Ok?
    ensures fetched.Normal? ==>
      var all := Adapters.BalanceAdapter(fetched.value, clock(0), clock(1)).currencies;
      var got := res.0.value.value.currencies;
      && (forall k :: k in got <==> k in all && (currencies.Some? ==> k in currencies.value))
      && (forall k :: k in got ==> got[k] == all[k])
    // The timestamp and the date come from two separate readings of the clock.
    ensures fetched.Normal? ==>
      res.0.value.value.timestamp == clock(0) && res.0.value.value.datetime == MakeDate(Int(clock(1)))
    ensures fetched.Abrupt? ==> res.0 == Caught(v, parse, fetched.thrown)
  {
    var body: Outcome<Adapters.Balance> := match fetched
      case Normal(b) =>
        var balance := Adapters.BalanceAdapter(b, clock(0), clock(1));
        var got := Adapters.FilterCurrencies(balance.currencies, currencies);
        assert forall k :: k in got <==> k in balance.currencies && (currencies.Some? ==> k in currencies.value) by {
          forall k ensures k in got <==> k in balance.currencies && (currencies.Some? ==> k in currencies.value) {
            if currencies.Some? {
              Adapters.FilterCurrenciesMembership(balance.currencies, currencies.value, k);
            }
          }
        }
        Normal(Ok(balance.(currencies := got)))
      case Abrupt(e) => Abrupt(e);
    Guarded(v, parse, f, body)
  }

  /** A ccxt `Balances` as Binance's `getBalance` returns it. An entry of `used` or `total` that
      was copied from a missing key holds `undefined` (None). */
  datatype RawBalances = RawBalances(
    free: map<string, Option<Num>>,
    used: map<string, Option<Num>>,
    total: map<string, Option<Num>>,
    info: JsVal,
    datetime: JsVal,
    others: map<string, JsVal>)

  function Get(m: map<string, Option<Num>>, k: string): Option<Num> {
    if k in m then m[k] else None
  }

  /** The filter of Binance's `getBalance`: for each listed currency that `free` holds, its free,
      used and total amounts; `info` and `datetime` are kept and every other key dropped. */
  function FilterRaw(b: RawBalances, currencies: seq<string>): (r: RawBalances)
    ensures r.free.Keys == r.used.Keys == r.total.Keys
    ensures forall k :: k in r.free <==> k in b.free && k in currencies
    ensures forall k :: k in r.free ==> r.free[k] == b.free[k] && r.used[k] == Get(b.used, k) && r.total[k] == Get(b.total, k)
    ensures r.info == b.info && r.datetime == b.datetime && r.others == map[]
  {
    var keep := set k | k in b.free && k in currencies;
    RawBalances(map k | k in keep :: b.free[k], map k | k in keep :: Get(b.used, k),
                map k | k in keep :: Get(b.total, k), b.info, b.datetime, map[])
  }

  function BinanceGetBalance(parse: VE.JsonParser, f: ProxySync.Facade, fetched: Completion<RawBalances>, currencies: Option<seq<string>>)
    : (res: (Outcome<RawBalances>, ProxySync.Facade))
    requires ProxySync.Valid(f)
    ensures res.1 == ProxySync.SyncProxy(f)
    ensures fetched.Normal? && currencies.None? ==> res.0 == Normal(Ok(fetched.value))
    ensures fetched.Normal? && currencies.Some? ==> res.0 == Normal(Ok(FilterRaw(fetched.value, currencies.value)))
    ensures fetched.Abrupt? ==> res.0 == Caught(VE.Binance, parse, fetched.thrown)
  {
    Guarded(VE.Binance, parse, f, match fetched
      case Normal(b) => Normal(Ok(if currencies.Some? then FilterRaw(b, currencies.value) else b))
      case Abrupt(e) => Abrupt(e))
  }

  // ---------------------------------------------------------------------------
  // Leverage

  /** The "leverage not modified" code Bybit reports when the leverage is already the requested one. */
  const LeverageNotModified: int := 110043

  function GlobalLeverageMessage(v: VE.Venue): string {
    "Unable to set global leverage for " + VE.VenueName(v) + ". Please provide a symbol."
  }

  /** The error is ccxt's `ExchangeError` and its message, after `"<venue> "`, is JSON with
      `retCode` 110043. */
  predicate LeverageUnchanged(v: VE.Venue, parse: VE.JsonParser, e: Thrown) {
    && IsExchangeError(e)
    && var p := parse(Strs.ReplaceFirst(e.message, VE.VenueName(v) + " ", ""));
    && p.Some? && !IsNullish(p.value) && OptProp(p.value, "retCode") == Num(LeverageNotModified)
  }

  /** The inner `try` of the `catch` of `setLeverage` on Bybit and Binance: an exchange error
      whose payload has `retCode` 110043 counts as success; anything else, including a payload
      that does not parse, goes to `handleError`. */
  function LeverageCatch(v: VE.Venue, parse: VE.JsonParser, leverage: Num, e: Thrown): (r: Outcome<Num>)
    ensures LeverageUnchanged(v, parse, e) ==> r == Normal(Ok(leverage))
    ensures !LeverageUnchanged(v, parse, e) ==> r == Caught(v, parse, e)
  {
    if !IsExchangeError(e) then Caught(v, parse, e)
    else
      match parse(Strs.ReplaceFirst(e.message, VE.VenueName(v) + " ", ""))
      case None => Caught(v, parse, e)
      case Some(p) =>
        if IsNullish(p) then Caught(v, parse, e)
        else if OptProp(p, "retCode") == Num(LeverageNotModified) then Normal(Ok(leverage))
        else Caught(v, parse, e)
  }

  /** `setLeverage` of Bybit and Binance. The third component says whether ccxt's `setLeverage` was called. */
  function SetLeverage(v: VE.Venue, parse: VE.JsonParser, f: ProxySync.Facade, leverage: Num, symbol: Option<string>, call: Completion<()>)
    : (res: (Outcome<Num>, ProxySync.Facade, bool))
    requires ProxySync.Valid(f) && v != VE.Bitget
    ensures res.1 == ProxySync.SyncProxy(f)
    ensures res.2 <==> symbol.Some?
    ensures symbol.None? ==> res.0 == Normal(Err(TE.Tradekit(TE.BadSymbol, GlobalLeverageMessage(v))))
    ensures symbol.Some? && call.Normal? ==> res.0 == Normal(Ok(leverage))
    ensures symbol.Some? && call.Abrupt? ==> res.0 == LeverageCatch(v, parse, leverage, call.thrown)
  {
    var out: Outcome<Num> :=
      if symbol.None? then Normal(Err(TE.Tradekit(TE.BadSymbol, GlobalLeverageMessage(v))))
      else match call
        case Normal(_) => Normal(Ok(leverage))
        case Abrupt(e) => LeverageCatch(v, parse, leverage, e);
    (out, Sync(v, f), symbol.Some?)
  }

  /** An exchange error whose payload is `{"retCode": 110043, …}` leaves the leverage as set. */
  lemma LeverageAlreadySet(v: VE.Venue, parse: VE.JsonParser, leverage: Num, name: string, text: string, rest: map<string, JsVal>)
    requires parse(text) == Some(Obj(rest["retCode" := Num(LeverageNotModified)]))
    ensures LeverageCatch(v, parse, leverage, ErrorObject(ExchangeError, name, VE.VenueName(v) + " " + text)) == Normal(Ok(leverage))
  {
    var e := ErrorObject(ExchangeError, name, VE.VenueName(v) + " " + text);
    Strs.ReplacePrefix(VE.VenueName(v) + " ", text);
    assert Strs.ReplaceFirst(e.message, VE.VenueName(v) + " ", "") == text;
    assert OptProp(Obj(rest["retCode" := Num(LeverageNotModified)]), "retCode") == Num(LeverageNotModified);
  }

  /** The parameters of one Bitget `setLeverage` call. */
  datatype LeverageParams = LeverageParams(symbol: string, productType: string, marginCoin: string, leverage: Num, holdSide: string)

  function SandboxPrefix(sandbox: bool): string {
    if sandbox then "S" else ""
  }

  /** The leverage Bitget's `setLeverage` sends, whatever it was asked for. */
  const SentLeverage: Num := Finite(1.0)

  /** The body of one call, with `sent` as its `leverage`; building it throws when
      `normalizeSymbol` cannot split the symbol. */
  function BitgetLeverageParams(symbol: string, sandbox: bool, sent: Num, holdSide: string): (r: Completion<LeverageParams>)
    ensures r.Abrupt? <==> Symbols.NormalizeSymbol(symbol, sandbox).Abrupt?
    ensures r.Abrupt? ==> r.thrown == Symbols.NormalizeSymbol(symbol, sandbox).thrown
    ensures r.Normal? ==> r.value == LeverageParams(Symbols.NormalizeSymbol(symbol, sandbox).value,
      SandboxPrefix(sandbox) + "USDT-FUTURES", SandboxPrefix(sandbox) + "USDT", sent, holdSide)
  {
    match Symbols.NormalizeSymbol(symbol, sandbox)
    case Abrupt(t) => Abrupt(t)
    case Normal(s) => Normal(LeverageParams(s, SandboxPrefix(sandbox) + "USDT-FUTURES", SandboxPrefix(sandbox) + "USDT", sent, holdSide))
  }

  /** The two calls of Bitget's `setLeverage` for one symbol, and the calls made: the long
      side, then the short side, each sending `sent`; success answers `leverage`. A symbol
      `normalizeSymbol` cannot split fails before any call. */
  function BitgetLeverageCalls(parse: VE.JsonParser, symbol: string, sandbox: bool, sent: Num, leverage: Num,
                               call: LeverageParams -> Completion<()>)
    : (res: (Outcome<Num>, seq<LeverageParams>))
    ensures var long := BitgetLeverageParams(symbol, sandbox, sent, "long");
      var short := BitgetLeverageParams(symbol, sandbox, sent, "short");
      && (long.Abrupt? ==> res == (Caught(VE.Bitget, parse, long.thrown), []))
      && (long.Normal? && call(long.value).Abrupt? ==> res == (Caught(VE.Bitget, parse, call(long.value).thrown), [long.value]))
      && (long.Normal? && call(long.value).Normal? ==> short.Normal? && |res.1| == 2 && res.1 == [long.value, short.value])
      && (long.Normal? && call(long.value).Normal? && call(short.value).Abrupt? ==> res.0 == Caught(VE.Bitget, parse, call(short.value).thrown))
      && (long.Normal? && call(long.value).Normal? && call(short.value).Normal? ==> res.0 == Normal(Ok(leverage)))
  {
    match BitgetLeverageParams(symbol, sandbox, sent, "long")
    case Abrupt(e) => (Caught(VE.Bitget, parse, e), [])
    case Normal(long) =>
      match call(long)
      case Abrupt(e) => (Caught(VE.Bitget, parse, e), [long])
      case Normal(_) =>
        var short := BitgetLeverageParams(symbol, sandbox, sent, "short").value;
        match call(short)
        case Abrupt(e) => (Caught(VE.Bitget, parse, e), [long, short])
        case Normal(_) => (Normal(Ok(leverage)), [long, short])
  }

  /** `setLeverage` of Bitget as written: both calls send leverage 1, and success answers the
      leverage asked for. The third component lists the calls made. */
  function BitgetSetLeverage(parse: VE.JsonParser, f: ProxySync.Facade, leverage: Num, symbol: Option<string>,
                             call: LeverageParams -> Completion<()>)
    : (res: (Outcome<Num>, ProxySync.Facade, seq<LeverageParams>))
    requires ProxySync.Valid(f)
    ensures res.1 == ProxySync.SyncProxy(f)
    ensures symbol.None? ==> res.0 == Normal(Err(TE.Tradekit(TE.BadSymbol, GlobalLeverageMessage(VE.Bitget)))) && res.2 == []
    ensures symbol.Some? ==> (res.0, res.2) == BitgetLeverageCalls(parse, symbol.value, f.client.sandbox, SentLeverage, leverage, call)
  {
    var (out, sent) :=
      if symbol.None? then (Normal(Err(TE.Tradekit(TE.BadSymbol, GlobalLeverageMessage(VE.Bitget)))), [])
      else BitgetLeverageCalls(parse, symbol.value, f.client.sandbox, SentLeverage, leverage, call);
    (out, Sync(VE.Bitget, f), sent)
  }

  /** As written, Bitget's `setLeverage` succeeds only after both sides were set, and both
      were set to leverage 1. */
  lemma BitgetLeverageBothSides(parse: VE.JsonParser, f: ProxySync.Facade, leverage: Num, symbol: Option<string>,
                                call: LeverageParams -> Completion<()>)
    requires ProxySync.Valid(f)
    ensures var res := BitgetSetLeverage(parse, f, leverage, symbol, call);
      res.0 == Normal(Ok(leverage)) ==>
        |res.2| == 2 && res.2[0].holdSide == "long" && res.2[1].holdSide == "short"
        && res.2[0].leverage == SentLeverage && res.2[1].leverage == SentLeverage
        && call(res.2[0]).Normal? && call(res.2[1]).Normal?
  {
  }

  /** The defect: asked for leverage 10 on `BTC/USDT`, with both calls accepted, the answer is
      `Ok(10)` while the venue was told 1 on both sides. */
  lemma BitgetLeverageMisreported(parse: VE.JsonParser, f: ProxySync.Facade)
    requires ProxySync.Valid(f) && !f.client.sandbox
    ensures var res := BitgetSetLeverage(parse, f, Finite(10.0), Some("BTC/USDT"), _ => Normal(()));
      res.0 == Normal(Ok(Finite(10.0))) && |res.2| == 2
      && res.2[0].leverage == Finite(1.0) && res.2[1].leverage == Finite(1.0)
  {
    Symbols.NormalizeSymbolOfParts("BTC", "USDT", None, false);
  }

  /** `setLeverage` of Bitget sending the leverage it was asked for. */
  function FixedBitgetSetLeverage(parse: VE.JsonParser, f: ProxySync.Facade, leverage: Num, symbol: Option<string>,
                                  call: LeverageParams -> Completion<()>)
    : (res: (Outcome<Num>, ProxySync.Facade, seq<LeverageParams>))
    requires ProxySync.Valid(f)
    ensures res.1 == ProxySync.SyncProxy(f)
    ensures symbol.None? ==> res.0 == Normal(Err(TE.Tradekit(TE.BadSymbol, GlobalLeverageMessage(VE.Bitget)))) && res.2 == []
    ensures symbol.Some? ==> (res.0, res.2) == BitgetLeverageCalls(parse, symbol.value, f.client.sandbox, leverage, leverage, call)
  {
    var (out, sent) :=
      if symbol.None? then (Normal(Err(TE.Tradekit(TE.BadSymbol, GlobalLeverageMessage(VE.Bitget)))), [])
      else BitgetLeverageCalls(parse, symbol.value, f.client.sandbox, leverage, leverage, call);
    (out, Sync(VE.Bitget, f), sent)
  }

  /** Corrected, a successful answer is the leverage both sides were set to. */
  lemma FixedBitgetLeverageApplied(parse: VE.JsonParser, f: ProxySync.Facade, leverage: Num, symbol: Option<string>,
                                   call: LeverageParams -> Completion<()>)
    requires ProxySync.Valid(f)
    ensures var res := FixedBitgetSetLeverage(parse, f, leverage, symbol, call);
      res.0.Normal? && res.0.value.Ok? ==>
        |res.2| == 2 && res.2[0].holdSide == "long" && res.2[1].holdSide == "short"
        && res.2[0].leverage == res.2[1].leverage == res.0.value.value
        && call(res.2[0]).Normal? && call(res.2[1]).Normal?
  {
  }
}

=== FILE: js.dfy ===
/** The fragment of JavaScript semantics the library relies on: the values that arrive from
    `JSON.parse`, truthiness, `String(v)`, property reads that may throw, `parseInt`, the `%`
    operator, dates built from millisecond counts, and thrown values with the error classes
    (ccxt, axios, the built-in `Error`) that the error normalizers distinguish. */
module Js {
  import opened Wrappers

  /** A value as produced by `JSON.parse`, plus `undefined`. Numbers are integers. */
  datatype JsVal =
    | Undefined
    | Null
    | Bool(b: bool)
    | Num(n: int)
    | Str(s: string)
    | Arr(items: seq<JsVal>)
    | Obj(fields: map<string, JsVal>)

  /** JavaScript truthiness (ToBoolean). Arrays and objects are always truthy. */
  predicate Truthy(v: JsVal) {
    match v
    case Undefined => false
    case Null => false
    case Bool(b) => b
    case Num(n) => n != 0
    case Str(s) => s != ""
    case Arr(_) => true
    case Obj(_) => true
  }

  predicate IsNullish(v: JsVal) {
    v.Undefined? || v.Null?
  }

  /** `a ?? b` */
  function Coalesce(a: JsVal, b: JsVal): (r: JsVal)
    ensures !IsNullish(a) ==> r == a
    ensures IsNullish(a) ==> r == b
  {
    if IsNullish(a) then b else a
  }

  // ---------------------------------------------------------------------------
  // Decimal rendering of integers, and `String(v)`

  function DigitChar(d: nat): char
    requires d < 10
  {
    "0123456789"[d]
  }

  predicate IsDecimalDigit(c: char) {
    '0' <= c <= '9'
  }

  /** The shortest decimal numeral of `n` (no leading zeros). */
  function NatToDecimal(n: nat): (r: string)
    ensures |r| > 0
    ensures forall i :: 0 <= i < |r| ==> IsDecimalDigit(r[i])
    ensures n > 0 ==> r[0] != '0'
    decreases n
  {
    if n < 10 then [DigitChar(n)] else NatToDecimal(n / 10) + [DigitChar(n % 10)]
  }

  /** What `String(n)` gives for an integral Number. */
  function IntToDecimal(n: int): (r: string)
    ensures |r| > 0
    ensures n >= 0 ==> r == NatToDecimal(n)
    ensures n < 0 ==> r == "-" + NatToDecimal(-n)
  {
    if n < 0 then "-" + NatToDecimal(-n) else NatToDecimal(n)
  }

  /** `Array.prototype.join(",")`: `null` and `undefined` elements become the empty string. */
  function JoinItems(items: seq<JsVal>): string
    decreases items, 0
  {
    if |items| == 0 then ""
    else
      var head := if IsNullish(items[0]) then "" else ToString(items[0]);
      if |items| == 1 then head else head + "," + JoinItems(items[1..])
  }

  /** A value converted to a string, as `String` does. */
  function ToString(v: JsVal): string
    decreases v, 1
  {
    match v
    case Undefined => "undefined"
    case Null => "null"
    case Bool(b) => if b then "true" else "false"
    case Num(n) => IntToDecimal(n)
    case Str(s) => s
    case Arr(items) => JoinItems(items)
    case Obj(_) => "[object Object]"
  }

  // ---------------------------------------------------------------------------
  // Thrown values

  /** The class of an error object, as far as the normalizers can tell classes apart.
      Each tag names the most specific class of the object. */
  datatype ErrorKind =
    | RateLimitExceeded            // ccxt, subclass of NetworkError
    | NetworkError                 // ccxt, subclass of BaseError
    | BadSymbol                    // ccxt, subclass of ExchangeError
    | InvalidOrder                 // ccxt, subclass of ExchangeError
    | ExchangeError                // ccxt, subclass of BaseError
    | BaseError                    // ccxt, subclass of Error
    | AxiosError(response: Option<HttpResponse>)
    | PlainError                   // Error or a built-in subclass (TypeError, SyntaxError, ...)

  datatype HttpResponse = HttpResponse(status: int, data: JsVal)

  /** What a `throw` or a promise rejection carries. */
  datatype Thrown =
    | ErrorObject(kind: ErrorKind, name: string, message: string)
    | NonError(value: JsVal)

  predicate IsNetworkError(t: Thrown) {
    t.ErrorObject? && (t.kind.RateLimitExceeded? || t.kind.NetworkError?)
  }

  predicate IsExchangeError(t: Thrown) {
    t.ErrorObject? && (t.kind.BadSymbol? || t.kind.InvalidOrder? || t.kind.ExchangeError?)
  }

  predicate IsBaseError(t: Thrown) {
    IsNetworkError(t) || IsExchangeError(t) || (t.ErrorObject? && t.kind.BaseError?)
  }

  /** The thrown value is an `Error` object of any class. */
  predicate IsError(t: Thrown) {
    t.ErrorObject?
  }

  /** The thrown value is an error raised by the HTTP client. */
  predicate IsAxiosError(t: Thrown) {
    t.ErrorObject? && t.kind.AxiosError?
  }

  /** A `TypeError` raised by the engine; the message text is the one V8 uses for property reads. */
  function TypeError(message: string): Thrown {
    ErrorObject(PlainError, "TypeError", message)
  }

  /** What the engine throws on a bad property read or a call of a non-function. */
  predicate IsTypeError(t: Thrown) {
    t.ErrorObject? && t.kind == PlainError && t.name == "TypeError"
  }

  /** The `SyntaxError` raised by `JSON.parse` on malformed text. */
  function SyntaxError(): Thrown {
    ErrorObject(PlainError, "SyntaxError", "Unexpected token in JSON")
  }

  /** The result of evaluating an expression or running a call: a value, or something thrown. */
  datatype Completion<+T> = Normal(value: T) | Abrupt(thrown: Thrown)

  /** Steps run one after the other (a `map` whose callback may throw, or `Promise.all` taken in
      list order): the first thing thrown, or every value. */
  function All<T>(cs: seq<Completion<T>>): (r: Completion<seq<T>>)
    ensures r.Normal? <==> forall i :: 0 <= i < |cs| ==> cs[i].Normal?
    ensures r.Normal? ==> |r.value| == |cs| && forall i :: 0 <= i < |cs| ==> cs[i] == Normal(r.value[i])
    ensures r.Abrupt? ==>
      exists i :: 0 <= i < |cs| && cs[i] == Abrupt(r.thrown) && forall j :: 0 <= j < i ==> cs[j].Normal?
  {
    if |cs| == 0 then Normal([])
    else match cs[0]
      case Abrupt(t) => Abrupt(t)
      case Normal(v) =>
        match All(cs[1..])
        case Abrupt(t) =>
          ghost var i :| 0 <= i < |cs[1..]| && cs[1..][i] == Abrupt(t)
            && forall j :: 0 <= j < i ==> cs[1..][j].Normal?;
          assert cs[i + 1] == Abrupt(t);
          assert forall j :: 0 <= j < i + 1 ==> cs[j].Normal? by {
            forall j | 0 <= j < i + 1 ensures cs[j].Normal? {
              if j > 0 { assert cs[j] == cs[1..][j - 1]; }
            }
          }
          Abrupt(t)
        case Normal(vs) => Normal([v] + vs)
  }

  /** `v.k` (and `v[k]`): throws on `null` and `undefined`; `undefined` for a missing key
      and for primitives, whose prototype properties the model does not carry. */
  function Prop(v: JsVal, k: string): (r: Completion<JsVal>)
    ensures r.Abrupt? <==> IsNullish(v)
    ensures r.Abrupt? ==> IsTypeError(r.thrown)
    ensures v.Obj? && k in v.fields ==> r == Normal(v.fields[k])
    ensures v.Obj? && k !in v.fields ==> r == Normal(Undefined)
  {
    match v
    case Undefined => Abrupt(TypeError("Cannot read properties of undefined (reading '" + k + "')"))
    case Null => Abrupt(TypeError("Cannot read properties of null (reading '" + k + "')"))
    case Obj(fields) => Normal(if k in fields then fields[k] else Undefined)
    case _ => Normal(Undefined)
  }

  /** `v?.k`: `undefined` instead of throwing. */
  function OptProp(v: JsVal, k: string): (r: JsVal)
    ensures IsNullish(v) ==> r == Undefined
    ensures !IsNullish(v) ==> Prop(v, k) == Normal(r)
  {
    match Prop(v, k)
    case Normal(x) => x
    case Abrupt(_) => Undefined
  }

  // ---------------------------------------------------------------------------
  // Integral Numbers that may be NaN: `parseInt`, `%`, millisecond dates

  datatype IntOrNaN = Int(i: int) | NaN

  /** `a + b` on Numbers */
  function AddInt(a: IntOrNaN, b: int): (r: IntOrNaN)
    ensures r.NaN? <==> a.NaN?
    ensures a.Int? ==> r == Int(a.i + b)
  {
    match a
    case NaN => NaN
    case Int(x) => Int(x + b)
  }

  /** `a * b` on Numbers */
  function MulInt(a: IntOrNaN, b: int): (r: IntOrNaN)
    ensures r.NaN? <==> a.NaN?
    ensures a.Int? ==> r == Int(a.i * b)
  {
    match a
    case NaN => NaN
    case Int(x) => Int(x * b)
  }

  function Abs(x: int): nat {
    if x < 0 then -x else x
  }

  lemma RemBelow(x: nat, d: nat)
    requires d > 0
    ensures x < d ==> x % d == x
    ensures x == d ==> x % d == 0
  {
    if x == d {
      assert x == 1 * d + 0;
    }
  }

  /** JavaScript `a % d`: the remainder truncates toward zero, so it takes the sign of `a`,
      and a zero divisor gives NaN. */
  function JsRem(a: IntOrNaN, d: int): (r: IntOrNaN)
    ensures r.NaN? <==> (a.NaN? || d == 0)
    ensures r.Int? && a.i >= 0 && d > 0 ==> r.i == a.i % d
    ensures a.Int? && 0 <= a.i < d ==> r == a
    ensures a.Int? && d > 0 && a.i == d ==> r == Int(0)
    ensures r.Int? && a.i < 0 ==> r.i <= 0
  {
    match a
    case NaN => NaN
    case Int(x) =>
      if d == 0 then NaN
      else if x >= 0 then RemBelow(x, Abs(d)); Int(x % Abs(d))
      else Int(-((-x) % Abs(d)))
  }

  /** The quotient `a / d` truncated toward zero, as ECMA-262 section 6.1.6.1.6 uses it. */
  function TruncDiv(a: int, d: int): int
    requires d != 0
  {
    if (a >= 0) == (d > 0) then Abs(a) / Abs(d) else -(Abs(a) / Abs(d))
  }

  /** Moving a sign out of a product. */
  lemma NegatedProducts(x: int, y: int)
    ensures (-x) * (-y) == x * y
    ensures (-x) * y == -(x * y)
    ensures x * (-y) == -(x * y)
  {
  }

  /** `a % d` is the ECMA-262 remainder `a - d * q` with `q` the truncated quotient: it is smaller
      than the divisor in magnitude and, unless zero, has the sign of the dividend. */
  lemma {:induction false} JsRemTruncates(a: int, d: int)
    requires d != 0
    ensures JsRem(Int(a), d) == Int(a - d * TruncDiv(a, d))
    ensures Abs(JsRem(Int(a), d).i) < Abs(d)
    ensures JsRem(Int(a), d).i != 0 ==> (JsRem(Int(a), d).i < 0 <==> a < 0)
  {
    var m: int := Abs(d);
    var y: int := Abs(a);
    var q: int := y / m;
    var rest: int := y % m;
    assert y == m * q + rest && 0 <= rest < m;
    NegatedProducts(m, q);
    var p: int := m * q;
    if a >= 0 {
      assert JsRem(Int(a), d) == Int(rest);
      assert d * TruncDiv(a, d) == p;
    } else {
      assert JsRem(Int(a), d) == Int(-rest);
      assert d * TruncDiv(a, d) == -p;
    }
  }


  /** The StrWhiteSpaceChar set that `parseInt` skips: white space and line terminators. */
  predicate IsJsSpace(c: char) {
    c == ' ' || c == '\t' || c == '\n' || c == '\r' || c == '\U{B}' || c == '\U{C}'
    || c == '\U{A0}' || c == '\U{1680}' || ('\U{2000}' <= c <= '\U{200A}')
    || c == '\U{2028}' || c == '\U{2029}' || c == '\U{202F}' || c == '\U{205F}'
    || c == '\U{3000}' || c == '\U{FEFF}'
  }

  function TrimStart(s: string): (r: string)
    ensures |r| <= |s| && r == s[|s| - |r|..]
    ensures |r| > 0 ==> !IsJsSpace(r[0])
    ensures forall i :: 0 <= i < |s| - |r| ==> IsJsSpace(s[i])
  {
    if |s| > 0 && IsJsSpace(s[0]) then TrimStart(s[1..]) else s
  }

  /** The value of `c` as a digit in bases up to 36, or 36 when it is no digit at all. */
  function DigitValue(c: char): (d: nat)
    ensures d <= 36
    ensures IsDecimalDigit(c) ==> d == c as nat - '0' as nat
  {
    if '0' <= c <= '9' then c as nat - '0' as nat
    else if 'a' <= c <= 'z' then c as nat - 'a' as nat + 10
    else if 'A' <= c <= 'Z' then c as nat - 'A' as nat + 10
    else 36
  }

  /** Length of the longest prefix of `s` made of digits of base `radix`. */
  function DigitPrefixLen(s: string, radix: nat): (k: nat)
    ensures k <= |s|
    ensures forall i :: 0 <= i < k ==> DigitValue(s[i]) < radix
    ensures k < |s| ==> DigitValue(s[k]) >= radix
  {
    if |s| > 0 && DigitValue(s[0]) < radix then 1 + DigitPrefixLen(s[1..], radix) else 0
  }

  lemma NatProduct(a: nat, b: nat)
    ensures a * b >= 0
  {
  }

  /** The number a string of base-`radix` digits denotes, most significant digit first. */
  function DigitsValue(z: string, radix: nat): nat
    requires forall i :: 0 <= i < |z| ==> DigitValue(z[i]) < radix
  {
    if |z| == 0 then 0
    else
      var init := z[..|z| - 1];
      assert forall i :: 0 <= i < |init| ==> init[i] == z[i];
      var v := DigitsValue(init, radix);
      NatProduct(v, radix);
      v * radix + DigitValue(z[|z| - 1])
  }

  /** `parseInt(s, radix)`, with `radix == 0` standing for an absent radix (ECMA-262 section
      19.2.5). Numbers are exact here: the rounding of very long numerals is not modelled. */
  function ParseInt(s: string, radix: int): (r: IntOrNaN)
    ensures radix != 0 && (radix < 2 || radix > 36) ==> r.NaN?
    ensures |TrimStart(s)| == 0 ==> r.NaN?
  {
    if radix != 0 && (radix < 2 || radix > 36) then NaN
    else
      var t := TrimStart(s);
      if |t| > 0 && t[0] == '-' then Negate(ParseUnsigned(t[1..], radix))
      else if |t| > 0 && t[0] == '+' then ParseUnsigned(t[1..], radix)
      else ParseUnsigned(t, radix)
  }

  function Negate(x: IntOrNaN): (r: IntOrNaN)
    ensures r.NaN? <==> x.NaN?
    ensures x.Int? ==> r.i == -x.i
  {
    match x
    case NaN => NaN
    case Int(v) => Int(-v)
  }

  predicate HasHexPrefix(t: string) {
    |t| >= 2 && t[0] == '0' && (t[1] == 'x' || t[1] == 'X')
  }

  /** Steps 11 to 16 of `parseInt`: an optional `0x` prefix, then the longest run of digits. */
  function ParseUnsigned(t: string, radix: int): (r: IntOrNaN)
    requires radix == 0 || 2 <= radix <= 36
    ensures r.Int? ==> r.i >= 0
  {
    var hex := (radix == 0 || radix == 16) && HasHexPrefix(t);
    var base: nat := if hex then 16 else if radix == 0 then 10 else radix;
    var digits := if hex then t[2..] else t;
    var k := DigitPrefixLen(digits, base);
    if k == 0 then NaN else Int(DigitsValue(digits[..k], base))
  }

  /** `parseInt(String(v), radix)`: `parseInt` converts its argument to a string first. */
  function ParseIntOf(v: JsVal, radix: int): IntOrNaN {
    ParseInt(ToString(v), radix)
  }

  lemma {:induction false} DigitsValueOfDecimal(n: nat)
    ensures DigitsValue(NatToDecimal(n), 10) == n
    decreases n
  {
    var r := NatToDecimal(n);
    if n >= 10 {
      DigitsValueOfDecimal(n / 10);
      assert r[..|r| - 1] == NatToDecimal(n / 10);
    }
  }

  lemma {:induction false} DigitPrefixOfDigits(s: string)
    requires forall i :: 0 <= i < |s| ==> IsDecimalDigit(s[i])
    ensures DigitPrefixLen(s, 10) == |s|
  {
    if |s| > 0 {
      DigitPrefixOfDigits(s[1..]);
    }
  }

  lemma ParseUnsignedOfDecimal(m: nat, radix: int)
    requires radix == 0 || radix == 10
    ensures ParseUnsigned(NatToDecimal(m), radix) == Int(m)
  {
    var d := NatToDecimal(m);
    assert !HasHexPrefix(d);
    DigitPrefixOfDigits(d);
    assert d[..|d|] == d;
    DigitsValueOfDecimal(m);
  }

  /** A numeral starts with a digit or a minus sign, so there is nothing to trim. */
  lemma TrimDecimal(n: int)
    ensures TrimStart(IntToDecimal(n)) == IntToDecimal(n)
  {
    var s := IntToDecimal(n);
    assert !IsJsSpace(s[0]);
  }

  lemma NegativeDecimal(m: nat)
    requires m > 0
    ensures var s := IntToDecimal(-(m as int)); |s| > 0 && s[0] == '-' && s[1..] == NatToDecimal(m)
  {
  }

  /** `parseInt(String(n))` and `parseInt(String(n), 10)` give `n` back. */
  lemma ParseIntOfDecimal(n: int, radix: int)
    requires radix == 0 || radix == 10
    ensures ParseInt(IntToDecimal(n), radix) == Int(n)
  {
    TrimDecimal(n);
    ParseUnsignedOfDecimal(Abs(n), radix);
    if n < 0 {
      NegativeDecimal(-n);
    } else {
      assert IntToDecimal(n)[0] != '-' && IntToDecimal(n)[0] != '+';
    }
  }

  /** The same, for a JSON string holding the numeral. */
  lemma ParseIntOfDecimalText(n: int, radix: int)
    requires radix == 0 || radix == 10
    ensures ParseIntOf(Str(IntToDecimal(n)), radix) == Int(n)
  {
    ParseIntOfDecimal(n, radix);
  }

  // ---------------------------------------------------------------------------
  // Dates

  /** Largest magnitude of a valid time value (ECMA-262 section 21.4.1.1). */
  const MaxTimeValue: int := 8640000000000000

  /** A `Date`: either built from a millisecond count (NaN for an invalid date), or parsed from a
      date string by the engine's implementation-defined `Date.parse`, which is not modelled. */
  datatype Date = DateAt(ms: IntOrNaN) | DateOfText(text: string)

  /** `new Date(ms)`, including the TimeClip that makes out-of-range times invalid. */
  function MakeDate(ms: IntOrNaN): (d: Date)
    ensures d.DateAt?
    ensures d.ms.Int? <==> (ms.Int? && Abs(ms.i) <= MaxTimeValue)
    ensures d.ms.Int? ==> d.ms == ms
  {
    match ms
    case NaN => DateAt(NaN)
    case Int(t) => if Abs(t) <= MaxTimeValue then DateAt(Int(t)) else DateAt(NaN)
  }

  /** `new Date(s)` for a possibly absent date string; `new Date(undefined)` is invalid. */
  function DateOfOptText(s: Option<string>): (d: Date)
    ensures s.None? ==> d == DateAt(NaN)
    ensures s.Some? ==> d == DateOfText(s.value)
  {
    match s
    case None => DateAt(NaN)
    case Some(t) => DateOfText(t)
  }

  /** `date.getTime()` for a date built from a millisecond count. */
  function GetTime(d: Date): Option<IntOrNaN> {
    match d
    case DateAt(ms) => Some(ms)
    case DateOfText(_) => None
  }

  // ---------------------------------------------------------------------------
  // Non-integral Numbers

  /** A Number held by a ccxt structure: finite, or NaN. */
  datatype Num = Finite(r: real) | NumNaN

  predicate NumTruthy(x: Option<Num>) {
    x.Some? && x.value.Finite? && x.value.r != 0.0
  }

  /** `x || 0` */
  function NumOrZero(x: Option<Num>): (r: Num)
    ensures NumTruthy(x) ==> Some(r) == x
    ensures !NumTruthy(x) ==> r == Finite(0.0)
  {
    if NumTruthy(x) then x.value else Finite(0.0)
  }

  /** The result of `parseFloat` and of arithmetic on such results. Decimal-to-binary
      conversion is not modelled, so these are kept as terms over the input text. */
  datatype Float =
    | ParseFloat(text: JsVal)
    | Minus(a: Float, b: Float)
    | Divide(a: Float, b: Float)
    | Percent(a: Float)

  /** The quotient of two reals, kept apart so that evaluating a term names it. */
  function Ratio(x: real, y: real): real
    requires y != 0.0
  {
    x / y
  }

  /** The difference of two optional values: None when either is. */
  function OptMinus(x: Option<real>, y: Option<real>): Option<real> {
    if x.Some? && y.Some? then Some(x.value - y.value) else None
  }

  /** The quotient of two optional values: None when either is, or the divisor is zero. */
  function OptDivide(x: Option<real>, y: Option<real>): Option<real> {
    if x.Some? && y.Some? && y.value != 0.0 then Some(Ratio(x.value, y.value)) else None
  }

  /** An optional value times one hundred. */
  function OptPercent(x: Option<real>): Option<real> {
    if x.Some? then Some(x.value * 100.0) else None
  }

  /** The value of a term in exact arithmetic, given the finite value `parseFloat` gives each
      text (None for NaN). A non-finite intermediate result is None; rounding is not modelled. */
  function EvalFloat(f: Float, pf: JsVal -> Option<real>): Option<real> {
    match f
    case ParseFloat(t) => pf(t)
    case Minus(a, b) => OptMinus(EvalFloat(a, pf), EvalFloat(b, pf))
    case Divide(a, b) => OptDivide(EvalFloat(a, pf), EvalFloat(b, pf))
    case Percent(a) => OptPercent(EvalFloat(a, pf))
  }

  lemma {:induction false} EvalMinus(a: Float, b: Float, pf: JsVal -> Option<real>)
    requires EvalFloat(a, pf).Some? && EvalFloat(b, pf).Some?
    ensures EvalFloat(Minus(a, b), pf) == Some(EvalFloat(a, pf).value - EvalFloat(b, pf).value)
  {
    assert EvalFloat(Minus(a, b), pf) == OptMinus(EvalFloat(a, pf), EvalFloat(b, pf));
  }

  lemma {:induction false} EvalPercent(a: Float, pf: JsVal -> Option<real>)
    requires EvalFloat(a, pf).Some?
    ensures EvalFloat(Percent(a), pf) == Some(EvalFloat(a, pf).value * 100.0)
  {
    assert EvalFloat(Percent(a), pf) == OptPercent(EvalFloat(a, pf));
  }

  lemma {:induction false} EvalDivide(a: Float, b: Float, pf: JsVal -> Option<real>)
    requires EvalFloat(a, pf).Some? && EvalFloat(b, pf).Some? && EvalFloat(b, pf).value != 0.0
    ensures EvalFloat(Divide(a, b), pf) == Some(EvalFloat(a, pf).value / EvalFloat(b, pf).value)
  {
    assert EvalFloat(Divide(a, b), pf) == OptDivide(EvalFloat(a, pf), EvalFloat(b, pf));
  }
}

=== FILE: naming.dfy ===
/** The error-name conversion the normalizers apply to a class name:
    `name.split(/\.?(?=[A-Z])/).join('_').toUpperCase()`, so `BadSymbol` becomes `BAD_SYMBOL`.

    `SplitAtCapitals` follows the `RegExp.prototype[@@split]` algorithm (ECMA-262 section
    22.2.6.14) step by step; `Reference` says in one pass over the characters what the
    split-and-join produces, and `SplitJoinIsReference` connects the two. */
module Naming {
  import opened Wrappers
  import Strs

  predicate IsUpper(c: char) {
    'A' <= c <= 'Z'
  }

  /** ASCII `toUpperCase`. */
  function UpperChar(c: char): (u: char)
    ensures !('a' <= u <= 'z')
    ensures !('a' <= c <= 'z') ==> u == c
  {
    if 'a' <= c <= 'z' then (c as int - 'a' as int + 'A' as int) as char else c
  }

  function ToUpper(s: string): (r: string)
    ensures |r| == |s|
    ensures forall i :: 0 <= i < |s| ==> r[i] == UpperChar(s[i])
  {
    seq(|s|, i requires 0 <= i < |s| => UpperChar(s[i]))
  }

  /** A sticky match of `/\.?(?=[A-Z])/` at position `q`: the position where the match ends. */
  function MatchAt(s: string, q: nat): (e: Option<nat>)
    requires q < |s|
    ensures e.Some? ==> e.value == q || e.value == q + 1
  {
    if s[q] == '.' && q + 1 < |s| && IsUpper(s[q + 1]) then Some(q + 1)
    else if IsUpper(s[q]) then Some(q)
    else None
  }

  /** The split loop: `p` is where the current piece starts, `q` where the next match is tried. */
  function SplitLoop(s: string, p: nat, q: nat, acc: seq<string>): (r: seq<string>)
    requires p <= q <= |s|
    decreases |s| - q, if p < q then 1 else 0
  {
    if q == |s| then acc + [s[p..]]
    else
      match MatchAt(s, q)
      case None => SplitLoop(s, p, q + 1, acc)
      case Some(e) =>
        if e == p then SplitLoop(s, p, q + 1, acc)
        else SplitLoop(s, e, e, acc + [s[p..q]])
  }

  /** `s.split(/\.?(?=[A-Z])/)`; the empty string gives `[""]` because the pattern cannot
      match an empty input. */
  function SplitAtCapitals(s: string): seq<string> {
    SplitLoop(s, 0, 0, [])
  }

  /** A class name in upper snake case: split before each capital (dropping a dot just before it),
      joined with `_`, and upper-cased. */
  function UpperSnake(name: string): string {
    ToUpper(Strs.Join(SplitAtCapitals(name), "_"))
  }

  // ---------------------------------------------------------------------------
  // The same result, character by character

  /** What character `k` contributes to the joined pieces: a dot before a capital turns into
      the separator, a capital not at the start and not after such a dot gets one in front,
      every other character stays. */
  function Contribution(s: string, k: nat): string
    requires k < |s|
  {
    if s[k] == '.' && k + 1 < |s| && IsUpper(s[k + 1]) then "_"
    else if IsUpper(s[k]) && k > 0 && s[k - 1] != '.' then "_" + [s[k]]
    else [s[k]]
  }

  function Reference(s: string, i: nat): string
    requires i <= |s|
  {
    if i == 0 then "" else Reference(s, i - 1) + Contribution(s, i - 1)
  }

  /** Position `k` of a piece starting at `p` is neither a dot before a capital nor a capital
      other than the piece's first character. */
  ghost predicate Quiet(s: string, p: nat, k: nat)
    requires k < |s|
  {
    !(s[k] == '.' && k + 1 < |s| && IsUpper(s[k + 1])) && (IsUpper(s[k]) ==> k == p)
  }

  /** Between `p` and `q` the loop found nothing to split at. */
  ghost predicate NoSplitBetween(s: string, p: nat, q: nat)
    requires p <= q <= |s|
  {
    forall k :: p <= k < q ==> Quiet(s, p, k)
  }

  /** The piece under construction ends in a capital whose separator is still owed. */
  predicate Pending(s: string, p: nat, q: nat)
    requires q <= |s|
  {
    p == q && 0 < q < |s| && IsUpper(s[q]) && s[q - 1] != '.'
  }

  /** What joining the pieces found so far with the current piece gives. */
  function Current(s: string, p: nat, q: nat, acc: seq<string>): string
    requires p <= q <= |s|
  {
    if |acc| == 0 then s[p..q] else Strs.Join(acc, "_") + "_" + s[p..q]
  }

  ghost predicate LoopInvariant(s: string, p: nat, q: nat, acc: seq<string>)
  {
    p <= q <= |s|
    && (|acc| == 0 <==> p == 0)
    && NoSplitBetween(s, p, q)
    && Current(s, p, q, acc) == Reference(s, q) + (if Pending(s, p, q) then "_" else "")
  }

  /** Pushing the current piece `s[p..q]` leaves an empty current piece one separator longer. */
  lemma PushPiece(s: string, p: nat, q: nat, e: nat, acc: seq<string>)
    requires p <= q <= e <= |s|
    ensures Current(s, e, e, acc + [s[p..q]]) == Current(s, p, q, acc) + "_"
  {
    if |acc| > 0 {
      Strs.JoinSnoc(acc, s[p..q], "_");
    }
  }

  /** Moving `q` one step extends the current piece by one character. */
  lemma Advance(s: string, p: nat, q: nat, acc: seq<string>)
    requires p <= q < |s|
    ensures Current(s, p, q + 1, acc) == Current(s, p, q, acc) + [s[q]]
  {
    assert s[p..q + 1] == s[p..q] + [s[q]];
  }

  /** Where no piece ends at `q`, the character there is a capital only if it starts the current
      piece, and it owes a separator exactly when the piece is pending. */
  lemma OverContribution(s: string, p: nat, q: nat)
    requires p <= q < |s| && (MatchAt(s, q).None? || MatchAt(s, q) == Some(p))
    ensures !(s[q] == '.' && q + 1 < |s| && IsUpper(s[q + 1])) && (IsUpper(s[q]) ==> q == p)
    ensures Contribution(s, q) == if Pending(s, p, q) then "_" + [s[q]] else [s[q]]
  {
  }

  lemma ConcatAssoc(a: string, b: string, c: string)
    ensures (a + b) + c == a + (b + c)
  {
  }

  /** Trying a match at `q` and moving on keeps the invariant. */
  lemma StepOver(s: string, p: nat, q: nat, acc: seq<string>)
    requires LoopInvariant(s, p, q, acc) && q < |s|
    requires MatchAt(s, q).None? || MatchAt(s, q) == Some(p)
    ensures LoopInvariant(s, p, q + 1, acc)
  {
    OverContribution(s, p, q);
    Advance(s, p, q, acc);
    var r := Reference(s, q);
    assert Reference(s, q + 1) == r + Contribution(s, q);
    if Pending(s, p, q) {
      ConcatAssoc(r, "_", [s[q]]);
    }
    assert !Pending(s, p, q + 1);
  }

  /** A dot before a capital closes the current piece; the dot becomes the separator. */
  lemma SplitAtDot(s: string, p: nat, q: nat, acc: seq<string>)
    requires LoopInvariant(s, p, q, acc) && q + 1 < |s| && s[q] == '.' && IsUpper(s[q + 1])
    ensures LoopInvariant(s, q + 1, q + 1, acc + [s[p..q]])
  {
    PushPiece(s, p, q, q + 1, acc);
    assert Contribution(s, q) == "_";
    assert !Pending(s, p, q) && !Pending(s, q + 1, q + 1);
  }

  /** A capital past the start of the current piece closes it and owes a separator. */
  lemma SplitAtCapital(s: string, p: nat, q: nat, acc: seq<string>)
    requires LoopInvariant(s, p, q, acc) && p < q < |s| && IsUpper(s[q])
    ensures LoopInvariant(s, q, q, acc + [s[p..q]])
  {
    PushPiece(s, p, q, q, acc);
    assert Quiet(s, p, q - 1);
    assert !Pending(s, p, q) && Pending(s, q, q);
  }

  /** When `q` reaches the end, the last piece is pushed and the join is complete. */
  lemma Finish(s: string, p: nat, acc: seq<string>)
    requires LoopInvariant(s, p, |s|, acc)
    ensures Strs.Join(acc + [s[p..]], "_") == Reference(s, |s|)
  {
    assert !Pending(s, p, |s|);
    assert s[p..|s|] == s[p..];
    assert Current(s, p, |s|, acc) == Reference(s, |s|);
    if |acc| > 0 {
      Strs.JoinSnoc(acc, s[p..], "_");
    } else {
      assert acc + [s[p..]] == [s[p..]];
    }
  }

  lemma LoopOver(s: string, p: nat, q: nat, acc: seq<string>)
    requires p <= q < |s| && (MatchAt(s, q).None? || MatchAt(s, q) == Some(p))
    ensures SplitLoop(s, p, q, acc) == SplitLoop(s, p, q + 1, acc)
  {
  }

  lemma JoinOver(s: string, p: nat, q: nat, acc: seq<string>)
    requires p <= q < |s| && (MatchAt(s, q).None? || MatchAt(s, q) == Some(p))
    ensures Strs.Join(SplitLoop(s, p, q, acc), "_") == Strs.Join(SplitLoop(s, p, q + 1, acc), "_")
  {
    LoopOver(s, p, q, acc);
  }

  lemma LoopSplits(s: string, p: nat, q: nat, e: nat, acc: seq<string>)
    requires p <= q < |s| && MatchAt(s, q) == Some(e) && e != p
    ensures SplitLoop(s, p, q, acc) == SplitLoop(s, e, e, acc + [s[p..q]])
  {
  }

  lemma JoinSplits(s: string, p: nat, q: nat, e: nat, acc: seq<string>)
    requires p <= q < |s| && MatchAt(s, q) == Some(e) && e != p
    ensures Strs.Join(SplitLoop(s, p, q, acc), "_") == Strs.Join(SplitLoop(s, e, e, acc + [s[p..q]]), "_")
  {
    LoopSplits(s, p, q, e, acc);
  }

  /** Every step of the loop keeps the invariant, so the pieces it returns join into the
      reference; `left` counts the characters still to scan. */
  lemma {:induction false} LoopIsReference(s: string, p: nat, q: nat, acc: seq<string>, left: nat)
    requires LoopInvariant(s, p, q, acc)
    requires q + left == |s|
    ensures Strs.Join(SplitLoop(s, p, q, acc), "_") == Reference(s, |s|)
    decreases left, 2
  {
    if q == |s| {
      Finish(s, p, acc);
    } else if MatchAt(s, q).None? || MatchAt(s, q) == Some(p) {
      StepOver(s, p, q, acc);
      OverIsReference(s, p, q, acc, left);
    } else if MatchAt(s, q) == Some(q + 1) {
      SplitAtDot(s, p, q, acc);
      DotIsReference(s, p, q, acc, left);
    } else {
      CapitalIsReference(s, p, q, acc, left);
    }
  }

  /** The step of `LoopIsReference` where a dot before a capital ends the piece, taken once the
      invariant has moved past the dot. */
  lemma {:induction false} DotIsReference(s: string, p: nat, q: nat, acc: seq<string>, left: nat)
    requires p <= q && q + 1 < |s| && MatchAt(s, q) == Some(q + 1)
    requires LoopInvariant(s, q + 1, q + 1, acc + [s[p..q]])
    requires q + left == |s|
    ensures Strs.Join(SplitLoop(s, p, q, acc), "_") == Reference(s, |s|)
    decreases left, 1
  {
    JoinSplits(s, p, q, q + 1, acc);
    LoopIsReference(s, q + 1, q + 1, acc + [s[p..q]], left - 1);
  }

  /** The step of `LoopIsReference` where a capital past the piece's start ends the piece. */
  lemma {:induction false} CapitalIsReference(s: string, p: nat, q: nat, acc: seq<string>, left: nat)
    requires LoopInvariant(s, p, q, acc) && p < q < |s| && MatchAt(s, q) == Some(q)
    requires q + left == |s|
    ensures Strs.Join(SplitLoop(s, p, q, acc), "_") == Reference(s, |s|)
    decreases left, 1
  {
    var acc' := acc + [s[p..q]];
    SplitAtCapital(s, p, q, acc);
    StepOver(s, q, q, acc');
    JoinSplits(s, p, q, q, acc);
    OverIsReference(s, q, q, acc', left);
  }

  /** The step of `LoopIsReference` where no piece ends at `q`, taken once the invariant has
      moved past `q`. */
  lemma {:induction false} OverIsReference(s: string, p: nat, q: nat, acc: seq<string>, left: nat)
    requires p <= q < |s| && (MatchAt(s, q).None? || MatchAt(s, q) == Some(p))
    requires LoopInvariant(s, p, q + 1, acc)
    requires q + left == |s|
    ensures Strs.Join(SplitLoop(s, p, q, acc), "_") == Reference(s, |s|)
    decreases left, 0
  {
    JoinOver(s, p, q, acc);
    LoopIsReference(s, p, q + 1, acc, left - 1);
  }

  /** The split-and-join inserts `_` before every capital that is neither first nor after a dot,
      and turns every dot in front of a capital into `_`. */
  lemma SplitJoinIsReference(s: string)
    ensures Strs.Join(SplitAtCapitals(s), "_") == Reference(s, |s|)
  {
    LoopIsReference(s, 0, 0, [], |s|);
  }

  lemma UpperSnakeIsReference(name: string)
    ensures UpperSnake(name) == ToUpper(Reference(name, |name|))
  {
    SplitJoinIsReference(name);
  }

  /** The reference for `BaseError`, one character at a time. */
  lemma BaseErrorReference()
    ensures Reference("BaseError", 9) == "Base_Error"
  {
    var b := "BaseError";
    assert Reference(b, 1) == "B";
    assert Reference(b, 2) == "Ba";
    assert Reference(b, 3) == "Bas";
    assert Reference(b, 4) == "Base";
    assert Reference(b, 5) == "Base_E";
    assert Reference(b, 6) == "Base_Er";
    assert Reference(b, 7) == "Base_Err";
    assert Reference(b, 8) == "Base_Erro";
  }

  /** `BaseError` becomes `BASE_ERROR`. */
  lemma BaseErrorExample()
    ensures UpperSnake("BaseError") == "BASE_ERROR"
  {
    UpperSnakeIsReference("BaseError");
    BaseErrorReference();
    UpperBaseError();
  }

  lemma UpperBaseError()
    ensures ToUpper("Base_Error") == "BASE_ERROR"
  {
  }

  /** A name with one capital, at the start, is only upper-cased; the empty name stays empty. */
  lemma SingleWordExamples()
    ensures UpperSnake("Error") == "ERROR"
    ensures UpperSnake("") == ""
  {
    var e := "Error";
    UpperSnakeIsReference(e);
    assert Reference(e, 1) == "E";
    assert Reference(e, 2) == "Er";
    assert Reference(e, 3) == "Err";
    assert Reference(e, 4) == "Erro";
    assert Reference(e, 5) == "Error";
    UpperSnakeIsReference("");
  }
}

=== FILE: okx_adapters.dfy ===
/** The OKX market-data adapters: `priceAdapter` and `tickerAdapter` turn one OKX ticker item
    into the library's price and ticker shapes. */
module OkxAdapters {
  import opened Wrappers
  import opened Js
  import Symbols
  import Adapters

  datatype Price = Price(symbol: string, datetime: Date, price: Float)

  /** A side of the book: best price and size. */
  datatype Level = Level(price: Float, size: Float)

  /** The day's opening price and when the day started. */
  datatype Opening = Opening(price: Float, datetime: Date)

  datatype Ticker = Ticker(
    symbol: string,
    datetime: Date,
    high: Float,
    low: Float,
    bid: Level,
    ask: Level,
    open: Opening,
    last: Float,
    timeframe: string)

  const Timeframe: string := "1d"

  /** `data.instId.split(...)`: throws unless the item is an object whose `instId` is a string. */
  function InstIdOf(d: JsVal): (r: Completion<string>)
    ensures r.Normal? <==> !IsNullish(d) && OptProp(d, "instId").Str?
    ensures r.Normal? ==> OptProp(d, "instId") == Str(r.value)
    ensures r.Abrupt? ==> IsTypeError(r.thrown)
  {
    match Prop(d, "instId")
    case Abrupt(t) => Abrupt(t)
    case Normal(Str(s)) => Normal(s)
    case Normal(Undefined) => Abrupt(TypeError("Cannot read properties of undefined (reading 'split')"))
    case Normal(Null) => Abrupt(TypeError("Cannot read properties of null (reading 'split')"))
    case Normal(_) => Abrupt(TypeError("data.instId.split is not a function"))
  }

  /** The date of an item: its `ts` text parsed as an integer count of milliseconds. */
  function TimeOf(d: JsVal): (t: Date)
    ensures t == MakeDate(ParseIntOf(OptProp(d, "ts"), 0))
    ensures t.DateAt?
  {
    MakeDate(ParseIntOf(OptProp(d, "ts"), 0))
  }

  /** The date one day before a valid date. */
  function DayBefore(t: Date): (r: Date)
    requires t.DateAt?
    ensures r.DateAt?
    ensures t.ms.NaN? ==> r.ms.NaN?
    ensures t.ms.Int? && Abs(t.ms.i - Adapters.OneDay) <= MaxTimeValue ==> r.ms == Int(t.ms.i - Adapters.OneDay)
  {
    MakeDate(AddInt(t.ms, -Adapters.OneDay))
  }

  /** `priceAdapter` */
  function AdaptPrice(d: JsVal): (r: Completion<Price>)
    ensures r.Normal? <==> InstIdOf(d).Normal?
    ensures r.Abrupt? ==> IsTypeError(r.thrown)
    ensures r.Normal? ==>
      r.value == Price(Symbols.OkxSymbol(InstIdOf(d).value), TimeOf(d), ParseFloat(OptProp(d, "last")))
  {
    match InstIdOf(d)
    case Abrupt(t) => Abrupt(t)
    case Normal(id) => Normal(Price(Symbols.OkxSymbol(id), TimeOf(d), ParseFloat(OptProp(d, "last"))))
  }

  /** `tickerAdapter` */
  function AdaptTicker(d: JsVal): (r: Completion<Ticker>)
    ensures r.Normal? <==> InstIdOf(d).Normal?
    ensures r.Abrupt? ==> IsTypeError(r.thrown)
    ensures r.Normal? ==>
      var t := r.value;
      && t.symbol == Symbols.OkxSymbol(InstIdOf(d).value) && t.datetime == TimeOf(d)
      && t.open == Opening(ParseFloat(OptProp(d, "open24h")), DayBefore(t.datetime))
      && t.timeframe == Timeframe
      && t.last == ParseFloat(OptProp(d, "last"))
      && t.high == ParseFloat(OptProp(d, "high24h")) && t.low == ParseFloat(OptProp(d, "low24h"))
      && t.bid == Level(ParseFloat(OptProp(d, "bidPx")), ParseFloat(OptProp(d, "bidSz")))
      && t.ask == Level(ParseFloat(OptProp(d, "askPx")), ParseFloat(OptProp(d, "askSz")))
  {
    match InstIdOf(d)
    case Abrupt(t) => Abrupt(t)
    case Normal(id) =>
      var at := TimeOf(d);
      Normal(Ticker(Symbols.OkxSymbol(id), at, ParseFloat(OptProp(d, "high24h")), ParseFloat(OptProp(d, "low24h")),
        Level(ParseFloat(OptProp(d, "bidPx")), ParseFloat(OptProp(d, "bidSz"))),
        Level(ParseFloat(OptProp(d, "askPx")), ParseFloat(OptProp(d, "askSz"))),
        Opening(ParseFloat(OptProp(d, "open24h")), DayBefore(at)),
        ParseFloat(OptProp(d, "last")), Timeframe))
  }

  /** The two adapters accept the same items and agree on symbol, time and last price. */
  lemma AdaptersAgree(d: JsVal)
    ensures AdaptPrice(d).Normal? <==> AdaptTicker(d).Normal?
    ensures AdaptPrice(d).Normal? ==>
      var (p, t) := (AdaptPrice(d).value, AdaptTicker(d).value);
      p.symbol == t.symbol && p.datetime == t.datetime && p.price == t.last
  {
  }

  /** An item with `ts` the decimal text of a time `t` (with `t` and the day before it valid
      dates) is stamped `t`, and its day opened 86 400 000 ms earlier. */
  lemma OpenedADayBefore(d: JsVal, t: int)
    requires InstIdOf(d).Normal? && OptProp(d, "ts") == Str(IntToDecimal(t))
    requires Abs(t) <= MaxTimeValue && Abs(t - Adapters.OneDay) <= MaxTimeValue
    ensures AdaptTicker(d).value.datetime == DateAt(Int(t))
    ensures AdaptTicker(d).value.open.datetime == DateAt(Int(t - Adapters.OneDay))
  {
    ParseIntOfDecimal(t, 0);
  }

  /** An item whose `ts` does not parse has neither a valid time nor a valid opening time. */
  lemma UnparsableTimeInvalid(d: JsVal)
    requires InstIdOf(d).Normal? && ParseIntOf(OptProp(d, "ts"), 0).NaN?
    ensures AdaptTicker(d).value.datetime == DateAt(NaN)
    ensures AdaptTicker(d).value.open.datetime == DateAt(NaN)
  {
  }

  /** A `BASE/QUOTE` symbol sent as its instrument id comes back as itself. */
  lemma SymbolRoundTrip(d: JsVal, base: string, quote: string)
    requires '/' !in base && '-' !in base && '/' !in quote && '-' !in quote
    requires !IsNullish(d) && OptProp(d, "instId") == Str(Symbols.InstId(base + "/" + quote))
    ensures AdaptPrice(d).Normal? && AdaptPrice(d).value.symbol == base + "/" + quote
    ensures AdaptTicker(d).Normal? && AdaptTicker(d).value.symbol == base + "/" + quote
  {
    Symbols.OkxSymbolRoundTrip(base, quote);
  }
}

=== FILE: okx_errors.dfy ===
/** The OKX REST client's error handling: `handleErrors` classifies what an HTTP call threw
    (axios errors with and without a response, other errors, non-errors), and `parseResponse`
    turns a body whose `code` is not zero into an exchange error. */
module OkxErrors {
  import opened Wrappers
  import opened Js
  import TE = TradeErrors

  const WellDoneMessage: string := "If you were able to reach this error you broke this lib"

  /** `handleErrors`. Reading `code` from a response without a body throws a TypeError. */
  function HandleErrors(error: Thrown): (r: Completion<TE.TradeError>)
    ensures r == Normal(TE.RateLimit) <==>
      IsAxiosError(error) && error.kind.response.Some? && error.kind.response.value.status == 429
    ensures r.Abrupt? <==>
      IsAxiosError(error) && error.kind.response.Some? && error.kind.response.value.status != 429
      && IsNullish(error.kind.response.value.data)
    ensures r.Normal? && r.value.HttpVenueError? ==>
      IsAxiosError(error) && error.kind.response.Some?
      && r.value.statusCode == error.kind.response.value.status
      && r.value.httpCode == ParseIntOf(OptProp(error.kind.response.value.data, "code"), 0)
      && r.value.httpMsg == OptProp(error.kind.response.value.data, "msg")
    ensures IsAxiosError(error) && error.kind.response.None? ==>
      r == Normal(TE.NetworkFailure(error.message, Some(error.name)))
    ensures IsError(error) && !IsAxiosError(error) ==>
      r == Normal(TE.UnknownError(error.message, error.name))
    ensures !IsError(error) ==> r == Normal(TE.UnknownError(WellDoneMessage, "WELL_DONE"))
  {
    if IsAxiosError(error) then
      if error.kind.response.None? then Normal(TE.NetworkFailure(error.message, Some(error.name)))
      else
        var response := error.kind.response.value;
        if response.status == 429 then Normal(TE.RateLimit)
        else
          match Prop(response.data, "code")
          case Abrupt(t) => Abrupt(t)
          case Normal(code) =>
            Normal(TE.HttpVenueError(response.status, ParseIntOf(code, 0), OptProp(response.data, "msg")))
    else if IsError(error) then Normal(TE.UnknownError(error.message, error.name))
    else Normal(TE.UnknownError(WellDoneMessage, "WELL_DONE"))
  }

  /** `parseResponse`: None when `parseInt(code)` is zero, otherwise an exchange error with
      status 200. Reading `code` from a missing body throws. */
  function ParseResponse(body: JsVal): (r: Completion<Option<TE.TradeError>>)
    ensures r.Abrupt? <==> IsNullish(body)
    ensures r.Normal? ==> (r.value.None? <==> ParseIntOf(OptProp(body, "code"), 0) == Int(0))
    ensures r.Normal? && r.value.Some? ==>
      r.value.value == TE.HttpVenueError(200, ParseIntOf(OptProp(body, "code"), 0), OptProp(body, "msg"))
  {
    match Prop(body, "code")
    case Abrupt(t) => Abrupt(t)
    case Normal(code) =>
      var c := ParseIntOf(code, 0);
      if c == Int(0) then Normal(None)
      else Normal(Some(TE.HttpVenueError(200, c, OptProp(body, "msg"))))
  }

  /** A body whose `code` is the decimal string of `n` is accepted exactly when `n` is zero, and
      a rejected one reports `n` itself. */
  lemma ParseResponseCode(n: int, msg: JsVal, rest: map<string, JsVal>)
    ensures var body := Obj(rest["code" := Str(IntToDecimal(n))]["msg" := msg]);
      var r := ParseResponse(body);
      r.Normal? && (r.value.None? <==> n == 0)
      && (n != 0 ==> r.value.value == TE.HttpVenueError(200, Int(n), msg))
  {
    var body := Obj(rest["code" := Str(IntToDecimal(n))]["msg" := msg]);
    assert OptProp(body, "code") == Str(IntToDecimal(n));
    assert OptProp(body, "msg") == msg;
    ParseIntOfDecimalText(n, 0);
  }

  /** The same holds for the error body of a failed HTTP call (other than a 429). */
  lemma HttpErrorCode(status: int, n: int, msg: JsVal, name: string, message: string)
    requires status != 429
    ensures var data := Obj(map["code" := Str(IntToDecimal(n)), "msg" := msg]);
      HandleErrors(ErrorObject(AxiosError(Some(HttpResponse(status, data))), name, message))
        == Normal(TE.HttpVenueError(status, Int(n), msg))
  {
    var data := Obj(map["code" := Str(IntToDecimal(n)), "msg" := msg]);
    assert Prop(data, "code") == Normal(Str(IntToDecimal(n)));
    ParseIntOfDecimal(n, 0);
  }
}

=== FILE: okx_http.dfy ===
/** `OkxMarketDataHttpHandler`: one GET per call, the body's `code` checked before anything is
    read, the multi-symbol answers filtered to the requested instruments, and everything thrown
    inside the call handed to `handleErrors`. */
module OkxHttp {
  import opened Wrappers
  import opened Js
  import TE = TradeErrors
  import Symbols
  import OkxErrors
  import OkxAdapters

  /** A GET request: path and query parameters. */
  datatype Request = Get(path: string, params: seq<(string, string)>)

  const TickerPath: string := "api/v5/market/ticker"
  const TickersPath: string := "api/v5/market/tickers"

  /** The single-instrument request: the symbol's first `/` becomes `-`. */
  function SingleRequest(symbol: string): (q: Request)
    ensures q.path == TickerPath && q.params == [("instId", Symbols.InstId(symbol))]
  {
    Get(TickerPath, [("instId", Symbols.InstId(symbol))])
  }

  /** The multi-instrument request asks for every spot ticker, whatever symbols were wanted. */
  const ListRequest: Request := Get(TickersPath, [("instType", "SPOT")])

  /** The HTTP client: the body a request resolves to, or what it rejects with. */
  type Client = Request -> Completion<JsVal>

  type Outcome<T> = Completion<Result<T, TE.TradeError>>

  /** What a handler's `catch` answers: the thrown error, normalised by `handleErrors`; a throw
      from `handleErrors` itself escapes. */
  function Caught<T>(t: Thrown): (r: Outcome<T>)
    ensures OkxErrors.HandleErrors(t).Normal? ==> r == Normal(Err(OkxErrors.HandleErrors(t).value))
    ensures OkxErrors.HandleErrors(t).Abrupt? ==> r == Abrupt(OkxErrors.HandleErrors(t).thrown)
  {
    match OkxErrors.HandleErrors(t)
    case Normal(e) => Normal(Err(e))
    case Abrupt(t2) => Abrupt(t2)
  }

  /** What a handler answers once its request settled: `got` is what the client gave and `read`
      what reading the body then gives (consulted only for a body whose code is 0). */
  function Answer<T>(got: Completion<JsVal>, read: Completion<T>): (r: Outcome<T>)
    ensures got.Abrupt? ==> r == Caught(got.thrown)
    ensures got.Normal? && OkxErrors.ParseResponse(got.value).Abrupt? ==>
      r == Caught(OkxErrors.ParseResponse(got.value).thrown)
    ensures got.Normal? && OkxErrors.ParseResponse(got.value).Normal? && OkxErrors.ParseResponse(got.value).value.Some? ==>
      r == Normal(Err(OkxErrors.ParseResponse(got.value).value.value))
    ensures got.Normal? && OkxErrors.ParseResponse(got.value) == Normal(None) ==>
      r == (if read.Normal? then Normal(Ok(read.value)) else Caught(read.thrown))
  {
    match got
    case Abrupt(t) => Caught(t)
    case Normal(body) =>
      match OkxErrors.ParseResponse(body)
      case Abrupt(t) => Caught(t)
      case Normal(Some(e)) => Normal(Err(e))
      case Normal(None) =>
        match read
        case Abrupt(t) => Caught(t)
        case Normal(x) => Normal(Ok(x))
  }

  /** The body a settled request carries (undefined for a failed one). */
  function Body(got: Completion<JsVal>): JsVal {
    if got.Normal? then got.value else Undefined
  }

  /** `v[0]`: throws on null and undefined; an empty array (or anything without an element 0)
      gives undefined. */
  function First(v: JsVal): (r: Completion<JsVal>)
    ensures r.Abrupt? <==> IsNullish(v)
    ensures r.Abrupt? ==> IsTypeError(r.thrown)
    ensures v.Arr? ==> r == Normal(if |v.items| > 0 then v.items[0] else Undefined)
  {
    match v
    case Undefined => Abrupt(TypeError("Cannot read properties of undefined (reading '0')"))
    case Null => Abrupt(TypeError("Cannot read properties of null (reading '0')"))
    case Arr(items) => Normal(if |items| > 0 then items[0] else Undefined)
    case Str(s) => Normal(if |s| > 0 then Str([s[0]]) else Undefined)
    case Obj(fields) => Normal(if "0" in fields then fields["0"] else Undefined)
    case _ => Normal(Undefined)
  }

  /** The first item of the body's `data` list, adapted; reading a missing list or item throws. */
  function ReadFirst<T>(body: JsVal, adapt: JsVal -> Completion<T>): (r: Completion<T>)
    ensures !IsNullish(body) && OptProp(body, "data").Arr? && |OptProp(body, "data").items| > 0 ==>
      r == adapt(OptProp(body, "data").items[0])
  {
    match Prop(body, "data")
    case Abrupt(t) => Abrupt(t)
    case Normal(data) =>
      match First(data)
      case Abrupt(t) => Abrupt(t)
      case Normal(d) => adapt(d)
  }

  /** An item whose instrument id is one of the requested ones. */
  predicate IsRequested(d: JsVal, ids: seq<string>) {
    OptProp(d, "instId").Str? && OptProp(d, "instId").s in ids
  }

  /** `items.filter(d => instIds.includes(d.instId))`: reading `instId` of a null item throws. */
  function Requested(items: seq<JsVal>, ids: seq<string>): (r: Completion<seq<JsVal>>)
    ensures r.Abrupt? ==> IsTypeError(r.thrown)
    ensures (forall i :: 0 <= i < |items| ==> !IsNullish(items[i])) ==> r.Normal?
    decreases |items|
  {
    if |items| == 0 then Normal([])
    else
      match Prop(items[0], "instId")
      case Abrupt(t) => Abrupt(t)
      case Normal(id) =>
        assert forall i :: 0 < i < |items| ==> items[1..][i - 1] == items[i];
        match Requested(items[1..], ids)
        case Abrupt(t) => Abrupt(t)
        case Normal(rest) => Normal(if id.Str? && id.s in ids then [items[0]] + rest else rest)
  }

  /** The filter throws exactly when some item is null or undefined; otherwise it keeps exactly
      the items naming a requested instrument. */
  lemma {:induction false} RequestedMembers(items: seq<JsVal>, ids: seq<string>)
    ensures Requested(items, ids).Abrupt? <==> exists i :: 0 <= i < |items| && IsNullish(items[i])
    ensures Requested(items, ids).Normal? ==>
      forall x :: x in Requested(items, ids).value <==> x in items && IsRequested(x, ids)
    decreases |items|
  {
    if |items| > 0 {
      var rest := items[1..];
      assert forall i :: 0 < i < |items| ==> rest[i - 1] == items[i];
      assert items == [items[0]] + rest;
      RequestedMembers(rest, ids);
      if Requested(items, ids).Abrupt? && !IsNullish(items[0]) {
        var i :| 0 <= i < |rest| && IsNullish(rest[i]);
        assert IsNullish(items[i + 1]);
      }
    }
  }

  /** The filter keeps the response's order: filtering a concatenation concatenates the
      filtered parts. */
  lemma {:induction false} RequestedKeepsOrder(a: seq<JsVal>, b: seq<JsVal>, ids: seq<string>)
    requires forall i :: 0 <= i < |a| ==> !IsNullish(a[i])
    requires forall i :: 0 <= i < |b| ==> !IsNullish(b[i])
    ensures Requested(a + b, ids) == Normal(Requested(a, ids).value + Requested(b, ids).value)
    decreases |a|
  {
    if |a| == 0 {
      assert a + b == b;
      assert Requested(a, ids) == Normal([]);
      assert [] + Requested(b, ids).value == Requested(b, ids).value;
    } else {
      var ab := a + b;
      assert ab[1..] == a[1..] + b;
      assert ab[0] == a[0] && !IsNullish(a[0]);
      RequestedKeepsOrder(a[1..], b, ids);
      var x := Requested(a[1..], ids).value;
      var y := Requested(b, ids).value;
      RequestedStep(ab, ids);
      RequestedStep(a, ids);
      var head := if IsRequested(a[0], ids) then [a[0]] else [];
      assert head + (x + y) == (head + x) + y;
    }
  }

  /** One step of the filter over an item that can be read. */
  lemma RequestedStep(items: seq<JsVal>, ids: seq<string>)
    requires |items| > 0 && !IsNullish(items[0])
    requires Requested(items[1..], ids).Normal?
    ensures Requested(items, ids)
      == Normal((if IsRequested(items[0], ids) then [items[0]] else []) + Requested(items[1..], ids).value)
  {
    var id := OptProp(items[0], "instId");
    assert Prop(items[0], "instId") == Normal(id);
    var rest := Requested(items[1..], ids).value;
    assert Requested(items, ids) == Normal(if id.Str? && id.s in ids then [items[0]] + rest else rest);
    assert [] + rest == rest;
  }

  /** When no item names a requested instrument the answer is empty, not an error. */
  lemma {:induction false} NoneRequested(items: seq<JsVal>, ids: seq<string>)
    requires forall i :: 0 <= i < |items| ==> !IsNullish(items[i]) && !IsRequested(items[i], ids)
    ensures Requested(items, ids) == Normal([])
    decreases |items|
  {
    if |items| > 0 {
      assert forall i :: 0 < i < |items| ==> items[1..][i - 1] == items[i];
      NoneRequested(items[1..], ids);
    }
  }

  /** `data.data.filter(...).map(adapter)`: `filter` exists only on arrays. */
  function ReadListed<T>(body: JsVal, ids: seq<string>, adapt: JsVal -> Completion<T>): (r: Completion<seq<T>>)
    ensures !IsNullish(body) && OptProp(body, "data").Arr? ==>
      var kept := Requested(OptProp(body, "data").items, ids);
      (kept.Abrupt? ==> r == Abrupt(kept.thrown))
      && (kept.Normal? ==> r == All(seq(|kept.value|, i requires 0 <= i < |kept.value| => adapt(kept.value[i]))))
  {
    match Prop(body, "data")
    case Abrupt(t) => Abrupt(t)
    case Normal(Arr(items)) =>
      (match Requested(items, ids)
       case Abrupt(t) => Abrupt(t)
       case Normal(kept) => All(seq(|kept|, i requires 0 <= i < |kept| => adapt(kept[i]))))
    case Normal(Undefined) => Abrupt(TypeError("Cannot read properties of undefined (reading 'filter')"))
    case Normal(Null) => Abrupt(TypeError("Cannot read properties of null (reading 'filter')"))
    case Normal(_) => Abrupt(TypeError("data.data.filter is not a function"))
  }

  function InstIds(symbols: seq<string>): (ids: seq<string>)
    ensures |ids| == |symbols| && forall i :: 0 <= i < |symbols| ==> ids[i] == Symbols.InstId(symbols[i])
  {
    seq(|symbols|, i requires 0 <= i < |symbols| => Symbols.InstId(symbols[i]))
  }

  /** Only a failure `handleErrors` itself cannot digest escapes a handler (an HTTP error whose
      response has no body), provided reading the body throws nothing but TypeErrors. A non-zero
      code is answered before the body is read any further. */
  lemma AnswerContract<T>(got: Completion<JsVal>, read: Completion<T>)
    requires read.Abrupt? ==> IsTypeError(read.thrown)
    ensures var r := Answer(got, read);
      && (r.Abrupt? ==> got.Abrupt? && OkxErrors.HandleErrors(got.thrown).Abrupt?)
      && ((got.Normal? && OkxErrors.ParseResponse(got.value).Normal?
           && OkxErrors.ParseResponse(got.value).value.Some?) ==>
            r == Normal(Err(OkxErrors.ParseResponse(got.value).value.value)))
  {
    if got.Normal? {
      match OkxErrors.ParseResponse(got.value)
      case Abrupt(t) =>
        assert IsTypeError(t);
      case Normal(None) =>
      case Normal(Some(_)) =>
    }
  }

  lemma ReadListedThrowsTypeErrors<T>(body: JsVal, ids: seq<string>, adapt: JsVal -> Completion<T>)
    requires forall d :: adapt(d).Abrupt? ==> IsTypeError(adapt(d).thrown)
    ensures ReadListed(body, ids, adapt).Abrupt? ==> IsTypeError(ReadListed(body, ids, adapt).thrown)
  {
    if ReadListed(body, ids, adapt).Abrupt? && !IsNullish(body) && OptProp(body, "data").Arr? {
      var kept := Requested(OptProp(body, "data").items, ids);
      if kept.Normal? {
        var cs := seq(|kept.value|, i requires 0 <= i < |kept.value| => adapt(kept.value[i]));
        var i :| 0 <= i < |cs| && cs[i] == Abrupt(All(cs).thrown);
        assert IsTypeError(adapt(kept.value[i]).thrown);
      }
    }
  }

  /** Reading a well-formed list body (`data` an array of readable items each of which adapts)
      gives the adaptation of exactly the requested items, in the order the venue sent them. */
  lemma ReadListedWellFormed<T>(body: JsVal, ids: seq<string>, adapt: JsVal -> Completion<T>, items: seq<JsVal>)
    requires !IsNullish(body) && OptProp(body, "data") == Arr(items)
    requires forall i :: 0 <= i < |items| ==> !IsNullish(items[i]) && adapt(items[i]).Normal?
    ensures var (kept, r) := (Requested(items, ids), ReadListed(body, ids, adapt));
      && kept.Normal? && r.Normal? && |r.value| == |kept.value|
      && forall i :: 0 <= i < |kept.value| ==> adapt(kept.value[i]) == Normal(r.value[i])
  {
    RequestedMembers(items, ids);
    var kept := Requested(items, ids).value;
    var cs := seq(|kept|, i requires 0 <= i < |kept| => adapt(kept[i]));
    forall i | 0 <= i < |kept| ensures cs[i].Normal? {
      assert kept[i] in items;
    }
  }

  /** `getPrice` */
  function GetPrice(http: Client, symbol: string): (r: Outcome<OkxAdapters.Price>)
    ensures var got := http(SingleRequest(symbol));
      && (r.Abrupt? ==> got.Abrupt? && OkxErrors.HandleErrors(got.thrown).Abrupt?)
      && ((got.Normal? && OkxErrors.ParseResponse(got.value).Normal?
           && OkxErrors.ParseResponse(got.value).value.Some?) ==>
            r == Normal(Err(OkxErrors.ParseResponse(got.value).value.value)))
  {
    var got := http(SingleRequest(symbol));
    var read := ReadFirst(Body(got), OkxAdapters.AdaptPrice);
    AnswerContract(got, read);
    Answer(got, read)
  }

  /** `getTicker` */
  function GetTicker(http: Client, symbol: string): (r: Outcome<OkxAdapters.Ticker>)
    ensures var got := http(SingleRequest(symbol));
      && (r.Abrupt? ==> got.Abrupt? && OkxErrors.HandleErrors(got.thrown).Abrupt?)
      && ((got.Normal? && OkxErrors.ParseResponse(got.value).Normal?
           && OkxErrors.ParseResponse(got.value).value.Some?) ==>
            r == Normal(Err(OkxErrors.ParseResponse(got.value).value.value)))
  {
    var got := http(SingleRequest(symbol));
    var read := ReadFirst(Body(got), OkxAdapters.AdaptTicker);
    AnswerContract(got, read);
    Answer(got, read)
  }

  /** A code-0 answer whose `data` starts with a readable item is that item, adapted. */
  lemma TickerOfFirstItem(http: Client, symbol: string, items: seq<JsVal>)
    requires http(SingleRequest(symbol)).Normal? && !IsNullish(http(SingleRequest(symbol)).value)
    requires OkxErrors.ParseResponse(http(SingleRequest(symbol)).value) == Normal(None)
    requires OptProp(http(SingleRequest(symbol)).value, "data") == Arr(items)
    requires |items| > 0 && OkxAdapters.InstIdOf(items[0]).Normal?
    ensures GetTicker(http, symbol) == Normal(Ok(OkxAdapters.AdaptTicker(items[0]).value))
    ensures GetPrice(http, symbol) == Normal(Ok(OkxAdapters.AdaptPrice(items[0]).value))
  {
  }

  /** `getPrices` */
  function GetPrices(http: Client, symbols: seq<string>): (r: Outcome<seq<OkxAdapters.Price>>)
    ensures var got := http(ListRequest);
      && (r.Abrupt? ==> got.Abrupt? && OkxErrors.HandleErrors(got.thrown).Abrupt?)
      && ((got.Normal? && OkxErrors.ParseResponse(got.value).Normal?
           && OkxErrors.ParseResponse(got.value).value.Some?) ==>
            r == Normal(Err(OkxErrors.ParseResponse(got.value).value.value)))
  {
    var got := http(ListRequest);
    var read := ReadListed(Body(got), InstIds(symbols), OkxAdapters.AdaptPrice);
    ReadListedThrowsTypeErrors(Body(got), InstIds(symbols), OkxAdapters.AdaptPrice);
    AnswerContract(got, read);
    Answer(got, read)
  }

  /** `getTickers` */
  function GetTickers(http: Client, symbols: seq<string>): (r: Outcome<seq<OkxAdapters.Ticker>>)
    ensures var got := http(ListRequest);
      && (r.Abrupt? ==> got.Abrupt? && OkxErrors.HandleErrors(got.thrown).Abrupt?)
      && ((got.Normal? && OkxErrors.ParseResponse(got.value).Normal?
           && OkxErrors.ParseResponse(got.value).value.Some?) ==>
            r == Normal(Err(OkxErrors.ParseResponse(got.value).value.value)))
  {
    var got := http(ListRequest);
    var read := ReadListed(Body(got), InstIds(symbols), OkxAdapters.AdaptTicker);
    ReadListedThrowsTypeErrors(Body(got), InstIds(symbols), OkxAdapters.AdaptTicker);
    AnswerContract(got, read);
    Answer(got, read)
  }

  /** A well-formed list answer gives one ticker per item naming a requested instrument, in the
      venue's order; requested symbols the venue does not list are simply absent. */
  lemma TickersOfRequestedItems(http: Client, symbols: seq<string>, items: seq<JsVal>)
    requires http(ListRequest).Normal? && !IsNullish(http(ListRequest).value)
    requires OkxErrors.ParseResponse(http(ListRequest).value) == Normal(None)
    requires OptProp(http(ListRequest).value, "data") == Arr(items)
    requires forall i :: 0 <= i < |items| ==> OkxAdapters.InstIdOf(items[i]).Normal?
    ensures var (kept, r) := (Requested(items, InstIds(symbols)), GetTickers(http, symbols));
      && kept.Normal? && r.Normal? && r.value.Ok? && |r.value.value| == |kept.value|
      && forall i :: 0 <= i < |kept.value| ==> OkxAdapters.AdaptTicker(kept.value[i]) == Normal(r.value.value[i])
  {
    ReadListedWellFormed(http(ListRequest).value, InstIds(symbols), OkxAdapters.AdaptTicker, items);
  }

  /** The same for prices: one price per item naming a requested instrument, in the venue's
      order, each the item's symbol, time and last price. */
  lemma PricesOfRequestedItems(http: Client, symbols: seq<string>, items: seq<JsVal>)
    requires http(ListRequest).Normal? && !IsNullish(http(ListRequest).value)
    requires OkxErrors.ParseResponse(http(ListRequest).value) == Normal(None)
    requires OptProp(http(ListRequest).value, "data") == Arr(items)
    requires forall i :: 0 <= i < |items| ==> OkxAdapters.InstIdOf(items[i]).Normal?
    ensures var (kept, r) := (Requested(items, InstIds(symbols)), GetPrices(http, symbols));
      && kept.Normal? && r.Normal? && r.value.Ok? && |r.value.value| == |kept.value|
      && forall i :: 0 <= i < |kept.value| ==> OkxAdapters.AdaptPrice(kept.value[i]) == Normal(r.value.value[i])
  {
    ReadListedWellFormed(http(ListRequest).value, InstIds(symbols), OkxAdapters.AdaptPrice, items);
  }
}

=== FILE: okx_stream.dfy ===
/** `OkxMarketDataWebsocketHandler` over `ReadOnlyStremClient`: what one pushed message makes the
    client do (confirm a subscription, report an error, or hand prices or tickers to the user's
    handler), and what it sends when the socket opens. */
module OkxStream {
  import opened Wrappers
  import opened Js
  import TE = TradeErrors
  import VE = VenueErrors
  import Symbols
  import OkxAdapters
  import OkxHttp

  /** Which of the user's optional handlers were supplied. */
  datatype Handlers = Handlers(onConnect: bool, onSubscribed: bool, onError: bool, onMessage: bool)

  /** A call into one of the user's handlers. */
  datatype Effect<T> = Subscribed | ErrorReported(error: TE.TradeError) | Delivered(value: T)

  /** The error reported for an error push: a web-socket error carrying the push's message, its
      code parsed as an integer, and its connection id. */
  function PushedError(p: JsVal): (e: TE.TradeError)
    ensures e.WebSocketError? && e.wsCode.Numeric?
    ensures e.wsMsg == OptProp(p, "msg") && e.connId == OptProp(p, "connId")
    ensures e.wsCode.n == ParseIntOf(OptProp(p, "code"), 0)
  {
    TE.WebSocketError(OptProp(p, "msg"), TE.Numeric(ParseIntOf(OptProp(p, "code"), 0)), OptProp(p, "connId"))
  }

  /** The adapter `createClient` installs: a subscription confirmation or an error push calls the
      matching handler (when supplied) and yields nothing; any other message is read by `read`.
      Reading `event` of a null message throws. */
  function Adapter<T>(h: Handlers, p: JsVal, read: JsVal -> Completion<T>): (r: Completion<(seq<Effect<T>>, Option<T>)>)
    ensures r.Abrupt? <==> IsNullish(p) || (OptProp(p, "event") != Str("subscribe")
                                            && OptProp(p, "event") != Str("error") && read(p).Abrupt?)
    ensures !IsNullish(p) && OptProp(p, "event") == Str("subscribe") ==>
      r == Normal((if h.onSubscribed then [Subscribed] else [], None))
    ensures !IsNullish(p) && OptProp(p, "event") == Str("error") ==>
      r == Normal((if h.onError then [ErrorReported(PushedError(p))] else [], None))
    ensures (!IsNullish(p) && OptProp(p, "event") != Str("subscribe") && OptProp(p, "event") != Str("error")
             && read(p).Normal?) ==> r == Normal(([], Some(read(p).value)))
  {
    match Prop(p, "event")
    case Abrupt(t) => Abrupt(t)
    case Normal(event) =>
      if event == Str("subscribe") then Normal((if h.onSubscribed then [Subscribed] else [], None))
      else if event == Str("error") then Normal((if h.onError then [ErrorReported(PushedError(p))] else [], None))
      else
        match read(p)
        case Abrupt(t) => Abrupt(t)
        case Normal(v) => Normal(([], Some(v)))
  }

  /** The socket's `message` listener: parse the text, and only when a message handler was
      supplied run the adapter and deliver what it yields (a price, a ticker or a list of them is
      never falsy, while the adapter's `null` is). */
  function OnMessage<T>(h: Handlers, parse: VE.JsonParser, text: string, read: JsVal -> Completion<T>): (r: Completion<seq<Effect<T>>>)
    ensures parse(text).None? ==> r == Abrupt(SyntaxError())
    ensures parse(text).Some? && !h.onMessage ==> r == Normal([])
    ensures parse(text).Some? && h.onMessage ==>
      var a := Adapter(h, parse(text).value, read);
      && (a.Abrupt? ==> r == Abrupt(a.thrown))
      && (a.Normal? ==> r == Normal(a.value.0 + if a.value.1.Some? then [Delivered(a.value.1.value)] else []))
  {
    match parse(text)
    case None => Abrupt(SyntaxError())
    case Some(p) =>
      if !h.onMessage then Normal([])
      else
        match Adapter(h, p, read)
        case Abrupt(t) => Abrupt(t)
        case Normal((effects, res)) =>
          Normal(effects + if res.Some? then [Delivered(res.value)] else [])
  }

  /** Delivered values of a list of effects. */
  predicate DeliversNothing<T>(effects: seq<Effect<T>>) {
    forall i :: 0 <= i < |effects| ==> !effects[i].Delivered?
  }

  /** A subscription confirmation or an error push never reaches the message handler: it calls
      at most the handler made for it, and only when a message handler is supplied too. */
  lemma ControlMessagesNotDelivered<T>(h: Handlers, parse: VE.JsonParser, text: string, read: JsVal -> Completion<T>)
    requires parse(text).Some? && !IsNullish(parse(text).value)
    requires OptProp(parse(text).value, "event") in {Str("subscribe"), Str("error")}
    ensures OnMessage(h, parse, text, read).Normal?
    ensures DeliversNothing(OnMessage(h, parse, text, read).value)
    ensures |OnMessage(h, parse, text, read).value| <= 1
    ensures |OnMessage(h, parse, text, read).value| == 1 <==>
      h.onMessage && (if OptProp(parse(text).value, "event") == Str("subscribe") then h.onSubscribed else h.onError)
  {
    var p := parse(text).value;
    if h.onMessage {
      var e: seq<Effect<T>> :=
        if OptProp(p, "event") == Str("subscribe") then (if h.onSubscribed then [Subscribed] else [])
        else (if h.onError then [ErrorReported(PushedError(p))] else []);
      assert Adapter(h, p, read) == Normal((e, None));
      assert e + [] == e;
    }
  }

  /** An error push whose `code` is the decimal text of `n` is reported with code `n`, its
      message and its connection id. */
  lemma ErrorPushReported<T>(h: Handlers, parse: VE.JsonParser, text: string, read: JsVal -> Completion<T>, n: int)
    requires h.onMessage && h.onError
    requires parse(text).Some? && !IsNullish(parse(text).value)
    requires OptProp(parse(text).value, "event") == Str("error")
    requires OptProp(parse(text).value, "code") == Str(IntToDecimal(n))
    ensures OnMessage(h, parse, text, read) == Normal([ErrorReported(TE.WebSocketError(
      OptProp(parse(text).value, "msg"), TE.Numeric(Int(n)), OptProp(parse(text).value, "connId")))])
  {
    ParseIntOfDecimal(n, 0);
    var p := parse(text).value;
    assert PushedError(p) == TE.WebSocketError(OptProp(p, "msg"), TE.Numeric(Int(n)), OptProp(p, "connId"));
    assert Adapter(h, p, read) == Normal(([ErrorReported(PushedError(p))], None));
    var e: seq<Effect<T>> := [ErrorReported(PushedError(p))];
    assert e + [] == e;
  }

  /** A data push the reader accepts is delivered once, and calls nothing else. */
  lemma DataPushDelivered<T>(h: Handlers, parse: VE.JsonParser, text: string, read: JsVal -> Completion<T>)
    requires h.onMessage && parse(text).Some? && !IsNullish(parse(text).value)
    requires OptProp(parse(text).value, "event") != Str("subscribe")
    requires OptProp(parse(text).value, "event") != Str("error")
    requires read(parse(text).value).Normal?
    ensures OnMessage(h, parse, text, read) == Normal([Delivered(read(parse(text).value).value)])
  {
    var d: seq<Effect<T>> := [Delivered(read(parse(text).value).value)];
    assert [] + d == d;
  }

  /** Without a message handler the client stays silent: not even confirmations and error
      pushes reach their handlers. */
  lemma SilentWithoutMessageHandler<T>(h: Handlers, parse: VE.JsonParser, text: string, read: JsVal -> Completion<T>)
    requires !h.onMessage && parse(text).Some?
    ensures OnMessage(h, parse, text, read) == Normal([])
  {
  }

  // ---------------------------------------------------------------------------
  // Readers of data pushes

  /** Every item of the push's `data` list adapted in turn. Reading `map` of a missing or null
      list throws, calling it on anything that is not an array throws, and so does an item's
      adapter. */
  function MapItems<T>(p: JsVal, adapt: JsVal -> Completion<T>): (r: Completion<seq<T>>)
    ensures (IsNullish(p) || !OptProp(p, "data").Arr?) ==> r.Abrupt? && IsTypeError(r.thrown)
    ensures !IsNullish(p) && OptProp(p, "data") == Undefined ==>
      r == Abrupt(TypeError("Cannot read properties of undefined (reading 'map')"))
    ensures !IsNullish(p) && OptProp(p, "data") == Null ==>
      r == Abrupt(TypeError("Cannot read properties of null (reading 'map')"))
    ensures !IsNullish(p) && !IsNullish(OptProp(p, "data")) && !OptProp(p, "data").Arr? ==>
      r == Abrupt(TypeError("data.data.map is not a function"))
    ensures (!IsNullish(p) && OptProp(p, "data").Arr?) ==>
      var items := OptProp(p, "data").items;
      && (r.Normal? <==> forall i :: 0 <= i < |items| ==> adapt(items[i]).Normal?)
      && (r.Normal? ==> |r.value| == |items| && forall i :: 0 <= i < |items| ==> adapt(items[i]) == Normal(r.value[i]))
      && (r.Abrupt? ==> exists i :: 0 <= i < |items| && adapt(items[i]) == Abrupt(r.thrown))
  {
    match Prop(p, "data")
    case Abrupt(t) => Abrupt(t)
    case Normal(Arr(items)) =>
      var cs := seq(|items|, i requires 0 <= i < |items| => adapt(items[i]));
      assert forall i :: 0 <= i < |items| ==> cs[i] == adapt(items[i]);
      var r := All(cs);
      assert r.Abrupt? ==> exists i :: 0 <= i < |items| && cs[i] == Abrupt(r.thrown);
      r
    case Normal(Undefined) => Abrupt(TypeError("Cannot read properties of undefined (reading 'map')"))
    case Normal(Null) => Abrupt(TypeError("Cannot read properties of null (reading 'map')"))
    case Normal(_) => Abrupt(TypeError("data.data.map is not a function"))
  }

  /** `subscribeToPrice`: the first pushed item, adapted as a price. */
  function PriceOf(p: JsVal): Completion<OkxAdapters.Price> {
    OkxHttp.ReadFirst(p, OkxAdapters.AdaptPrice)
  }

  /** `subscribeToPrices` */
  function PricesOf(p: JsVal): Completion<seq<OkxAdapters.Price>> {
    MapItems(p, OkxAdapters.AdaptPrice)
  }

  /** `subscribeToTiker` */
  function TickerOf(p: JsVal): Completion<OkxAdapters.Ticker> {
    OkxHttp.ReadFirst(p, OkxAdapters.AdaptTicker)
  }

  /** `subscribeToTikers` */
  function TickersOf(p: JsVal): Completion<seq<OkxAdapters.Ticker>> {
    MapItems(p, OkxAdapters.AdaptTicker)
  }

  /** A list reader gives one value per pushed item, each that item's adaptation, exactly when
      every item adapts. */
  lemma {:induction false} ListReadItemwise(p: JsVal, items: seq<JsVal>)
    requires !IsNullish(p) && OptProp(p, "data") == Arr(items)
    ensures TickersOf(p).Normal? <==> forall i :: 0 <= i < |items| ==> OkxAdapters.InstIdOf(items[i]).Normal?
    ensures PricesOf(p).Normal? <==> TickersOf(p).Normal?
    ensures TickersOf(p).Normal? ==>
      && |TickersOf(p).value| == |PricesOf(p).value| == |items|
      && forall i :: 0 <= i < |items| ==>
           && OkxAdapters.AdaptTicker(items[i]) == Normal(TickersOf(p).value[i])
           && OkxAdapters.AdaptPrice(items[i]) == Normal(PricesOf(p).value[i])
  {
    forall i | 0 <= i < |items|
      ensures OkxAdapters.AdaptTicker(items[i]).Normal? <==> OkxAdapters.AdaptPrice(items[i]).Normal?
    {
      OkxAdapters.AdaptersAgree(items[i]);
    }
  }

  /** On a push of readable items the single-symbol readers give what the list readers give
      first. */
  lemma {:induction false} SingleIsFirstOfList(p: JsVal, items: seq<JsVal>)
    requires !IsNullish(p) && OptProp(p, "data") == Arr(items) && |items| > 0
    requires forall i :: 0 <= i < |items| ==> OkxAdapters.InstIdOf(items[i]).Normal?
    ensures TickersOf(p).Normal? && PricesOf(p).Normal?
    ensures TickerOf(p) == Normal(TickersOf(p).value[0])
    ensures PriceOf(p) == Normal(PricesOf(p).value[0])
  {
    ListReadItemwise(p, items);
  }

  // ---------------------------------------------------------------------------
  // Connecting

  /** One entry of a subscription request. */
  datatype Arg = Arg(channel: string, instId: string)

  /** The subscription request the client sends. */
  datatype Payload = Payload(op: string, args: seq<Arg>)

  /** `buildSubscribePayload`: the `tickers` channel of each instrument, in order. */
  function SubscribePayload(instIds: seq<string>): (r: Payload)
    ensures r.op == "subscribe" && |r.args| == |instIds|
    ensures forall i :: 0 <= i < |instIds| ==> r.args[i] == Arg("tickers", instIds[i])
  {
    Payload("subscribe", seq(|instIds|, i requires 0 <= i < |instIds| => Arg("tickers", instIds[i])))
  }

  /** What the socket's `open` listener does, in order. */
  datatype ConnectEffect = Sent(payload: Payload) | Connected

  /** The `onConnect` every subscription installs: send the request for the symbols (a single
      symbol is a list of one), then call the user's `onConnect` when supplied. */
  function OnConnect(h: Handlers, symbols: seq<string>): (r: seq<ConnectEffect>)
    ensures |r| >= 1 && r[0] == Sent(SubscribePayload(OkxHttp.InstIds(symbols)))
    ensures |r| == 2 <==> h.onConnect
    ensures |r| == 2 ==> r[1] == Connected
  {
    [Sent(SubscribePayload(OkxHttp.InstIds(symbols)))] + if h.onConnect then [Connected] else []
  }

  /** The request names every symbol's instrument in the symbols' order, and each instrument id
      maps back to its `BASE/QUOTE` symbol, the one the adapters report. */
  lemma SubscribedInstrumentsRoundTrip(h: Handlers, symbols: seq<string>, i: nat, base: string, quote: string)
    requires i < |symbols| && symbols[i] == base + "/" + quote
    requires '/' !in base && '-' !in base && '/' !in quote && '-' !in quote
    ensures OnConnect(h, symbols)[0].payload.args[i].channel == "tickers"
    ensures Symbols.OkxSymbol(OnConnect(h, symbols)[0].payload.args[i].instId) == symbols[i]
  {
    Symbols.OkxSymbolRoundTrip(base, quote);
  }
}

=== FILE: positions.dfy ===
/** `openLong`, `openShort`, `closeLong` and `closeShort` of the three ccxt venues: place a market
    order, poll until the venue reports it filled or `timeInForce` (default 30 s) runs out, and on
    time-out cancel it and report `TIME_OUT`. The whole run sits in the facade's
    `try … catch … finally syncProxy()`.

    The venue calls are oracles: `create` answers the order placement, the poll oracles answer
    the `j`-th status request, `cancel` answers the cancellation. */
module Positions {
  import opened Wrappers
  import opened Js
  import TE = TradeErrors
  import VE = VenueErrors
  import Adapters
  import Symbols
  import Controller
  import ProxySync
  import Facade

  datatype Action = OpenLong | OpenShort | CloseLong | CloseShort

  /** The order side: a long is opened by buying and closed by selling, a short the reverse. */
  function ActionSide(a: Action): (s: Adapters.Side)
    ensures (a == OpenLong || a == CloseShort) <==> s == Adapters.Buy
  {
    match a
    case OpenLong => Adapters.Buy
    case OpenShort => Adapters.Sell
    case CloseLong => Adapters.Sell
    case CloseShort => Adapters.Buy
  }

  predicate Closes(a: Action) {
    a == CloseLong || a == CloseShort
  }

  /** Closing a position trades against the side that opened it. */
  lemma CloseOpposesOpen()
    ensures ActionSide(CloseLong) != ActionSide(OpenLong) && ActionSide(CloseShort) != ActionSide(OpenShort)
    ensures ActionSide(OpenLong) != ActionSide(OpenShort)
  {
  }

  const TimeOutMessage: string := "The order was not filled in time."

  function TimeOutError(): (e: TE.TradeError)
    ensures TE.Reason(e) == "TRADEKIT_ERROR" && TE.CodeLiteral(e.code) == "TIME_OUT"
  {
    TE.Tradekit(TE.TimeOut, TimeOutMessage)
  }

  /** `timeInForce ?? 30000`: an explicit zero stays zero. */
  function Timeout(timeInForce: Option<int>): (t: int)
    ensures timeInForce.Some? ==> t == timeInForce.value
    ensures timeInForce.None? ==> t == Controller.DefaultTimeout
  {
    timeInForce.GetOr(Controller.DefaultTimeout)
  }

  /** How the run after a successful placement ended: its result, the number of status polls,
      and the id passed to `cancelOrder`, if it was called. */
  datatype Placement<I, T> = Placement(outcome: Facade.Outcome<T>, polls: nat, cancelled: Option<I>)

  /** The loop and what follows it, for an order with id `id`. */
  function AwaitFill<I, P, T>(id: I, clock: nat -> int, timeout: int, poll: nat -> Completion<P>, filled: P -> bool,
                              onFill: P -> Facade.Outcome<T>, cancel: I -> Completion<()>)
    : (r: Placement<I, T>)
    requires Controller.ClockAdvances(clock)
    ensures var loop := Controller.PollFrom(clock, timeout, poll, filled, 0);
      && r.polls == loop.polls
      && (r.cancelled.Some? <==> loop.TimedOut?)
      && (r.cancelled.Some? ==> r.cancelled.value == id)
      && (loop.Filled? ==> r.outcome == onFill(loop.answer))
      && (loop.Threw? ==> r.outcome == Abrupt(loop.thrown))
      && (loop.TimedOut? && cancel(id).Normal? ==> r.outcome == Normal(Err(TimeOutError())))
      && (loop.TimedOut? && cancel(id).Abrupt? ==> r.outcome == Abrupt(cancel(id).thrown))
  {
    var loop := Controller.PollFrom(clock, timeout, poll, filled, 0);
    match loop
    case Filled(p, n) => Placement(onFill(p), n, None)
    case Threw(t, n) => Placement(Abrupt(t), n, None)
    case TimedOut(n) =>
      Placement(match cancel(id) case Normal(_) => Normal(Err(TimeOutError())) case Abrupt(t) => Abrupt(t), n, Some(id))
  }

  /** `TIME_OUT` is reported only when no poll saw the order filled before the time ran out,
      and only after the order was cancelled; unless the fill handler itself can report it. */
  lemma TimeOutOnlyAfterCancel<I, P, T>(id: I, clock: nat -> int, timeout: int, poll: nat -> Completion<P>,
                                        filled: P -> bool, onFill: P -> Facade.Outcome<T>, cancel: I -> Completion<()>)
    requires Controller.ClockAdvances(clock)
    requires forall p :: onFill(p) != Normal(Err(TimeOutError()))
    ensures var r := AwaitFill(id, clock, timeout, poll, filled, onFill, cancel);
      r.outcome == Normal(Err(TimeOutError())) <==>
        && r.cancelled == Some(id) && cancel(id).Normal?
        && Controller.Unfilled(poll, filled, 0, r.polls)
        && clock(r.polls + 1) - clock(0) >= timeout
  {
    var loop := Controller.PollFrom(clock, timeout, poll, filled, 0);
    if loop.Filled? {
      assert poll(loop.polls - 1) == Normal(loop.answer) && filled(loop.answer);
    } else if loop.Threw? {
      assert poll(loop.polls - 1).Abrupt?;
    }
  }

  /** A filled order's status was asked at most once a second within the time limit. */
  lemma PollsWithinTimeout<I, P, T>(id: I, clock: nat -> int, timeout: int, poll: nat -> Completion<P>,
                                    filled: P -> bool, onFill: P -> Facade.Outcome<T>, cancel: I -> Completion<()>)
    requires Controller.ClockAdvances(clock)
    ensures var r := AwaitFill(id, clock, timeout, poll, filled, onFill, cancel);
      (timeout <= 0 ==> r.polls == 0 && r.cancelled == Some(id))
      && (r.polls >= 1 ==> Controller.PollInterval * (r.polls - 1) < timeout)
  {
    Controller.PollBound(clock, timeout, poll, filled);
  }

  // ---------------------------------------------------------------------------
  // Bybit and Binance: ccxt's unified order calls

  /** The arguments of `createMarketOrder`; closing orders carry `{ reduceOnly: true }`. */
  datatype MarketOrder = MarketOrder(symbol: string, side: Adapters.Side, amount: Num, reduceOnly: bool)

  function MarketOrderFor(a: Action, symbol: string, amount: Num): (m: MarketOrder)
    ensures m.symbol == symbol && m.amount == amount && m.side == ActionSide(a) && m.reduceOnly == Closes(a)
  {
    MarketOrder(symbol, ActionSide(a), amount, Closes(a))
  }

  /** No open order has the placed order's id. */
  predicate NotOpen(id: string, open: seq<Adapters.CcxtOrder>) {
    forall i :: 0 <= i < |open| ==> open[i].id != id
  }

  /** Bybit: filled once the order is missing from `fetchOpenOrders()`; then the closed order is
      fetched and adapted. */
  function BybitPosition(parse: VE.JsonParser, f: ProxySync.Facade, a: Action, symbol: string, amount: Num,
                         timeInForce: Option<int>, clock: nat -> int,
                         create: MarketOrder -> Completion<Adapters.CcxtOrder>,
                         openOrders: nat -> Completion<seq<Adapters.CcxtOrder>>,
                         fetchClosed: string -> Completion<Adapters.CcxtOrder>,
                         cancel: string -> Completion<()>)
    : (res: (Placement<string, Adapters.Order>, ProxySync.Facade))
    requires ProxySync.Valid(f) && Controller.ClockAdvances(clock)
    ensures res.1 == ProxySync.SyncProxy(f)
    ensures var placed := create(MarketOrderFor(a, symbol, amount));
      && (placed.Abrupt? ==> res.0 == Placement(Facade.Caught(VE.Bybit, parse, placed.thrown), 0, None))
      && (placed.Normal? ==>
            var id := placed.value.id;
            var r := AwaitFill(id, clock, Timeout(timeInForce), openOrders, (p: seq<Adapters.CcxtOrder>) => NotOpen(id, p),
                               _ => BybitFetchClosed(fetchClosed, id), cancel);
            res.0 == r.(outcome := Facade.Guarded(VE.Bybit, parse, f, r.outcome).0))
  {
    var placed := create(MarketOrderFor(a, symbol, amount));
    var r := match placed
      case Abrupt(e) => Placement(Abrupt(e), 0, None)
      case Normal(order) =>
        var id := order.id;
        AwaitFill(id, clock, Timeout(timeInForce), openOrders, (p: seq<Adapters.CcxtOrder>) => NotOpen(id, p),
                  _ => BybitFetchClosed(fetchClosed, id), cancel);
    var (out, f') := Facade.Guarded(VE.Bybit, parse, f, r.outcome);
    (r.(outcome := out), f')
  }

  /** The closed order fetched by its id and passed through the shared order adapter; a throw
      from the fetch propagates. */
  function BybitFetchClosed(fetchClosed: string -> Completion<Adapters.CcxtOrder>, id: string): (r: Facade.Outcome<Adapters.Order>)
    ensures fetchClosed(id).Abrupt? ==> r == Abrupt(fetchClosed(id).thrown)
    ensures fetchClosed(id).Normal? ==> r == Normal(Adapters.OrderAdapter(fetchClosed(id).value))
  {
    match fetchClosed(id)
    case Normal(o) => Normal(Adapters.OrderAdapter(o))
    case Abrupt(e) => Abrupt(e)
  }

  /** Binance: filled once the order is missing from `fetchOpenOrders(symbol)`; the answer is the
      placement's own order object, unadapted. */
  function BinancePosition(parse: VE.JsonParser, f: ProxySync.Facade, a: Action, symbol: string, amount: Num,
                           timeInForce: Option<int>, clock: nat -> int,
                           create: MarketOrder -> Completion<Adapters.CcxtOrder>,
                           openOrders: string -> nat -> Completion<seq<Adapters.CcxtOrder>>,
                           cancel: string -> Completion<()>)
    : (res: (Placement<string, Adapters.CcxtOrder>, ProxySync.Facade))
    requires ProxySync.Valid(f) && Controller.ClockAdvances(clock)
    ensures res.1 == ProxySync.SyncProxy(f)
    ensures var placed := create(MarketOrderFor(a, symbol, amount));
      && (placed.Abrupt? ==> res.0 == Placement(Facade.Caught(VE.Binance, parse, placed.thrown), 0, None))
      && (placed.Normal? ==>
            var id := placed.value.id;
            var r := AwaitFill(id, clock, Timeout(timeInForce), openOrders(symbol), (p: seq<Adapters.CcxtOrder>) => NotOpen(id, p),
                               _ => Normal(Ok(placed.value)), cancel);
            res.0 == r.(outcome := Facade.Guarded(VE.Binance, parse, f, r.outcome).0))
  {
    var placed := create(MarketOrderFor(a, symbol, amount));
    var r := match placed
      case Abrupt(e) => Placement(Abrupt(e), 0, None)
      case Normal(order) =>
        var id := order.id;
        AwaitFill(id, clock, Timeout(timeInForce), openOrders(symbol), (p: seq<Adapters.CcxtOrder>) => NotOpen(id, p),
                  _ => Normal(Ok(order)), cancel);
    var (out, f') := Facade.Guarded(VE.Binance, parse, f, r.outcome);
    (r.(outcome := out), f')
  }

  /** No venue's `handleError` produces `TIME_OUT`: that result always comes from the loop. */
  lemma CaughtNeverTimesOut<T>(v: VE.Venue, parse: VE.JsonParser, e: Thrown)
    ensures Facade.Caught<T>(v, parse, e) != Normal(Err(TimeOutError()))
  {
  }

  /** Behind the facade's `catch`, too, `TIME_OUT` comes only from the loop: after polls that
      all saw the order unfilled until the time ran out, and a cancellation that went through. */
  lemma GuardedTimeOut<I, P, T>(v: VE.Venue, parse: VE.JsonParser, f: ProxySync.Facade, id: I, clock: nat -> int,
                                timeout: int, poll: nat -> Completion<P>, filled: P -> bool,
                                onFill: P -> Facade.Outcome<T>, cancel: I -> Completion<()>)
    requires ProxySync.Valid(f) && Controller.ClockAdvances(clock)
    requires forall p :: onFill(p) != Normal(Err(TimeOutError()))
    ensures var r := AwaitFill(id, clock, timeout, poll, filled, onFill, cancel);
      Facade.Guarded(v, parse, f, r.outcome).0 == Normal(Err(TimeOutError())) <==>
        && r.cancelled == Some(id) && cancel(id).Normal?
        && Controller.Unfilled(poll, filled, 0, r.polls)
        && clock(r.polls + 1) - clock(0) >= timeout
  {
    var r := AwaitFill(id, clock, timeout, poll, filled, onFill, cancel);
    TimeOutOnlyAfterCancel(id, clock, timeout, poll, filled, onFill, cancel);
    if r.outcome.Abrupt? {
      CaughtNeverTimesOut<T>(v, parse, r.outcome.thrown);
    }
  }

  /** On Bybit, `TIME_OUT` means the order was placed, every poll still listed it as open until
      the time ran out, and its cancellation went through. */
  lemma BybitTimeOut(parse: VE.JsonParser, f: ProxySync.Facade, a: Action, symbol: string, amount: Num,
                     timeInForce: Option<int>, clock: nat -> int,
                     create: MarketOrder -> Completion<Adapters.CcxtOrder>,
                     openOrders: nat -> Completion<seq<Adapters.CcxtOrder>>,
                     fetchClosed: string -> Completion<Adapters.CcxtOrder>,
                     cancel: string -> Completion<()>)
    requires ProxySync.Valid(f) && Controller.ClockAdvances(clock)
    ensures var r := BybitPosition(parse, f, a, symbol, amount, timeInForce, clock, create, openOrders, fetchClosed, cancel).0;
      var placed := create(MarketOrderFor(a, symbol, amount));
      r.outcome == Normal(Err(TimeOutError())) <==>
        && placed.Normal? && r.cancelled == Some(placed.value.id) && cancel(placed.value.id).Normal?
        && (forall k: nat :: k < r.polls ==> openOrders(k).Normal? && !NotOpen(placed.value.id, openOrders(k).value))
        && clock(r.polls + 1) - clock(0) >= Timeout(timeInForce)
  {
    var placed := create(MarketOrderFor(a, symbol, amount));
    if placed.Abrupt? {
      CaughtNeverTimesOut<Adapters.Order>(VE.Bybit, parse, placed.thrown);
    } else {
      var id := placed.value.id;
      var filled := (p: seq<Adapters.CcxtOrder>) => NotOpen(id, p);
      var onFill := _ => BybitFetchClosed(fetchClosed, id);
      assert forall p :: onFill(p) != Normal(Err(TimeOutError()));
      GuardedTimeOut(VE.Bybit, parse, f, id, clock, Timeout(timeInForce), openOrders, filled, onFill, cancel);
    }
  }

  /** On Binance an answered order is the one placed, and the order was gone from the open
      orders at the last poll. */
  lemma BinanceAnswersPlacedOrder(parse: VE.JsonParser, f: ProxySync.Facade, a: Action, symbol: string, amount: Num,
                                  timeInForce: Option<int>, clock: nat -> int,
                                  create: MarketOrder -> Completion<Adapters.CcxtOrder>,
                                  openOrders: string -> nat -> Completion<seq<Adapters.CcxtOrder>>,
                                  cancel: string -> Completion<()>)
    requires ProxySync.Valid(f) && Controller.ClockAdvances(clock)
    ensures var r := BinancePosition(parse, f, a, symbol, amount, timeInForce, clock, create, openOrders, cancel).0;
      r.outcome.Normal? && r.outcome.value.Ok? ==>
        && create(MarketOrderFor(a, symbol, amount)) == Normal(r.outcome.value.value)
        && r.polls >= 1 && r.cancelled.None?
        && var last := openOrders(symbol)(r.polls - 1);
        last.Normal? && NotOpen(r.outcome.value.value.id, last.value)
  {
    var placed := create(MarketOrderFor(a, symbol, amount));
    if placed.Normal? {
      var id := placed.value.id;
      var loop := Controller.PollFrom(clock, Timeout(timeInForce), openOrders(symbol), (p: seq<Adapters.CcxtOrder>) => NotOpen(id, p), 0);
    }
  }

  // ---------------------------------------------------------------------------
  // Bitget: its own order endpoint

  /** The body of `privateMixPostV2MixOrderPlaceOrder`. */
  datatype PlaceOrderParams = PlaceOrderParams(
    symbol: string,
    productType: string,
    marginMode: string,
    marginCoin: string,
    size: Num,
    side: string,
    orderType: string,
    reduceOnly: Option<string>)

  /** The placement body; building it throws when `normalizeSymbol` cannot split the symbol. */
  function PlaceOrderFor(a: Action, symbol: string, sandbox: bool, amount: Num): (r: Completion<PlaceOrderParams>)
    ensures r.Abrupt? <==> Symbols.NormalizeSymbol(symbol, sandbox).Abrupt?
    ensures r.Abrupt? ==> r.thrown == Symbols.NormalizeSymbol(symbol, sandbox).thrown
    ensures r.Normal? ==>
      && r.value.symbol == Symbols.NormalizeSymbol(symbol, sandbox).value
      && r.value.productType == Facade.SandboxPrefix(sandbox) + "USDT-FUTURES"
      && r.value.marginCoin == Facade.SandboxPrefix(sandbox) + "USDT"
      && r.value.marginMode == "isolated" && r.value.orderType == "market"
      && r.value.size == amount && r.value.side == Adapters.SideName(ActionSide(a))
      && (r.value.reduceOnly.Some? <==> Closes(a)) && (Closes(a) ==> r.value.reduceOnly == Some("YES"))
  {
    match Symbols.NormalizeSymbol(symbol, sandbox)
    case Abrupt(t) => Abrupt(t)
    case Normal(s) =>
      var sb := Facade.SandboxPrefix(sandbox);
      Normal(PlaceOrderParams(s, sb + "USDT-FUTURES", "isolated", sb + "USDT", amount, Adapters.SideName(ActionSide(a)),
                              "market", if Closes(a) then Some("YES") else None))
  }

  /** `order.data.orderId`: throws when the response or its `data` is null or undefined. */
  function OrderIdOf(response: JsVal): (r: Completion<JsVal>)
    ensures r.Abrupt? <==> IsNullish(response) || IsNullish(OptProp(response, "data"))
    ensures r.Normal? ==> r.value == OptProp(OptProp(response, "data"), "orderId")
  {
    match Prop(response, "data")
    case Abrupt(t) => Abrupt(t)
    case Normal(data) => Prop(data, "orderId")
  }

  /** The polled order has nothing left to fill. */
  predicate NothingRemaining(o: Adapters.CcxtOrder) {
    o.remaining == Some(Finite(0.0))
  }

  /** The id of the placed order: building the body, placing it, reading `data.orderId`; the
      first of these that throws ends the attempt. */
  function BitgetOrderId(a: Action, symbol: string, sandbox: bool, amount: Num, create: PlaceOrderParams -> Completion<JsVal>)
    : (r: Completion<JsVal>)
    ensures PlaceOrderFor(a, symbol, sandbox, amount).Abrupt? ==> r == Abrupt(PlaceOrderFor(a, symbol, sandbox, amount).thrown)
    ensures PlaceOrderFor(a, symbol, sandbox, amount).Normal? ==>
      var placed := create(PlaceOrderFor(a, symbol, sandbox, amount).value);
      (placed.Abrupt? ==> r == placed) && (placed.Normal? ==> r == OrderIdOf(placed.value))
  {
    match PlaceOrderFor(a, symbol, sandbox, amount)
    case Abrupt(t) => Abrupt(t)
    case Normal(params) =>
      match create(params)
      case Abrupt(t) => Abrupt(t)
      case Normal(response) => OrderIdOf(response)
  }

  /** Bitget: filled once `fetchOrder(orderId, symbol)` reports nothing remaining; that polled
      order is adapted. The cancellation also names the symbol. */
  function BitgetPosition(parse: VE.JsonParser, f: ProxySync.Facade, a: Action, symbol: string, amount: Num,
                          timeInForce: Option<int>, clock: nat -> int,
                          create: PlaceOrderParams -> Completion<JsVal>,
                          fetchOrder: JsVal -> string -> nat -> Completion<Adapters.CcxtOrder>,
                          cancel: (JsVal, string) -> Completion<()>)
    : (res: (Placement<JsVal, Adapters.Order>, ProxySync.Facade))
    requires ProxySync.Valid(f) && Controller.ClockAdvances(clock)
    ensures res.1 == ProxySync.SyncProxy(f)
    ensures var id := BitgetOrderId(a, symbol, f.client.sandbox, amount, create);
      && (id.Abrupt? ==> res.0 == Placement(Facade.Caught(VE.Bitget, parse, id.thrown), 0, None))
      && (id.Normal? ==>
            var r := AwaitFill(id.value, clock, Timeout(timeInForce), fetchOrder(id.value)(symbol), NothingRemaining,
                               o => Normal(Adapters.OrderAdapter(o)), i => cancel(i, symbol));
            res.0 == r.(outcome := Facade.Guarded(VE.Bitget, parse, f, r.outcome).0))
  {
    var r := match BitgetOrderId(a, symbol, f.client.sandbox, amount, create)
      case Abrupt(e) => Placement(Abrupt(e), 0, None)
      case Normal(i) =>
        AwaitFill(i, clock, Timeout(timeInForce), fetchOrder(i)(symbol), NothingRemaining,
                  o => Normal(Adapters.OrderAdapter(o)), i => cancel(i, symbol));
    var (out, f') := Facade.Guarded(VE.Bitget, parse, f, r.outcome);
    (r.(outcome := out), f')
  }

  /** On Bitget a returned order is the adaptation of the last poll's answer about the placed
      order, which had nothing remaining; and the symbol had a `/` to split. */
  lemma BitgetAnswersFilledOrder(parse: VE.JsonParser, f: ProxySync.Facade, a: Action, symbol: string, amount: Num,
                                 timeInForce: Option<int>, clock: nat -> int,
                                 create: PlaceOrderParams -> Completion<JsVal>,
                                 fetchOrder: JsVal -> string -> nat -> Completion<Adapters.CcxtOrder>,
                                 cancel: (JsVal, string) -> Completion<()>)
    requires ProxySync.Valid(f) && Controller.ClockAdvances(clock)
    ensures var r := BitgetPosition(parse, f, a, symbol, amount, timeInForce, clock, create, fetchOrder, cancel).0;
      var id := BitgetOrderId(a, symbol, f.client.sandbox, amount, create);
      r.outcome.Normal? && r.outcome.value.Ok? ==>
        && '/' in symbol && id.Normal? && r.polls >= 1 && r.cancelled.None?
        && var last := fetchOrder(id.value)(symbol)(r.polls - 1);
        last.Normal? && NothingRemaining(last.value) && Adapters.OrderAdapter(last.value) == r.outcome.value
  {
  }
}

=== FILE: proxy.dfy ===
/** `ProxyRotator`: a pool of HTTP proxies and the index of the one to use next. Every
    successful request moves the index one step round the pool. */
module Proxy {
  import opened Wrappers
  import opened Js

  datatype ProxyAuth = ProxyAuth(username: string, password: string)

  datatype Protocol = Http | Https | Socks4 | Socks5

  datatype ProxyOptions = ProxyOptions(host: string, port: int, auth: Option<ProxyAuth>, protocol: Option<Protocol>)

  /** The rotator's state. The index is a Number: `(i + 1) % 0` makes it NaN on an empty pool. */
  datatype Rotator = Rotator(proxies: seq<ProxyOptions>, index: IntOrNaN)

  /** A non-empty pool always has its index inside the pool. */
  ghost predicate Valid(r: Rotator) {
    |r.proxies| > 0 ==> r.index.Int? && 0 <= r.index.i < |r.proxies|
  }

  /** The constructor; the pool starts at its first entry. */
  function NewRotator(proxies: Option<seq<ProxyOptions>>): (r: Rotator)
    ensures Valid(r)
    ensures r.proxies == proxies.GetOr([]) && r.index == Int(0)
  {
    Rotator(proxies.GetOr([]), Int(0))
  }

  /** `rotateProxy`: `index = (index + 1) % proxies.length` */
  function Rotate(r: Rotator): (r': Rotator)
    requires Valid(r)
    ensures Valid(r')
    ensures r'.proxies == r.proxies
    ensures |r.proxies| > 0 ==>
      r'.index == Int(if r.index.i + 1 == |r.proxies| then 0 else r.index.i + 1)
    ensures |r.proxies| == 0 ==> r'.index.NaN?
  {
    Rotator(r.proxies, JsRem(AddInt(r.index, 1), |r.proxies|))
  }

  /** `setProxies`: replaces the pool and starts again at its first entry. */
  function SetProxies(r: Rotator, proxies: seq<ProxyOptions>): (r': Rotator)
    ensures Valid(r')
    ensures r'.proxies == proxies && r'.index == Int(0)
  {
    Rotator(proxies, Int(0))
  }

  /** `getCurrentProxy`: undefined for an empty pool, else the entry at the index. */
  function CurrentProxy(r: Rotator): (p: Option<ProxyOptions>)
    requires Valid(r)
    ensures p.None? <==> |r.proxies| == 0
    ensures p.Some? ==> p.value == r.proxies[r.index.i]
  {
    if |r.proxies| == 0 then None
    else Some(r.proxies[r.index.i])
  }

  // ---------------------------------------------------------------------------
  // Requests

  /** A value in an axios request config: the `proxy` entry, or any other (JSON) value. */
  datatype ConfigValue = ProxyEntry(proxy: Option<ProxyOptions>) | Value(v: JsVal)

  type Config = map<string, ConfigValue>

  datatype Method = Get | Post | Put | Delete

  function MethodName(m: Method): string {
    match m
    case Get => "get"
    case Post => "post"
    case Put => "put"
    case Delete => "delete"
  }

  /** `{ proxy: current, ...config, method, url }`: later entries win. */
  function FinalConfig(current: Option<ProxyOptions>, verb: Method, url: string, config: Config): (c: Config)
    ensures c.Keys == config.Keys + {"proxy", "method", "url"}
    ensures "proxy" in c && "method" in c && "url" in c
    ensures c["method"] == Value(Str(MethodName(verb))) && c["url"] == Value(Str(url))
    ensures c["proxy"] == if "proxy" in config then config["proxy"] else ProxyEntry(current)
    ensures forall k :: k in config && k != "method" && k != "url" ==> c[k] == config[k]
  {
    map["proxy" := ProxyEntry(current)] + config
      + map["method" := Value(Str(MethodName(verb))), "url" := Value(Str(url))]
  }

  /** The outcome of a request, and the rotator after it. */
  datatype Sent<R> = Sent(outcome: Completion<R>, rotator: Rotator, config: Config)

  /** `request`: sends through the current proxy with `send` (the axios instance), then rotates
      only if the call succeeded; a failure is rethrown with the index unchanged. */
  function Request<R>(r: Rotator, verb: Method, url: string, config: Config, send: Config -> Completion<R>): (s: Sent<R>)
    requires Valid(r)
    ensures Valid(s.rotator)
    ensures s.config == FinalConfig(CurrentProxy(r), verb, url, config)
    ensures s.outcome == send(s.config)
    ensures s.outcome.Normal? ==> s.rotator == Rotate(r)
    ensures s.outcome.Abrupt? ==> s.rotator == r
  {
    var cfg := FinalConfig(CurrentProxy(r), verb, url, config);
    var outcome := send(cfg);
    Sent(outcome, if outcome.Normal? then Rotate(r) else r, cfg)
  }

  function RequestGet<R>(r: Rotator, url: string, config: Config, send: Config -> Completion<R>): (s: Sent<R>)
    requires Valid(r)
    ensures "method" in s.config && "url" in s.config
    ensures s.config["method"] == Value(Str("get")) && s.config["url"] == Value(Str(url))
    ensures s.outcome == send(s.config)
    ensures s.rotator == if s.outcome.Normal? then Rotate(r) else r
  {
    Request(r, Get, url, config, send)
  }

  /** `post`: the body goes into the config as `data`, over any `data` the config had. */
  function RequestPost<R>(r: Rotator, url: string, data: JsVal, config: Config, send: Config -> Completion<R>): (s: Sent<R>)
    requires Valid(r)
    ensures "method" in s.config && "url" in s.config
    ensures s.config["method"] == Value(Str("post")) && s.config["url"] == Value(Str(url))
    ensures "data" in s.config && s.config["data"] == Value(data)
    ensures s.outcome == send(s.config)
    ensures s.rotator == if s.outcome.Normal? then Rotate(r) else r
  {
    Request(r, Post, url, config["data" := Value(data)], send)
  }

  /** `put`: like `post`. */
  function RequestPut<R>(r: Rotator, url: string, data: JsVal, config: Config, send: Config -> Completion<R>): (s: Sent<R>)
    requires Valid(r)
    ensures "method" in s.config && "url" in s.config
    ensures s.config["method"] == Value(Str("put")) && s.config["url"] == Value(Str(url))
    ensures "data" in s.config && s.config["data"] == Value(data)
    ensures s.outcome == send(s.config)
    ensures s.rotator == if s.outcome.Normal? then Rotate(r) else r
  {
    Request(r, Put, url, config["data" := Value(data)], send)
  }

  function RequestDelete<R>(r: Rotator, url: string, config: Config, send: Config -> Completion<R>): (s: Sent<R>)
    requires Valid(r)
    ensures "method" in s.config && "url" in s.config
    ensures s.config["method"] == Value(Str("delete")) && s.config["url"] == Value(Str(url))
    ensures s.outcome == send(s.config)
    ensures s.rotator == if s.outcome.Normal? then Rotate(r) else r
  {
    Request(r, Delete, url, config, send)
  }

  // ---------------------------------------------------------------------------
  // Round robin

  function RotateN(r: Rotator, n: nat): (r': Rotator)
    requires Valid(r)
    ensures Valid(r') && r'.proxies == r.proxies
  {
    if n == 0 then r else Rotate(RotateN(r, n - 1))
  }

  /** After `k` rotations of a non-empty pool, `k` at most its size, the index has moved `k`
      places round it. */
  lemma {:induction false} RotateNIndex(r: Rotator, k: nat)
    requires Valid(r) && 0 < |r.proxies| && k <= |r.proxies|
    ensures var i := r.index.i + k;
      RotateN(r, k).index == Int(if i < |r.proxies| then i else i - |r.proxies|)
  {
    if k > 0 {
      RotateNIndex(r, k - 1);
    }
  }

  /** Rotating once per proxy brings the pool back to where it started. */
  lemma FullCycle(r: Rotator)
    requires Valid(r) && |r.proxies| > 0
    ensures RotateN(r, |r.proxies|) == r
  {
    RotateNIndex(r, |r.proxies|);
  }

  /** Within one cycle, every proxy of the pool becomes the current one. */
  lemma EveryProxyServes(r: Rotator, j: nat)
    requires Valid(r) && j < |r.proxies|
    ensures var k := if j >= r.index.i then j - r.index.i else j - r.index.i + |r.proxies|;
      0 <= k < |r.proxies| && CurrentProxy(RotateN(r, k)) == Some(r.proxies[j])
  {
    var k := if j >= r.index.i then j - r.index.i else j - r.index.i + |r.proxies|;
    RotateNIndex(r, k);
  }
}

=== FILE: stream_common.dfy ===
/** What the three ccxt-venue stream clients share: reading fields of a pushed message, the
    reverse symbol lookup, and the shape of their `handleErros` parsers. */
module StreamCommon {
  import opened Wrappers
  import opened Js
  import TE = TradeErrors
  import Symbols
  import VE = VenueErrors
  import Adapters

  /** A pushed object's fields, as the client library hands them over. */
  type Fields = map<string, JsVal>

  /** `d.k`: undefined when absent. */
  function Field(d: Fields, k: string): (v: JsVal)
    ensures k in d ==> v == d[k]
    ensures k !in d ==> v == Undefined
  {
    if k in d then d[k] else Undefined
  }

  /** `symbolsMap.get(v) || v`: the map's keys are strings, so any other value comes back as is. */
  function StreamSymbol(m: map<string, string>, v: JsVal): (r: JsVal)
    ensures !v.Str? ==> r == v
    ensures v.Str? ==> r == Str(Symbols.Lookup(m, v.s))
  {
    if v.Str? then Str(Symbols.Lookup(m, v.s)) else v
  }

  /** The stream ticker: the symbol as the message carried it (after the reverse lookup), prices
      as `P`. */
  type StreamTicker<P> = Adapters.Ticker<JsVal, P>

  const UnparsedMessage: string := "It was not possible to parse the error message"

  /** The fallback of every stream error parser. */
  function Unhandled(): (e: TE.TradeError)
    ensures e.WebSocketError? && e.wsCode == TE.UnhandledError && e.connId == Str("N/A")
  {
    TE.WebSocketError(Str(UnparsedMessage), TE.UnhandledError, Str("N/A"))
  }

  /** `try { parsed = JSON.parse(err); return {msg, HANDLED_ERROR, connId} } catch { fallback }`:
      `JSON.parse` reads `String(err)`; `read` takes the message and the connection id out of the
      parsed value and may throw. */
  function WsError(parse: VE.JsonParser, err: JsVal, read: JsVal -> Completion<(JsVal, JsVal)>): (e: TE.TradeError)
    ensures e.WebSocketError?
    ensures var p := parse(ToString(err));
      && (p.None? ==> e == Unhandled())
      && (p.Some? && read(p.value).Abrupt? ==> e == Unhandled())
      && (p.Some? && read(p.value).Normal? ==>
            e == TE.WebSocketError(read(p.value).value.0, TE.HandledError, read(p.value).value.1))
    ensures e.wsCode == TE.HandledError <==> parse(ToString(err)).Some? && read(parse(ToString(err)).value).Normal?
  {
    match parse(ToString(err))
    case None => Unhandled()
    case Some(p) =>
      match read(p)
      case Abrupt(_) => Unhandled()
      case Normal(r) => TE.WebSocketError(r.0, TE.HandledError, r.1)
  }

  /** `parsed.a` and `parsed.b`: throws only when `parsed` is null (or undefined). */
  function ReadTwo(p: JsVal, a: string, b: string): (r: Completion<(JsVal, JsVal)>)
    ensures r.Abrupt? <==> IsNullish(p)
    ensures r.Normal? ==> r.value == (OptProp(p, a), OptProp(p, b))
  {
    match Prop(p, a)
    case Abrupt(t) => Abrupt(t)
    case Normal(x) => Normal((x, OptProp(p, b)))
  }
}

=== FILE: strs.dfy ===
/** The string operations the library applies to symbols and error messages:
    `split` on one character, `join`, `indexOf` and `replace` with a string pattern. */
module Strs {
  import opened Wrappers

  /** The parts joined into one string, with the separator between neighbours. */
  function Join(parts: seq<string>, sep: string): (r: string)
    ensures |parts| == 1 ==> r == parts[0]
  {
    if |parts| == 0 then ""
    else if |parts| == 1 then parts[0]
    else parts[0] + sep + Join(parts[1..], sep)
  }

  /** `s.split(c)` for a one-character separator: always at least one piece. */
  function Split(s: string, c: char): (r: seq<string>)
    ensures |r| > 0
    ensures forall i :: 0 <= i < |r| ==> c !in r[i]
    ensures c !in s ==> r == [s]
    ensures c in s ==> |r| >= 2
  {
    if |s| == 0 then [""]
    else
      var rest := Split(s[1..], c);
      if s[0] == c then [""] + rest
      else
        assert c !in s ==> c !in s[1..] && s == [s[0]] + s[1..];
        [[s[0]] + rest[0]] + rest[1..]
  }

  /** `s.split(c)[k]`, which is `undefined` past the last piece. */
  function Piece(s: string, c: char, k: nat): (r: Option<string>)
    ensures r.Some? <==> k < |Split(s, c)|
  {
    var parts := Split(s, c);
    if k < |parts| then Some(parts[k]) else None
  }

  lemma {:induction false} JoinSplit(s: string, c: char)
    ensures Join(Split(s, c), [c]) == s
  {
    if |s| > 0 {
      var rest := Split(s[1..], c);
      JoinSplit(s[1..], c);
      if s[0] == c {
        assert Split(s, c) == [""] + rest;
        assert Join([""] + rest, [c]) == "" + [c] + Join(rest, [c]);
      } else {
        var parts := Split(s, c);
        assert parts == [[s[0]] + rest[0]] + rest[1..];
        if |rest| == 1 {
          assert parts == [[s[0]] + rest[0]];
        } else {
          assert parts[1..] == rest[1..];
          assert Join(rest, [c]) == rest[0] + [c] + Join(rest[1..], [c]);
        }
      }
    }
  }

  lemma {:induction false} SplitJoin(parts: seq<string>, c: char)
    requires |parts| > 0
    requires forall i :: 0 <= i < |parts| ==> c !in parts[i]
    ensures Split(Join(parts, [c]), c) == parts
    decreases |parts|, |parts[0]|
  {
    if |parts| == 1 {
    } else if |parts[0]| == 0 {
      var tail := Join(parts[1..], [c]);
      assert Join(parts, [c]) == [c] + tail;
      assert ([c] + tail)[1..] == tail;
      SplitJoin(parts[1..], c);
      assert parts == [""] + parts[1..];
    } else {
      var p0 := parts[0];
      var shorter := [p0[1..]] + parts[1..];
      assert shorter[1..] == parts[1..];
      var s := Join(parts, [c]);
      assert s == [p0[0]] + Join(shorter, [c]);
      assert s[1..] == Join(shorter, [c]);
      SplitJoin(shorter, c);
      assert p0 == [p0[0]] + p0[1..];
      assert parts == [[p0[0]] + shorter[0]] + shorter[1..];
    }
  }

  /** Appending one more part adds one separator and that part. */
  lemma {:induction false} JoinSnoc(parts: seq<string>, x: string, sep: string)
    requires |parts| > 0
    ensures Join(parts + [x], sep) == Join(parts, sep) + sep + x
  {
    var ps := parts + [x];
    assert ps[1..] == parts[1..] + [x];
    if |parts| > 1 {
      JoinSnoc(parts[1..], x, sep);
    }
  }

  predicate OccursAt(s: string, pat: string, i: nat) {
    i + |pat| <= |s| && s[i..i + |pat|] == pat
  }

  function IndexOfFrom(s: string, pat: string, from: nat): (r: Option<nat>)
    ensures r.Some? ==> from <= r.value && OccursAt(s, pat, r.value)
    ensures r.Some? ==> forall j :: from <= j < r.value ==> !OccursAt(s, pat, j)
    ensures r.None? ==> forall j :: from <= j ==> !OccursAt(s, pat, j)
    decreases |s| - from
  {
    if from + |pat| > |s| then None
    else if s[from..from + |pat|] == pat then Some(from)
    else IndexOfFrom(s, pat, from + 1)
  }

  /** `s.indexOf(pat)`, None standing for -1: the first position where `pat` occurs. */
  function IndexOf(s: string, pat: string): (r: Option<nat>)
    ensures r.Some? ==> OccursAt(s, pat, r.value) && forall j :: 0 <= j < r.value ==> !OccursAt(s, pat, j)
    ensures r.None? ==> forall j :: 0 <= j ==> !OccursAt(s, pat, j)
  {
    IndexOfFrom(s, pat, 0)
  }

  /** `s.replace(pat, rep)` with a string pattern: only the first occurrence is replaced.
      The replacements used by the library contain no `$`, so replacement patterns are not modelled. */
  function ReplaceFirst(s: string, pat: string, rep: string): (r: string)
    ensures IndexOf(s, pat).None? ==> r == s
    ensures IndexOf(s, pat).Some? ==>
      var i := IndexOf(s, pat).value; r == s[..i] + rep + s[i + |pat|..]
  {
    match IndexOf(s, pat)
    case None => s
    case Some(i) => s[..i] + rep + s[i + |pat|..]
  }

  /** A string that begins with `pat` loses exactly that prefix under `replace(pat, "")`. */
  lemma ReplacePrefix(pat: string, rest: string)
    ensures ReplaceFirst(pat + rest, pat, "") == rest
  {
    var s := pat + rest;
    assert OccursAt(s, pat, 0);
    assert s[|pat|..] == rest;
  }

  /** Replacing the first `a` by a character `b` that `s` lacks can be undone by replacing `b` back. */
  lemma {:induction false} ReplaceCharRoundTrip(s: string, a: char, b: char)
    requires b !in s
    ensures ReplaceFirst(ReplaceFirst(s, [a], [b]), [b], [a]) == s
  {
    match IndexOf(s, [a])
    case None =>
      assert forall j :: 0 <= j < |s| ==> !OccursAt(s, [b], j) by {
        forall j | 0 <= j < |s| ensures !OccursAt(s, [b], j) {
          assert s[j..j + 1] == [s[j]];
        }
      }
    case Some(i) =>
      var t := s[..i] + [b] + s[i + 1..];
      assert OccursAt(t, [b], i);
      forall j | 0 <= j < i ensures !OccursAt(t, [b], j) {
        assert t[j..j + 1] == [s[j]];
      }
      assert t[..i] == s[..i];
      assert t[i + 1..] == s[i + 1..];
      assert s[i..i + 1] == [a];
      assert s == s[..i] + [a] + s[i + 1..];
  }

  /** The first occurrence of a character `c` in `pre + [c] + rest` is the one after `pre`,
      when `pre` has none. */
  lemma ReplaceAfter(pre: string, c: char, rest: string, rep: string)
    requires c !in pre
    ensures ReplaceFirst(pre + [c] + rest, [c], rep) == pre + rep + rest
  {
    var s := pre + [c] + rest;
    assert OccursAt(s, [c], |pre|);
    forall j | 0 <= j < |pre| ensures !OccursAt(s, [c], j) {
      assert s[j..j + 1] == [pre[j]];
    }
    assert s[..|pre|] == pre && s[|pre| + 1..] == rest;
  }

  /** `Split` of a string made of two separated parts that lack the separator gives the two. */
  lemma SplitTwo(a: string, b: string, c: char)
    requires c !in a && c !in b
    ensures Split(a + [c] + b, c) == [a, b]
  {
    SplitJoin([a, b], c);
    assert Join([a, b], [c]) == a + [c] + Join([b], [c]);
  }

  /** A character missing from `s` is missing from every piece of its split. */
  lemma {:induction false} SplitKeepsOut(s: string, c: char, d: char)
    requires d !in s
    ensures forall i :: 0 <= i < |Split(s, c)| ==> d !in Split(s, c)[i]
  {
    if |s| > 0 {
      SplitKeepsOut(s[1..], c, d);
    }
  }

  /** `replace` of a character the string lacks changes nothing. */
  lemma ReplaceAbsent(s: string, c: char, rep: string)
    requires c !in s
    ensures ReplaceFirst(s, [c], rep) == s
  {
    forall j | 0 <= j < |s| ensures !OccursAt(s, [c], j) {
      assert s[j..j + 1] == [s[j]];
    }
  }
}

=== FILE: symbols.dfy ===
/** How the library respells a unified symbol `BASE/QUOTE[:SETTLE]` for each venue's wire
    protocol, and back:
    - Bitget: `normalizeSymbol`, base and quote run together, optionally each prefixed `S`;
    - Bybit and Binance streams: the first `/` removed, then cut at the first `:`;
    - OKX: the first `/` replaced by `-`, and an instrument id read back by splitting at `-`. */
module Symbols {
  import opened Wrappers
  import opened Js
  import opened Strs

  /** The message V8 gives for `undefined.split(…)`. */
  const SplitOfUndefined: string := "Cannot read properties of undefined (reading 'split')"

  /** `normalizeSymbol(symbol, sandbox)`. A symbol without `/` has no second piece, and calling
      `split` on it throws. */
  function NormalizeSymbol(symbol: string, sandbox: bool): (r: Completion<string>)
    ensures r.Abrupt? <==> '/' !in symbol
    ensures r.Abrupt? ==> r.thrown == TypeError(SplitOfUndefined)
    ensures r.Normal? ==>
      var parts := Split(symbol, '/');
      |r.value| == |parts[0]| + |Split(parts[1], ':')[0]| + (if sandbox then 2 else 0)
      && '/' !in r.value
  {
    var parts := Split(symbol, '/');
    if |parts| < 2 then Abrupt(TypeError(SplitOfUndefined))
    else
      var prefix := if sandbox then "S" else "";
      var quote := Split(parts[1], ':')[0];
      SplitKeepsOut(parts[1], ':', '/');
      assert '/' !in quote;
      Normal(prefix + parts[0] + prefix + quote)
  }

  /** A well-formed symbol loses its settlement currency and its `/`; in sandbox mode both parts
      get an `S`. */
  lemma NormalizeSymbolOfParts(base: string, quote: string, settle: Option<string>, sandbox: bool)
    requires '/' !in base && '/' !in quote && ':' !in quote
    requires settle.Some? ==> '/' !in settle.value && ':' !in settle.value
    ensures var symbol := base + "/" + quote + (if settle.Some? then ":" + settle.value else "");
      var s := if sandbox then "S" else "";
      NormalizeSymbol(symbol, sandbox) == Normal(s + base + s + quote)
  {
    var tail := quote + (if settle.Some? then ":" + settle.value else "");
    var symbol := base + "/" + quote + (if settle.Some? then ":" + settle.value else "");
    assert '/' !in tail;
    assert symbol == base + ['/'] + tail;
    SplitTwo(base, tail, '/');
    assert Split(symbol, '/') == [base, tail];
    if settle.Some? {
      assert tail == quote + [':'] + settle.value;
      SplitTwo(quote, settle.value, ':');
    }
    assert Split(tail, ':')[0] == quote;
  }

  /** The sandbox example: both parts get an `S`. */
  lemma NormalizeSandboxExample()
    ensures NormalizeSymbol("BTC/USD:USD", true) == Normal("SBTCSUSD")
  {
    NormalizeSymbolOfParts("BTC", "USD", Some("USD"), true);
    assert "BTC" + "/" + "USD" + (":" + "USD") == "BTC/USD:USD";
    assert "S" + "BTC" + "S" + "USD" == "SBTCSUSD";
  }

  /** The settlement currency is dropped even when it differs from the quote. */
  lemma NormalizeSettleExample()
    ensures NormalizeSymbol("BNB/USDT:USD", false) == Normal("BNBUSDT")
  {
    NormalizeSymbolOfParts("BNB", "USDT", Some("USD"), false);
    assert "BNB" + "/" + "USDT" + (":" + "USD") == "BNB/USDT:USD";
    assert "" + "BNB" + "" + "USDT" == "BNBUSDT";
  }

  /** The Bybit and Binance stream symbol: `s.replace('/', '').split(':')[0]`. */
  function WireSymbol(s: string): (r: string)
    ensures ':' !in r
    ensures '/' !in s && ':' !in s ==> r == s
  {
    assert '/' !in s ==> ReplaceFirst(s, "/", "") == s by {
      if '/' !in s {
        ReplaceAbsent(s, '/', "");
      }
    }
    Split(ReplaceFirst(s, "/", ""), ':')[0]
  }

  lemma WireSymbolOfParts(base: string, quote: string, settle: Option<string>)
    requires '/' !in base && ':' !in base && ':' !in quote
    requires settle.Some? ==> ':' !in settle.value
    ensures WireSymbol(base + "/" + quote + (if settle.Some? then ":" + settle.value else "")) == base + quote
  {
    var tail := quote + (if settle.Some? then ":" + settle.value else "");
    assert base + "/" + quote + (if settle.Some? then ":" + settle.value else "") == base + ['/'] + tail;
    ReplaceAfter(base, '/', tail, "");
    assert base + "" + tail == base + tail;
    if settle.Some? {
      assert base + tail == (base + quote) + [':'] + settle.value;
      SplitTwo(base + quote, settle.value, ':');
    }
  }

  /** The OKX instrument id: `symbol.replace('/', '-')`. */
  function InstId(symbol: string): (r: string)
    ensures |r| == |symbol|
    ensures '/' !in symbol ==> r == symbol
  {
    ReplaceFirst(symbol, "/", "-")
  }

  /** `${id.split('-')[0]}/${id.split('-')[1]}`; a missing second piece prints as `undefined`. */
  function OkxSymbol(instId: string): (r: string)
    ensures '-' !in instId ==> r == instId + "/undefined"
  {
    var parts := Split(instId, '-');
    parts[0] + "/" + (if |parts| > 1 then parts[1] else "undefined")
  }

  /** A `BASE/QUOTE` symbol survives the trip to an OKX instrument id and back. */
  lemma OkxSymbolRoundTrip(base: string, quote: string)
    requires '/' !in base && '-' !in base && '/' !in quote && '-' !in quote
    ensures OkxSymbol(InstId(base + "/" + quote)) == base + "/" + quote
  {
    assert base + "/" + quote == base + ['/'] + quote;
    ReplaceAfter(base, '/', quote, "-");
    SplitTwo(base, quote, '-');
  }

  /** And an instrument id `BASE-QUOTE` survives the trip to a symbol and back. */
  lemma InstIdRoundTrip(base: string, quote: string)
    requires '/' !in base && '-' !in base && '/' !in quote && '-' !in quote
    ensures InstId(OkxSymbol(base + "-" + quote)) == base + "-" + quote
  {
    assert base + "-" + quote == base + ['-'] + quote;
    SplitTwo(base, quote, '-');
    ReplaceAfter(base, '/', quote, "-");
  }

  // ---------------------------------------------------------------------------
  // The stream clients' map from wire symbol back to the caller's symbol

  /** No later pair has the same key as pair `i`. */
  predicate NotOverwritten(pairs: seq<(string, string)>, i: nat)
    requires i < |pairs|
  {
    forall j :: i < j < |pairs| ==> pairs[j].0 != pairs[i].0
  }

  /** `pairs.forEach(([k, v]) => map.set(k, v))`: later pairs overwrite earlier ones. */
  function SymbolsMap(pairs: seq<(string, string)>): (m: map<string, string>)
    ensures m.Keys == set i | 0 <= i < |pairs| :: pairs[i].0
    ensures forall k :: k in m ==> (k, m[k]) in pairs
    ensures forall i :: 0 <= i < |pairs| && NotOverwritten(pairs, i) ==> m[pairs[i].0] == pairs[i].1
  {
    if |pairs| == 0 then map[]
    else
      var m := SymbolsMap(pairs[..|pairs| - 1]);
      SetLast(pairs, m);
      m[pairs[|pairs| - 1].0 := pairs[|pairs| - 1].1]
  }

  /** The step of `SymbolsMap`: setting the last pair on a map that describes the others. */
  lemma SetLast(pairs: seq<(string, string)>, m: map<string, string>)
    requires |pairs| > 0
    requires var init := pairs[..|pairs| - 1];
      && m.Keys == (set i | 0 <= i < |init| :: init[i].0)
      && (forall k :: k in m ==> (k, m[k]) in init)
      && (forall i :: 0 <= i < |init| && NotOverwritten(init, i) ==> m[init[i].0] == init[i].1)
    ensures var m' := m[pairs[|pairs| - 1].0 := pairs[|pairs| - 1].1];
      && m'.Keys == (set i | 0 <= i < |pairs| :: pairs[i].0)
      && (forall k :: k in m' ==> (k, m'[k]) in pairs)
      && (forall i :: 0 <= i < |pairs| && NotOverwritten(pairs, i) ==> m'[pairs[i].0] == pairs[i].1)
  {
    var last := pairs[|pairs| - 1];
    var init := pairs[..|pairs| - 1];
    var m' := m[last.0 := last.1];
    assert pairs == init + [last];
    assert forall i :: 0 <= i < |init| ==> init[i] == pairs[i];
    assert (set i | 0 <= i < |pairs| :: pairs[i].0) == (set i | 0 <= i < |init| :: init[i].0) + {last.0};
    forall i | 0 <= i < |pairs| && NotOverwritten(pairs, i)
      ensures m'[pairs[i].0] == pairs[i].1
    {
      if i < |init| {
        assert NotOverwritten(init, i);
        assert pairs[i].0 != last.0;
      }
    }
  }


  /** `map.get(s) || s`: the mapped symbol, unless it is missing or empty. */
  function Lookup(m: map<string, string>, s: string): (r: string)
    ensures s !in m ==> r == s
    ensures r == s || (s in m && r == m[s])
  {
    if s in m && m[s] != "" then m[s] else s
  }

  /** The pairs a stream client registers: each symbol's wire form, mapped to the symbol. */
  function WirePairs(symbols: seq<string>, wire: string -> string): (ps: seq<(string, string)>)
    ensures |ps| == |symbols|
    ensures forall i :: 0 <= i < |symbols| ==> ps[i] == (wire(symbols[i]), symbols[i])
  {
    seq(|symbols|, i requires 0 <= i < |symbols| => (wire(symbols[i]), symbols[i]))
  }

  /** When no two subscribed symbols share a wire form, every (non-empty) subscribed symbol is
      what an update for its wire form reports. */
  lemma LookupRecoversSymbol(symbols: seq<string>, wire: string -> string, i: nat)
    requires i < |symbols| && symbols[i] != ""
    requires forall j :: 0 <= j < |symbols| && j != i ==> wire(symbols[j]) != wire(symbols[i])
    ensures Lookup(SymbolsMap(WirePairs(symbols, wire)), wire(symbols[i])) == symbols[i]
  {
    var ps := WirePairs(symbols, wire);
    assert forall j :: i < j < |ps| ==> ps[j].0 != ps[i].0;
  }
}

=== FILE: sync.dfy ===
/** `syncCCXTProxy` and the facades' `syncProxy`: how the ccxt exchange object is pointed at the
    proxy the rotator has just moved to. */
module ProxySync {
  import opened Wrappers
  import opened Js
  import Proxy
  import BaseClass
  import Base64
  import Utf8

  /** The fields of a ccxt exchange object the proxy logic touches; `others` stands for all
      the rest, which it never changes. */
  datatype Exchange = Exchange(
    httpProxy: Option<string>,
    headers: map<string, string>,
    proxy: JsVal,
    others: map<string, JsVal>)

  const AuthHeader: string := "Proxy-Authorization"

  /** `http://<host>:<port>`; the protocol of the options plays no part. */
  function ProxyUrl(p: Proxy.ProxyOptions): (u: string)
    ensures |u| > 8 + |p.host| && u[..7] == "http://" && u[7..7 + |p.host|] == p.host && u[7 + |p.host|] == ':'
    ensures ParseInt(u[8 + |p.host|..], 10) == Int(p.port)
  {
    var pre := "http://" + p.host + ":";
    var d := IntToDecimal(p.port);
    assert |pre| == 8 + |p.host|;
    assert pre[..7] == "http://" && pre[7..7 + |p.host|] == p.host && pre[7 + |p.host|] == ':';
    var u := pre + d;
    assert u[..|pre|] == pre && u[|pre|..] == d;
    assert u[..7] == pre[..7] && u[7..7 + |p.host|] == pre[7..7 + |p.host|];
    ParseIntOfDecimal(p.port, 10);
    u
  }

  /** The payload of the `Basic` scheme: `username:password`, UTF-8 then base 64. */
  function Credentials(a: Proxy.ProxyAuth): string {
    Base64.EncodeText(a.username + ":" + a.password)
  }

  /** The header value: the `Basic` scheme name, a space, then the credentials. */
  function BasicHeader(a: Proxy.ProxyAuth): (h: string)
    ensures |h| >= 6 && h[..6] == "Basic " && h[6..] == Credentials(a)
  {
    var h := "Basic " + Credentials(a);
    assert h[..6] == "Basic ";
    h
  }

  function SyncCcxtProxy(ex: Exchange, p: Proxy.ProxyOptions): (r: Exchange)
    ensures r.httpProxy == Some(ProxyUrl(p))
    ensures p.auth.None? ==> r.headers == ex.headers
    ensures p.auth.Some? ==> r.headers.Keys == ex.headers.Keys + {AuthHeader}
    ensures p.auth.Some? ==> AuthHeader in r.headers && r.headers[AuthHeader] == BasicHeader(p.auth.value)
    ensures forall k :: k in ex.headers && k != AuthHeader ==> k in r.headers && r.headers[k] == ex.headers[k]
    ensures r.proxy == ex.proxy && r.others == ex.others
  {
    var ex' := ex.(httpProxy := Some(ProxyUrl(p)));
    if p.auth.None? then ex'
    else ex'.(headers := ex.headers[AuthHeader := BasicHeader(p.auth.value)])
  }

  /** Decoding the header after `Basic ` gives back the UTF-8 text `username:password`. */
  lemma HeaderRoundTrip(ex: Exchange, p: Proxy.ProxyOptions)
    requires p.auth.Some?
    ensures var h := SyncCcxtProxy(ex, p).headers[AuthHeader];
      var d := Base64.Decode(h[6..]);
      d.Some? && Utf8.Decode(d.value) == Some(p.auth.value.username + ":" + p.auth.value.password)
  {
    assert SyncCcxtProxy(ex, p).headers[AuthHeader] == BasicHeader(p.auth.value);
    Base64.DecodeEncodeText(p.auth.value.username + ":" + p.auth.value.password);
  }

  /** Two proxies with different credentials give different headers. */
  lemma HeaderDeterminesCredentials(ex: Exchange, p: Proxy.ProxyOptions, q: Proxy.ProxyOptions)
    requires p.auth.Some? && q.auth.Some?
    requires SyncCcxtProxy(ex, p).headers[AuthHeader] == SyncCcxtProxy(ex, q).headers[AuthHeader]
    ensures p.auth.value.username + ":" + p.auth.value.password
         == q.auth.value.username + ":" + q.auth.value.password
  {
    HeaderRoundTrip(ex, p);
    HeaderRoundTrip(ex, q);
  }

  /** A facade: the client state of `BaseClass` and its ccxt exchange object. */
  datatype Facade = Facade(client: BaseClass.Client, exchange: Exchange)

  ghost predicate Valid(f: Facade) {
    BaseClass.Valid(f.client)
  }

  /** `syncProxy` of Bybit and Bitget: `rotateProxy()` and then, on Ok, `syncCCXTProxy`; on Err
      only `exchange.proxy` is cleared and an earlier `httpProxy` or header stays in place. */
  function SyncProxy(f: Facade): (f': Facade)
    requires Valid(f)
    ensures Valid(f')
    ensures f'.client == BaseClass.RotateProxy(f.client).1
    ensures |f.client.http.proxies| > 0 ==>
      f'.exchange == SyncCcxtProxy(f.exchange, Proxy.CurrentProxy(f'.client.http).value)
    ensures |f.client.http.proxies| == 0 ==>
      f'.exchange == f.exchange.(proxy := Undefined)
  {
    var (res, c) := BaseClass.RotateProxy(f.client);
    match res
    case Ok(p) => Facade(c, SyncCcxtProxy(f.exchange, p))
    case Err(_) => Facade(c, f.exchange.(proxy := Undefined))
  }

  /** `syncProxy` of Binance: `rotateProxy()`, result ignored, then `getCurrentProxy()`. */
  function SyncProxyThenRead(f: Facade): (f': Facade)
    requires Valid(f)
    ensures Valid(f')
  {
    var c := BaseClass.RotateProxy(f.client).1;
    match BaseClass.GetCurrentProxy(c)
    case Ok(p) => Facade(c, SyncCcxtProxy(f.exchange, p))
    case Err(_) => Facade(c, f.exchange.(proxy := Undefined))
  }

  /** The two ways of writing `syncProxy` have the same effect. */
  lemma SyncProxyVariantsAgree(f: Facade)
    requires Valid(f)
    ensures SyncProxyThenRead(f) == SyncProxy(f)
  {
    BaseClass.RotateProxyAgrees(f.client);
  }

  /** Over a non-empty pool, the exchange ends up pointed at the proxy after the current one. */
  lemma SyncProxyUsesNextProxy(f: Facade)
    requires Valid(f) && |f.client.http.proxies| > 0
    ensures var n := |f.client.http.proxies|;
      var i := f.client.http.index.i;
      SyncProxy(f).exchange.httpProxy
        == Some(ProxyUrl(f.client.http.proxies[if i + 1 == n then 0 else i + 1]))
  {
    var n := |f.client.http.proxies|;
    var j := if f.client.http.index.i + 1 == n then 0 else f.client.http.index.i + 1;
    var c := BaseClass.RotateProxy(f.client).1;
    assert c.http.index == Int(j);
    assert BaseClass.RotateProxy(f.client).0 == Ok(f.client.http.proxies[j]);
    assert SyncProxy(f).exchange == SyncCcxtProxy(f.exchange, f.client.http.proxies[j]);
  }
}

=== FILE: trade_errors.dfy ===
/** The tagged error values every public operation returns instead of throwing. Each variant
    carries the `reason` tag the library's callers switch on, with the fields of its `info`. */
module TradeErrors {
  import opened Wrappers
  import opened Js

  /** The `code` of a `TRADEKIT_ERROR`: failures the library detects itself. */
  datatype TradekitCode = BadSymbol | InvalidOrder | TimeOut | ConversionError | AuthUnset | ProxyUnset

  /** The code literal as the library spells it (including its spelling `AUHT_UNSET`). */
  function CodeLiteral(c: TradekitCode): string {
    match c
    case BadSymbol => "BAD_SYMBOL"
    case InvalidOrder => "INVALID_ORDER"
    case TimeOut => "TIME_OUT"
    case ConversionError => "CONVERSION_ERROR"
    case AuthUnset => "AUHT_UNSET"
    case ProxyUnset => "PROXY_UNSET"
  }

  /** The `code` of a `WEB_SOCKET_ERROR`: a fixed tag from the ccxt-venue streams, or the
      numeric code OKX reports. */
  datatype WsCode = HandledError | UnhandledError | Numeric(n: IntOrNaN)

  datatype TradeError =
    | RateLimit
      /** `NETWORK_ERROR`; OKX adds the error name as `code`. */
    | NetworkFailure(netMsg: string, netCode: Option<string>)
      /** `EXCHANGE_ERROR` from a ccxt venue: the venue's own code and message, as parsed. */
    | VenueError(exchange: string, venueCode: JsVal, venueMsg: JsVal)
      /** `EXCHANGE_ERROR` from the OKX REST client: HTTP status and the numeric venue code. */
    | HttpVenueError(statusCode: int, httpCode: IntOrNaN, httpMsg: JsVal)
    | TradekitError(code: TradekitCode, tkMsg: JsVal)
    | CcxtError(ccxtCode: string, ccxtMsg: string, original: Thrown)
    | UnknownError(unknownMsg: string, unknownCode: string)
    | WebSocketError(wsMsg: JsVal, wsCode: WsCode, connId: JsVal)

  function Reason(e: TradeError): string {
    match e
    case RateLimit => "RATE_LIMIT"
    case NetworkFailure(_, _) => "NETWORK_ERROR"
    case VenueError(_, _, _) => "EXCHANGE_ERROR"
    case HttpVenueError(_, _, _) => "EXCHANGE_ERROR"
    case TradekitError(_, _) => "TRADEKIT_ERROR"
    case CcxtError(_, _, _) => "CCXT_ERROR"
    case UnknownError(_, _) => "UNKNOWN_ERROR"
    case WebSocketError(_, _, _) => "WEB_SOCKET_ERROR"
  }

  /** A `TRADEKIT_ERROR` built from a code and a message string. */
  function Tradekit(code: TradekitCode, msg: string): (e: TradeError)
    ensures Reason(e) == "TRADEKIT_ERROR" && e.code == code && e.tkMsg == Str(msg)
  {
    TradekitError(code, Str(msg))
  }

  /** `createError`: the conversion failure the shared adapters report. */
  function CreateError(msg: string): (e: TradeError)
    ensures Reason(e) == "TRADEKIT_ERROR" && CodeLiteral(e.code) == "CONVERSION_ERROR"
    ensures e.tkMsg == Str(msg)
  {
    Tradekit(ConversionError, msg)
  }
}

=== FILE: utf8.dfy ===
/** UTF-8 (RFC 3629), as `Buffer.from(text)` produces it. Dafny characters are Unicode
    scalar values, so every character has an encoding of one to four bytes. */
module Utf8 {
  import opened Wrappers

  newtype byte = x: int | 0 <= x < 256

  predicate IsContinuation(b: byte) {
    0x80 <= b < 0xC0
  }

  function EncodeChar(c: char): (r: seq<byte>)
    ensures 1 <= |r| <= 4
    ensures |r| == 1 <==> c as int < 0x80
    ensures forall i :: 1 <= i < |r| ==> IsContinuation(r[i])
  {
    var cp := c as int;
    if cp < 0x80 then [cp as byte]
    else if cp < 0x800 then [(0xC0 + cp / 64) as byte, (0x80 + cp % 64) as byte]
    else if cp < 0x10000 then
      [(0xE0 + cp / 4096) as byte, (0x80 + (cp / 64) % 64) as byte, (0x80 + cp % 64) as byte]
    else
      [(0xF0 + cp / 262144) as byte, (0x80 + (cp / 4096) % 64) as byte,
       (0x80 + (cp / 64) % 64) as byte, (0x80 + cp % 64) as byte]
  }

  function Encode(s: string): (r: seq<byte>)
    ensures |r| >= |s|
    ensures (forall i :: 0 <= i < |s| ==> s[i] as int < 0x80) ==> |r| == |s|
  {
    if |s| == 0 then [] else EncodeChar(s[0]) + Encode(s[1..])
  }

  /** The number of bytes a sequence starting with lead byte `b` occupies, or 0 for a byte
      that cannot start one. */
  function SequenceLength(b: byte): nat {
    if b < 0x80 then 1
    else if 0xC2 <= b < 0xE0 then 2
    else if 0xE0 <= b < 0xF0 then 3
    else if 0xF0 <= b < 0xF5 then 4
    else 0
  }

  /** The code point of a scalar value, or None for a surrogate or a value past U+10FFFF. */
  function ScalarOf(cp: int, least: int): (r: Option<char>)
    ensures r.Some? ==> r.value as int == cp
  {
    if cp < least || cp > 0x10FFFF || (0xD800 <= cp < 0xE000) || cp < 0 then None
    else Some(cp as char)
  }

  /** The character one well-formed sequence `bs` encodes (RFC 3629 section 4); overlong
      forms, surrogates and values past U+10FFFF are rejected. */
  function DecodeSequence(bs: seq<byte>): (r: Option<char>)
    requires 1 <= |bs| <= 4 && |bs| == SequenceLength(bs[0])
  {
    if |bs| == 1 then ScalarOf(bs[0] as int, 0)
    else if !IsContinuation(bs[1]) then None
    else
      var c1 := bs[1] as int - 0x80;
      if |bs| == 2 then ScalarOf((bs[0] as int - 0xC0) * 64 + c1, 0x80)
      else if !IsContinuation(bs[2]) then None
      else
        var c2 := bs[2] as int - 0x80;
        if |bs| == 3 then ScalarOf(((bs[0] as int - 0xE0) * 64 + c1) * 64 + c2, 0x800)
        else if !IsContinuation(bs[3]) then None
        else ScalarOf((((bs[0] as int - 0xF0) * 64 + c1) * 64 + c2) * 64 + (bs[3] as int - 0x80), 0x10000)
  }

  function Decode(bs: seq<byte>): (r: Option<string>)
    decreases |bs|
  {
    if |bs| == 0 then Some("")
    else
      var n := SequenceLength(bs[0]);
      if n == 0 || n > |bs| then None
      else
        match DecodeSequence(bs[..n])
        case None => None
        case Some(c) =>
          match Decode(bs[n..])
          case None => None
          case Some(rest) => Some([c] + rest)
  }

  lemma DecodeTwo(cp: int)
    requires 0x80 <= cp < 0x800
    ensures (cp / 64) * 64 + cp % 64 == cp && 2 <= cp / 64 < 32
  {
  }

  lemma DecodeThree(cp: int)
    requires 0x800 <= cp < 0x10000
    ensures ((cp / 4096) * 64 + (cp / 64) % 64) * 64 + cp % 64 == cp && cp / 4096 < 16
  {
    assert cp / 64 == (cp / 4096) * 64 + (cp / 64) % 64;
  }

  lemma DecodeFour(cp: int)
    requires 0x10000 <= cp < 0x110000
    ensures (((cp / 262144) * 64 + (cp / 4096) % 64) * 64 + (cp / 64) % 64) * 64 + cp % 64 == cp
    ensures cp / 262144 < 5
  {
    assert cp / 4096 == (cp / 262144) * 64 + (cp / 4096) % 64;
    assert cp / 64 == (cp / 4096) * 64 + (cp / 64) % 64;
  }

  lemma DecodeEncodeChar(c: char)
    ensures var e := EncodeChar(c); SequenceLength(e[0]) == |e| && DecodeSequence(e) == Some(c)
  {
    var cp := c as int;
    if cp < 0x80 {
    } else if cp < 0x800 {
      DecodeTwo(cp);
    } else if cp < 0x10000 {
      DecodeThree(cp);
    } else {
      DecodeFour(cp);
    }
  }

  /** Decoding undoes `Buffer.from`'s encoding. */
  lemma {:induction false} DecodeEncode(s: string)
    ensures Decode(Encode(s)) == Some(s)
  {
    if |s| > 0 {
      var e := EncodeChar(s[0]);
      var bs := Encode(s);
      DecodeEncodeChar(s[0]);
      assert bs[..|e|] == e;
      assert bs[|e|..] == Encode(s[1..]);
      DecodeEncode(s[1..]);
      assert s == [s[0]] + s[1..];
    }
  }

  /** Two strings with the same encoding are equal. */
  lemma EncodeInjective(s: string, t: string)
    requires Encode(s) == Encode(t)
    ensures s == t
  {
    DecodeEncode(s);
    DecodeEncode(t);
  }
}

=== FILE: venue_errors.dfy ===
/** `handleError` of the three ccxt-backed venues (Binance, Bybit, Bitget): it turns whatever a
    ccxt call threw into a `TradeError`. The classes are tested from the most specific group
    down: network errors, exchange errors (whose message carries the venue's JSON payload after
    a `"<venue> "` prefix), other ccxt errors, other `Error`s, and finally non-errors.

    `JSON.parse` is a parameter: `parse(text)` is the parsed value, or None when the engine
    would throw a `SyntaxError`. A normalizer that reaches `JSON.parse` or a property read on
    `null` can itself throw, which the result records as an `Abrupt` completion. */
module VenueErrors {
  import opened Wrappers
  import opened Js
  import TE = TradeErrors
  import Strs
  import Naming

  datatype Venue = Binance | Bybit | Bitget

  function VenueName(v: Venue): string {
    match v
    case Binance => "binance"
    case Bybit => "bybit"
    case Bitget => "bitget"
  }

  /** `JSON.parse`: None when the text is not JSON. */
  type JsonParser = string -> Option<JsVal>

  const GoodJobMessage: string :=
    "If you see this error you have successfully broken my code. Congratulations!"

  /** The message with the first `"<venue> "` removed, as handed to `JSON.parse`. */
  function PayloadText(v: Venue, message: string): string {
    Strs.ReplaceFirst(message, VenueName(v) + " ", "")
  }

  /** Binance: code -2022 means a rejected order; any other code is reported as a string. */
  function BinancePayload(p: JsVal): (r: Completion<TE.TradeError>)
    ensures r.Abrupt? <==> IsNullish(p) || IsNullish(OptProp(p, "code"))
    ensures r.Abrupt? ==> IsTypeError(r.thrown)
    ensures r.Normal? && r.value.VenueError? ==> r.value.venueCode == Str(ToString(OptProp(p, "code")))
    // Whatever else the payload carries, -2022 is a rejected order and any other code is the
    // venue's, with the message alongside.
    ensures !IsNullish(p) && OptProp(p, "code") == Num(-2022) ==>
      r == Normal(TE.TradekitError(TE.InvalidOrder, OptProp(p, "msg")))
    ensures !IsNullish(p) && !IsNullish(OptProp(p, "code")) && OptProp(p, "code") != Num(-2022) ==>
      r == Normal(TE.VenueError("binance", Str(ToString(OptProp(p, "code"))), OptProp(p, "msg")))
  {
    match Prop(p, "code")
    case Abrupt(t) => Abrupt(t)
    case Normal(code) =>
      var msg := OptProp(p, "msg");
      if code == Num(-2022) then Normal(TE.TradekitError(TE.InvalidOrder, msg))
      else if IsNullish(code) then Abrupt(TypeError("Cannot read properties of undefined (reading 'toString')"))
      else Normal(TE.VenueError("binance", Str(ToString(code)), msg))
  }

  /** Bybit: `retCode` and `retMsg` are reported verbatim. */
  function BybitPayload(p: JsVal): (r: Completion<TE.TradeError>)
    ensures r.Abrupt? <==> IsNullish(p)
    ensures r.Abrupt? ==> IsTypeError(r.thrown)
    ensures r.Normal? ==> r.value == TE.VenueError("bybit", OptProp(p, "retCode"), OptProp(p, "retMsg"))
  {
    match Prop(p, "retCode")
    case Abrupt(t) => Abrupt(t)
    case Normal(code) => Normal(TE.VenueError("bybit", code, OptProp(p, "retMsg")))
  }

  /** Bitget: code "40034" is an unknown symbol, "22002" a rejected order. */
  function BitgetPayload(p: JsVal): (r: Completion<TE.TradeError>)
    ensures r.Abrupt? <==> IsNullish(p)
    ensures r.Abrupt? ==> IsTypeError(r.thrown)
    // Whatever else the payload carries, the two codes are re-classified and any other code,
    // present or not, is the venue's, with the message alongside.
    ensures !IsNullish(p) && OptProp(p, "code") == Str("40034") ==>
      r == Normal(TE.TradekitError(TE.BadSymbol, OptProp(p, "msg")))
    ensures !IsNullish(p) && OptProp(p, "code") == Str("22002") ==>
      r == Normal(TE.TradekitError(TE.InvalidOrder, OptProp(p, "msg")))
    ensures !IsNullish(p) && OptProp(p, "code") != Str("40034") && OptProp(p, "code") != Str("22002") ==>
      r == Normal(TE.VenueError("bitget", OptProp(p, "code"), OptProp(p, "msg")))
  {
    match Prop(p, "code")
    case Abrupt(t) => Abrupt(t)
    case Normal(code) =>
      var msg := OptProp(p, "msg");
      if code == Str("40034") then Normal(TE.TradekitError(TE.BadSymbol, msg))
      else if code == Str("22002") then Normal(TE.TradekitError(TE.InvalidOrder, msg))
      else Normal(TE.VenueError("bitget", code, msg))
  }

  function Payload(v: Venue, p: JsVal): (r: Completion<TE.TradeError>)
    ensures r.Abrupt? ==> IsTypeError(r.thrown)
    ensures r != Normal(TE.RateLimit)
  {
    match v
    case Binance => BinancePayload(p)
    case Bybit => BybitPayload(p)
    case Bitget => BitgetPayload(p)
  }

  /** The exchange errors whose message is parsed as a venue payload: every `ExchangeError`
      except `BadSymbol`, and except `InvalidOrder` on Binance and Bybit. */
  predicate ParsesPayload(v: Venue, e: Thrown) {
    IsExchangeError(e) && !e.kind.BadSymbol? && (v == Bitget || !e.kind.InvalidOrder?)
  }

  /** An exchange error: a bad symbol, and on Binance and Bybit a rejected order, are reported
      from the ccxt class; the others from the venue's JSON payload. */
  function ExchangeFailure(v: Venue, parse: JsonParser, e: Thrown): (r: Completion<TE.TradeError>)
    requires IsExchangeError(e)
    ensures r.Abrupt? ==> ParsesPayload(v, e) && r.thrown.ErrorObject? && r.thrown.kind.PlainError?
    ensures r.Abrupt? ==> r.thrown.name == "SyntaxError" || r.thrown.name == "TypeError"
    ensures ParsesPayload(v, e) && parse(PayloadText(v, e.message)).None? ==> r == Abrupt(SyntaxError())
    ensures ParsesPayload(v, e) && parse(PayloadText(v, e.message)).Some? ==>
      r == Payload(v, parse(PayloadText(v, e.message)).value)
    ensures !ParsesPayload(v, e) ==>
      r == Normal(TE.Tradekit(if e.kind.BadSymbol? then TE.BadSymbol else TE.InvalidOrder, e.message))
    ensures r != Normal(TE.RateLimit)
  {
    if e.kind.BadSymbol? then Normal(TE.Tradekit(TE.BadSymbol, e.message))
    else if e.kind.InvalidOrder? && v != Bitget then Normal(TE.Tradekit(TE.InvalidOrder, e.message))
    else
      match parse(PayloadText(v, e.message))
      case None => Abrupt(SyntaxError())
      case Some(p) => Payload(v, p)
  }

  function HandleError(v: Venue, parse: JsonParser, e: Thrown): (r: Completion<TE.TradeError>)
    // Only the payload path can throw, and then only a SyntaxError or a TypeError.
    ensures r.Abrupt? ==> ParsesPayload(v, e) && r.thrown.ErrorObject? && r.thrown.kind.PlainError?
    ensures r.Abrupt? ==> r.thrown.name == "SyntaxError" || r.thrown.name == "TypeError"
    ensures ParsesPayload(v, e) && parse(PayloadText(v, e.message)).None? ==> r == Abrupt(SyntaxError())
    // A rate limit is reported as such, and nothing else is.
    ensures r == Normal(TE.RateLimit) <==> (e.ErrorObject? && e.kind.RateLimitExceeded?)
    ensures IsNetworkError(e) && !e.kind.RateLimitExceeded? ==> r == Normal(TE.NetworkFailure(e.message, None))
    ensures IsExchangeError(e) && !ParsesPayload(v, e) ==>
      r == Normal(TE.Tradekit(if e.kind.BadSymbol? then TE.BadSymbol else TE.InvalidOrder, e.message))
    // Other ccxt errors keep their class name, converted to upper snake case.
    ensures IsBaseError(e) && !IsNetworkError(e) && !IsExchangeError(e) ==>
      r == Normal(TE.CcxtError(Naming.UpperSnake(e.name), e.message, e))
    ensures r.Normal? && r.value.CcxtError? ==> IsBaseError(e) && r.value.original == e
    ensures IsError(e) && !IsBaseError(e) ==> r.Normal? && r.value.UnknownError?
    ensures !IsError(e) ==> r == Normal(TE.UnknownError(GoodJobMessage, "GOOD_JOB"))
  {
    if IsNetworkError(e) then
      if e.kind.RateLimitExceeded? then Normal(TE.RateLimit)
      else Normal(TE.NetworkFailure(e.message, None))
    else if IsExchangeError(e) then
      ExchangeFailure(v, parse, e)
    else if IsBaseError(e) then
      Normal(TE.CcxtError(Naming.UpperSnake(e.name), e.message, e))
    else if IsError(e) then
      if v == Bitget then Normal(TE.UnknownError(e.message, Naming.UpperSnake(e.name)))
      else Normal(TE.UnknownError(Naming.UpperSnake(e.name), "UNKNOWN"))
    else Normal(TE.UnknownError(GoodJobMessage, "GOOD_JOB"))
  }

  /** The Binance payload `{"code": c, "msg": m}` read on its own. */
  lemma BinanceObjectPayload(c: int, m: string)
    ensures BinancePayload(Obj(map["code" := Num(c), "msg" := Str(m)])) ==
      Normal(if c == -2022 then TE.TradekitError(TE.InvalidOrder, Str(m))
             else TE.VenueError("binance", Str(IntToDecimal(c)), Str(m)))
  {
    var obj := Obj(map["code" := Num(c), "msg" := Str(m)]);
    assert Prop(obj, "code") == Normal(Num(c));
    assert OptProp(obj, "msg") == Str(m);
  }

  /** A Binance payload `{"code": c, "msg": m}`: code -2022 is a rejected order, every other code
      is reported as its decimal string, which `parseInt` turns back into `c`. */
  lemma BinanceCodeRoundTrip(parse: JsonParser, name: string, text: string, c: int, m: string)
    requires parse(text) == Some(Obj(map["code" := Num(c), "msg" := Str(m)]))
    ensures var r := HandleError(Binance, parse, ErrorObject(ExchangeError, name, "binance " + text));
      r.Normal?
      && (c == -2022 ==> r.value == TE.TradekitError(TE.InvalidOrder, Str(m)))
      && (c != -2022 ==> r.value == TE.VenueError("binance", Str(IntToDecimal(c)), Str(m))
                         && ParseInt(r.value.venueCode.s, 10) == Int(c))
  {
    Strs.ReplacePrefix("binance ", text);
    var e := ErrorObject(ExchangeError, name, "binance " + text);
    assert PayloadText(Binance, e.message) == text;
    assert HandleError(Binance, parse, e) == BinancePayload(Obj(map["code" := Num(c), "msg" := Str(m)]));
    BinanceObjectPayload(c, m);
    ParseIntOfDecimal(c, 10);
  }

  /** A Bybit payload is passed through unchanged, whatever its code. */
  lemma BybitPassThrough(parse: JsonParser, kind: ErrorKind, name: string, text: string, code: JsVal, msg: JsVal)
    requires kind.ExchangeError?
    requires parse(text) == Some(Obj(map["retCode" := code, "retMsg" := msg]))
    ensures HandleError(Bybit, parse, ErrorObject(kind, name, "bybit " + text)) == Normal(TE.VenueError("bybit", code, msg))
  {
    Strs.ReplacePrefix("bybit ", text);
  }

  /** Bitget re-classifies two codes and passes the others through; even a ccxt `InvalidOrder`
      goes through the payload. */
  lemma BitgetCodes(parse: JsonParser, kind: ErrorKind, name: string, text: string, code: JsVal, msg: JsVal)
    requires kind.ExchangeError? || kind.InvalidOrder?
    requires parse(text) == Some(Obj(map["code" := code, "msg" := msg]))
    ensures var r := HandleError(Bitget, parse, ErrorObject(kind, name, "bitget " + text));
      && (code == Str("40034") ==> r == Normal(TE.TradekitError(TE.BadSymbol, msg)))
      && (code == Str("22002") ==> r == Normal(TE.TradekitError(TE.InvalidOrder, msg)))
      && (code != Str("40034") && code != Str("22002") ==> r == Normal(TE.VenueError("bitget", code, msg)))
  {
    Strs.ReplacePrefix("bitget ", text);
  }

  /** A plain `Error` is reported with its upper-snake name: as the message on Binance and
      Bybit, as the code on Bitget. */
  lemma PlainErrorNames(parse: JsonParser, name: string, message: string)
    ensures HandleError(Binance, parse, ErrorObject(PlainError, name, message))
      == Normal(TE.UnknownError(Naming.UpperSnake(name), "UNKNOWN"))
    ensures HandleError(Bybit, parse, ErrorObject(PlainError, name, message))
      == Normal(TE.UnknownError(Naming.UpperSnake(name), "UNKNOWN"))
    ensures HandleError(Bitget, parse, ErrorObject(PlainError, name, message))
      == Normal(TE.UnknownError(message, Naming.UpperSnake(name)))
  {
  }
}

=== FILE: wrappers.dfy ===
/** Option and Result, the two failure-carrying datatypes the rest of the model uses.
    `Result` mirrors the `ok`/`err` values that the library returns to its callers. */
module Wrappers {

  datatype Option<+T> = None | Some(value: T) {

    /** The value, or `default` when there is none. */
    function GetOr(default: T): T {
      match this
      case Some(v) => v
      case None => default
    }
  }

  datatype Result<+T, +E> = Ok(value: T) | Err(error: E) {

    /** Converts to an Option, dropping the error. */
    function ToOption(): Option<T> {
      match this
      case Ok(v) => Some(v)
      case Err(_) => None
    }
  }

  /** `Result.combine`: the first error in list order, otherwise every value in order. */
  function Combine<T, E>(rs: seq<Result<T, E>>): (r: Result<seq<T>, E>)
    ensures r.Ok? <==> forall i :: 0 <= i < |rs| ==> rs[i].Ok?
    ensures r.Ok? ==> |r.value| == |rs| && forall i :: 0 <= i < |rs| ==> r.value[i] == rs[i].value
    ensures r.Err? ==> exists i :: 0 <= i < |rs| && rs[i] == Err(r.error) && forall j :: 0 <= j < i ==> rs[j].Ok?
  {
    if |rs| == 0 then Ok([])
    else match rs[0]
      case Err(e) => Err(e)
      case Ok(v) =>
        match Combine(rs[1..])
        case Err(e) =>
          ghost var i :| 0 <= i < |rs[1..]| && rs[1..][i] == Err(e) && forall j :: 0 <= j < i ==> rs[1..][j].Ok?;
          assert rs[i + 1] == Err(e);
          Err(e)
        case Ok(vs) => Ok([v] + vs)
  }
}
